=== FILE: README.md ===
# A verified model of the `com.jianglei.util` collections

This project models, in Dafny, the algorithmic core of a hand-written copy of
the Java collections framework: the dynamic array list `ArrayList`, the
chained hash table `HashMap`, and the skeletal implementations
`AbstractCollection`, `AbstractList` (with its `Itr`, `ListItr` and
`SubList`) and `AbstractMap`. Each is checked against an abstract
description:
- array lists against the sequence `elementData[0..size)`;
- the hash table against a mapping from keys to values;
- the skeletons against the sequence their subclass's iterator yields.

Modules, one per file:
- `JavaLang` (`java_lang.dfy`) covers what the model takes from the Java platform:
  - 32-bit `int` arithmetic with wrap-around;
  - `null` as `Ref.Null`;
  - exceptions as the error side of `Result`/`Outcome`;
  - `System.arraycopy` (overlap-safe);
  - `Arrays.copyOf`.
- `ListSpec` (`list_spec.dfy`) holds the list vocabulary the rest is stated in:
  - insertion and deletion at a position;
  - first and last index;
  - removal of the first occurrence;
  - the order-keeping filter of `removeAll`/`retainAll`.
- `Bits` (`bits.dfy`) holds the bit-level helpers of the hash table on unsigned 32-bit patterns:
  - `&`, `|`, `^` and `>>>`;
  - `hash` and `tableSizeFor`;
  - bucket addressing `(n - 1) & hash`;
  - the split rule of `resize`.
- `HashTables` (`hash_table.dfy`) holds the table invariant:
  - every node sits in the bin its hash selects;
  - keys are distinct within a bin;
  - the nodes are exactly the mapping.

  It also proves that lookup, replacement, tail append, unlinking and the lo/hi resize split keep that invariant.
- `ArrayLists` (`array_list.dfy`) has the classes `ArrayList`, `Itr` (also `ListItr`), `SubList` and its iterator.
- `HashMaps` (`hash_map.dfy`) has the class `HashMap`, whose table is an array of chains with a ghost `contents` mapping.
- `AbstractCollections`, `AbstractLists` and `AbstractMaps` hold the skeletons. The primitives a subclass supplies (`iterator`, `size`, `get`, `set`, `add`, `remove`, `entrySet`) are modelled by the sequence they expose.

Element equality (`equals`) is Dafny equality on `Ref<T>`, so `null` matches only `null`. Hash codes are a function `K -> int32` handed to the map.

## Model

| member | source | states |
|---|---|---|
| `JavaLang.Wrap32` | src/main/java/com/jianglei/util/ArrayList.java:84-92 | the 32-bit two's-complement value of an exact result: congruent to it modulo 2^32 and within `int` range |
| `JavaLang.Unsigned` | src/main/java/com/jianglei/util/HashMap.java:67-70 | the unsigned 32-bit pattern of an `int`: below 2^32, the value itself when non-negative, the value plus 2^32 when negative |
| `JavaLang.Signed` | src/main/java/com/jianglei/util/HashMap.java:67-70 | the inverse of `Unsigned`: the `int` whose pattern is the given one |
| `JavaLang.ArrayCopy` | src/main/java/com/jianglei/util/ArrayList.java:189-197 | `System.arraycopy`: the destination window becomes the source window as it was before the call, even when source and destination overlap; every other slot is unchanged |
| `JavaLang.CopiedSlots` | src/main/java/com/jianglei/util/ArrayList.java:199-210 | slot by slot, a copy holds the source inside the window and the old destination outside it |
| `JavaLang.CopyDownward` | src/main/java/com/jianglei/util/ArrayList.java:193-194 | `System.arraycopy` within one array to a higher position: the target window holds the old source window, every other slot unchanged |
| `JavaLang.CopyUpward` | src/main/java/com/jianglei/util/ArrayList.java:206-207 | `System.arraycopy` within one array to a lower position: the target window holds the old source window, every other slot unchanged |
| `JavaLang.CopyBetween` | src/main/java/com/jianglei/util/ArrayList.java:253 | `System.arraycopy` between two arrays: the target window holds the source window, every other target slot unchanged |
| `JavaLang.Store` | src/main/java/com/jianglei/util/ArrayList.java:195 | an array store changes that one slot and nothing else |
| `JavaLang.CopyOf` | src/main/java/com/jianglei/util/ArrayList.java:84-92 | `Arrays.copyOf`: a fresh array of the new length holding the old prefix, padded with null |
| `ListSpec.InsertAllAtSlots` | src/main/java/com/jianglei/util/ArrayList.java:258-271 | inserting `xs` at `index`, read off position by position (prefix, inserted block, shifted tail) |
| `ListSpec.DeleteRangeSlots` | src/main/java/com/jianglei/util/ArrayList.java:273-283 | deleting `[from, to)`, read off position by position |
| `ListSpec.InsertAllAtWindow` | src/main/java/com/jianglei/util/AbstractList.java:318-329 | inserting into a sub-list window is inserting into the parent at the offset position |
| `ListSpec.DeleteRangeWindow` | src/main/java/com/jianglei/util/AbstractList.java:307-312 | deleting a range of a sub-list window is deleting the offset range of the parent |
| `ListSpec.InsertAtIsInsertAll` | src/main/java/com/jianglei/util/AbstractList.java:15-18 | inserting one element is inserting the one-element list |
| `ListSpec.DeleteInsert` | src/main/java/com/jianglei/util/ArrayList.java:189-210 | `add(i, e)` followed by `remove(i)` gives back the original contents |
| `ListSpec.DeleteAtIsRange` | src/main/java/com/jianglei/util/ArrayList.java:273-283 | removing one element is removing the range of length one |
| `ListSpec.FirstIndex` | src/main/java/com/jianglei/util/ArrayList.java:114-126 | -1 exactly when the value is absent; otherwise a position holding it with no earlier one |
| `ListSpec.LastIndex` | src/main/java/com/jianglei/util/ArrayList.java:128-139 | -1 exactly when the value is absent; otherwise a position holding it with no later one |
| `ListSpec.FirstIndexAt` | src/main/java/com/jianglei/util/ArrayList.java:114-126 | any position holding the value with none before it is the first index |
| `ListSpec.LastIndexAt` | src/main/java/com/jianglei/util/ArrayList.java:128-139 | any position holding the value with none after it is the last index |
| `ListSpec.Keep` | src/main/java/com/jianglei/util/ArrayList.java:310-336 | the survivors of a bulk removal are never more than the input |
| `ListSpec.KeepMembers` | src/main/java/com/jianglei/util/ArrayList.java:310-336 | the survivors are exactly the input elements whose membership in `c` equals `complement` |
| `ListSpec.KeepAll` | src/main/java/com/jianglei/util/ArrayList.java:310-336 | nothing is removed exactly when every element passes the test (the "modified" result in both directions) |
| `ListSpec.KeepUnchanged` | src/main/java/com/jianglei/util/ArrayList.java:310-336 | when every element passes, the list is left as it is |
| `ListSpec.KeepIdempotent` | src/main/java/com/jianglei/util/AbstractCollection.java:250-274 | repeating `removeAll`/`retainAll` with the same `c` changes nothing more |
| `ListSpec.KeepSnoc` | src/main/java/com/jianglei/util/ArrayList.java:316-325 | the filter of a prefix extended by one element keeps that element exactly when it passes |
| `Bits.Pow2Values` | src/main/java/com/jianglei/util/HashMap.java:18-22 | the powers of two behind the constants: 2^16 (the spread shift), 2^30 (`MAXIMUM_CAPACITY`), 2^31 and 2^32 |
| `Bits.And` | src/main/java/com/jianglei/util/HashMap.java:180 | `a & b` is at most each operand |
| `Bits.Or` | src/main/java/com/jianglei/util/HashMap.java:100-109 | `a \| b` is at least each operand |
| `Bits.Xor` | src/main/java/com/jianglei/util/HashMap.java:67-70 | `a ^ b` is at most `a + b` |
| `Bits.Shr` | src/main/java/com/jianglei/util/HashMap.java:67-70 | `x >>> s` is at most `x` |
| `Bits.BitsDetermine` | src/main/java/com/jianglei/util/HashMap.java:67-70 | two patterns with the same bits are equal |
| `Bits.Index` | src/main/java/com/jianglei/util/HashMap.java:180 | `(n - 1) & hash` is a valid bucket, below `n` |
| `Bits.IndexSplit` | src/main/java/com/jianglei/util/HashMap.java:301 | in a table of `2 * oldCap`, a hash lands in its old bucket when `hash & oldCap == 0` and `oldCap` further up otherwise |
| `Bits.AndPow2` | src/main/java/com/jianglei/util/HashMap.java:301 | `hash & 2^k` is `2^k` when bit `k` is set and 0 otherwise |
| `Bits.DoublePow2` | src/main/java/com/jianglei/util/HashMap.java:267 | doubling a power of two gives a power of two |
| `Bits.Spread` | src/main/java/com/jianglei/util/HashMap.java:67-70 | `h ^ (h >>> 16)` of a 32-bit pattern is a 32-bit pattern |
| `Bits.SpreadInvolution` | src/main/java/com/jianglei/util/HashMap.java:67-70 | the spread keeps the upper 16 bits, and spreading twice gives back the hash code |
| `Bits.SpreadInjective` | src/main/java/com/jianglei/util/HashMap.java:67-70 | distinct hash codes give distinct hashes |
| `Bits.Hash` | src/main/java/com/jianglei/util/HashMap.java:67-70 | `hash(null)` is 0, and every hash is a 32-bit pattern |
| `Bits.SmearFills` | src/main/java/com/jianglei/util/HashMap.java:100-108 | the five `n \|= n >>> s` steps set every bit below the top bit of a 32-bit pattern |
| `Bits.Smear` | src/main/java/com/jianglei/util/HashMap.java:102-106 | the shift-or cascade of `tableSizeFor` never clears a bit, so the result is at least its input (`SmearFills` gives its exact value) |
| `Bits.TableSizeFor` | src/main/java/com/jianglei/util/HashMap.java:100-109 | `tableSizeFor(cap)` lies in `[1, MAXIMUM_CAPACITY]` |
| `Bits.TableSizeForSpec` | src/main/java/com/jianglei/util/HashMap.java:100-109 | for `1 <= cap <= 2^30`, the smallest power of two at least `cap`; larger requests give `2^30`, zero or negative ones give 1 |
| `Bits.TableSizeForNonPositive` | src/main/java/com/jianglei/util/HashMap.java:108 | a zero or negative request gives 1 |
| `Bits.TableSizeForLarge` | src/main/java/com/jianglei/util/HashMap.java:108 | a request above `2^30` gives `2^30` |
| `Bits.TableSizeForInRange` | src/main/java/com/jianglei/util/HashMap.java:100-109 | a request in `[1, 2^30]` gives `2^BitLength(cap - 1)`: a power of two at least the request and less than twice it |
| `HashTables.Keys` | src/main/java/com/jianglei/util/HashMap.java:189-194 | the keys of a chain, one per node, in chain order |
| `HashTables.EmptyBins` | src/main/java/com/jianglei/util/HashMap.java:283-284 | a freshly allocated table: `n` empty bins |
| `HashTables.EmptyTable` | src/main/java/com/jianglei/util/HashMap.java:283-284 | a table of empty bins holds the empty mapping |
| `HashTables.EmptyContents` | src/main/java/com/jianglei/util/HashMap.java:410-419 | a table holding the empty mapping has only empty bins |
| `HashTables.Lookup` | src/main/java/com/jianglei/util/HashMap.java:174-198 | a key is in its bin exactly when the mapping has it, and the first node with it holds its hash and value |
| `HashTables.ValueInTable` | src/main/java/com/jianglei/util/HashMap.java:421-434 | a value is mapped exactly when some node of some bin holds it |
| `HashTables.UpdateBin` | src/main/java/com/jianglei/util/HashMap.java:204-252 | replacing the bin of a key keeps the table invariant when the mapping changes at that key only |
| `HashTables.PutPresent` | src/main/java/com/jianglei/util/HashMap.java:233-241 | overwriting the value in the node of a present key gives a table of the updated mapping |
| `HashTables.ReplaceInBin` | src/main/java/com/jianglei/util/HashMap.java:233-241 | the bin with that node rewritten keeps its keys, its placement and its distinctness |
| `HashTables.PutAbsent` | src/main/java/com/jianglei/util/HashMap.java:212-226 | appending a node for an absent key at the tail of its bin gives a table of the extended mapping |
| `HashTables.RemovePresent` | src/main/java/com/jianglei/util/HashMap.java:366-408 | unlinking the node of a present key gives a table of the mapping without it |
| `HashTables.DeleteFromBin` | src/main/java/com/jianglei/util/HashMap.java:390-398 | a bin with one node deleted loses exactly that key |
| `HashTables.DeleteAtKeys` | src/main/java/com/jianglei/util/HashMap.java:390-398 | the keys of a bin with position `k` deleted are its keys with position `k` deleted |
| `HashTables.Half` | src/main/java/com/jianglei/util/HashMap.java:295-316 | the `lo`/`hi` chain of `resize` is never longer than its bin (its nodes are characterised by `HalfMembers`) |
| `HashTables.HalfMembers` | src/main/java/com/jianglei/util/HashMap.java:295-316 | a half holds exactly the bin's nodes with the right bit |
| `HashTables.HalvesPartition` | src/main/java/com/jianglei/util/HashMap.java:295-316 | the two halves together hold every node of the bin once: none lost, none duplicated |
| `HashTables.HalfDistinct` | src/main/java/com/jianglei/util/HashMap.java:295-316 | a half of a bin without repeated keys has none either |
| `HashTables.Rehash` | src/main/java/com/jianglei/util/HashMap.java:285-329 | the table `resize` builds has twice as many bins as the old one |
| `HashTables.RehashNodes` | src/main/java/com/jianglei/util/HashMap.java:285-329 | the rehashed table holds the same multiset of nodes: nothing lost or duplicated |
| `HashTables.RehashMember` | src/main/java/com/jianglei/util/HashMap.java:285-329 | a node of new bin `j` or `j + oldCap` comes from old bin `j`, with the matching bit |
| `HashTables.RehashTable` | src/main/java/com/jianglei/util/HashMap.java:285-329 | after the split every node sits in bucket `hash & (newCap - 1)` and the table holds the same mapping |
| `HashTables.RehashIndexed` | src/main/java/com/jianglei/util/HashMap.java:285-329 | a table of `n` bins placed by `(n - 1) & hash` becomes a table of `2n` bins placed by `(2n - 1) & hash`, with the same mapping |
| `HashTables.RehashPlaced` | src/main/java/com/jianglei/util/HashMap.java:285-329 | every rehashed node is still an entry of the mapping, placed by the doubled mask |
| `HashTables.RehashDistinct` | src/main/java/com/jianglei/util/HashMap.java:285-329 | no rehashed bin repeats a key |
| `HashTables.RehashFinds` | src/main/java/com/jianglei/util/HashMap.java:285-329 | every mapped key is found in the bin the doubled mask selects |
| `HashTables.RehashFindsKey` | src/main/java/com/jianglei/util/HashMap.java:301-323 | a key of old bin `j` lands in new bin `j` or `j + oldCap`, as its bit says |
| `HashTables.RehashFindsNode` | src/main/java/com/jianglei/util/HashMap.java:301-323 | the node at position `i` of old bin `j` lands in new bin `j` or `j + oldCap` |
| `HashTables.SealedEmpty` | src/main/java/com/jianglei/util/HashMap.java:283-284 | a new table of empty bins holds the empty mapping |
| `HashTables.SealedEmptyBins` | src/main/java/com/jianglei/util/HashMap.java:410-419 | the empty mapping has only empty bins |
| `HashTables.FindKey` | src/main/java/com/jianglei/util/HashMap.java:174-198 | the lookup of a key in its bin, with the hash every node of that key carries |
| `HashTables.FindValue` | src/main/java/com/jianglei/util/HashMap.java:421-434 | a value is mapped exactly when some node holds it |
| `HashTables.ReplaceAt` | src/main/java/com/jianglei/util/HashMap.java:233-241 | replacing a value leaves the number of mappings unchanged |
| `HashTables.AppendAt` | src/main/java/com/jianglei/util/HashMap.java:212-226 | appending a new key adds exactly one mapping |
| `HashTables.RemoveAt` | src/main/java/com/jianglei/util/HashMap.java:390-398 | unlinking a key removes exactly one mapping |
| `HashTables.SealedRehash` | src/main/java/com/jianglei/util/HashMap.java:285-329 | resizing a valid table gives a valid doubled table of the same mapping |
| `HashMaps.ThresholdFor` | src/main/java/com/jianglei/util/HashMap.java:276-281 | the threshold is the floor of `newCap * loadFactor`, or `Integer.MAX_VALUE` once the capacity or the product reaches `MAXIMUM_CAPACITY` |
| `HashMaps.ResizeSizingValid` | src/main/java/com/jianglei/util/HashMap.java:258-282 | `resize` yields a power-of-two capacity no larger than `2^30`: double an existing table; for the first table, the stored threshold or 16; a table of `2^30` bins gets threshold `Integer.MAX_VALUE` |
| `HashMaps.ResizeSizing` | src/main/java/com/jianglei/util/HashMap.java:258-282 | an existing table doubles; the first table takes the pending threshold as its capacity, or 16 with threshold 12 when there is none; from 16 bins up, while the doubled table stays below `2^30`, the threshold doubles with `int` wrap-around (`oldThr << 1` going negative past `Integer.MAX_VALUE`); otherwise the threshold is recomputed from the load factor |
| `HashMaps.DoubleBelowMaximum` | src/main/java/com/jianglei/util/HashMap.java:267 | doubling a power of two below the maximum stays within it |
| `HashMaps.PutEntries` | src/main/java/com/jianglei/util/HashMap.java:140-159 | putting entries one by one adds at most one mapping per entry |
| `HashMaps.PutEntriesStep` | src/main/java/com/jianglei/util/HashMap.java:150-156 | putting one more entry is one more update |
| `HashMaps.PutEntriesKeys` | src/main/java/com/jianglei/util/HashMap.java:150-156 | a key is mapped afterwards exactly when it was before or some entry carries it |
| `HashMaps.PutEntriesLast` | src/main/java/com/jianglei/util/HashMap.java:150-156 | the last entry for a key gives its value |
| `HashMaps.PutEntriesOthers` | src/main/java/com/jianglei/util/HashMap.java:150-156 | a key no entry carries keeps its old mapping |
| `HashMaps.SeekInBin` | src/main/java/com/jianglei/util/HashMap.java:181-194 | the chain walk finds the first node with the key, or -1 exactly when the chain has none |
| `HashMaps.SplitBin` | src/main/java/com/jianglei/util/HashMap.java:295-316 | the do-while over a chain builds exactly its `lo` and `hi` halves, each in the old order |
| `HashMaps.TransferBin` | src/main/java/com/jianglei/util/HashMap.java:286-324 | one turn of the resize loop empties old bin `j` and fills new bins `j` and `j + oldCap` with its halves; a lone node goes straight to `hash & (newCap - 1)` |
| `HashMaps.PlaceHalves` | src/main/java/com/jianglei/util/HashMap.java:317-324 | the non-empty `lo` and `hi` chains are linked into bins `j` and `j + oldCap`; no other bin changes |
| `HashMaps.LoneHalves` | src/main/java/com/jianglei/util/HashMap.java:290-291 | a lone node's bucket in the doubled table is the one its half is due in |
| `HashMaps.LoneNode` | src/main/java/com/jianglei/util/HashMap.java:290-291 | storing a lone node by its hash gives the same bins as the two halves |
| `HashMaps.Drained` | src/main/java/com/jianglei/util/HashMap.java:286-289 | after `j` turns the first `j` old bins are empty and the rest are untouched |
| `HashMaps.Moved` | src/main/java/com/jianglei/util/HashMap.java:286-324 | after `j` turns the new table has the halves of the first `j` old bins and is empty elsewhere |
| `HashMaps.TransferStep` | src/main/java/com/jianglei/util/HashMap.java:286-324 | one more turn drains one more old bin and moves its halves |
| `HashMaps.TransferEnds` | src/main/java/com/jianglei/util/HashMap.java:286-324 | before the loop the new table is empty; after the last turn it is the rehashed table |
| `HashMaps.TransferAll` | src/main/java/com/jianglei/util/HashMap.java:285-329 | the resize loop leaves every old bin empty and the new table equal to the rehash of the old one |
| `HashMaps.EmptyAll` | src/main/java/com/jianglei/util/HashMap.java:414-417 | the loop of `clear` leaves every bin empty |
| `HashMaps.PendingCapacity` | src/main/java/com/jianglei/util/HashMap.java:144-148 | the requested capacity lies in `[1, MAXIMUM_CAPACITY]`: the truncation of `s / loadFactor + 1`, or the maximum once that reaches it |
| `HashMaps.HashMap.Init` | src/main/java/com/jianglei/util/HashMap.java:118-138 | a new map has no table, an empty mapping and the pending capacity in `threshold` |
| `HashMaps.HashMap.Create` | src/main/java/com/jianglei/util/HashMap.java:118-129 | `IllegalArgumentException` exactly for a negative capacity or a non-positive load factor; otherwise an empty map whose `threshold` is `tableSizeFor` of the capacity clamped to `2^30` |
| `HashMaps.HashMap.WithCapacity` | src/main/java/com/jianglei/util/HashMap.java:131-133 | the same with the default load factor |
| `HashMaps.HashMap.FromMap` | src/main/java/com/jianglei/util/HashMap.java:135-138 | a new map holding the given entries, put one by one |
| `HashMaps.HashMap.PutMapEntries` | src/main/java/com/jianglei/util/HashMap.java:140-159 | the mapping becomes the old one updated by every entry in turn |
| `HashMaps.HashMap.Reserve` | src/main/java/com/jianglei/util/HashMap.java:142-152 | with no table yet, `threshold` becomes `tableSizeFor` of the pending capacity for `s` entries when that exceeds it, and no table is allocated; with a table, it is resized to twice its length and rehashed exactly when `s > threshold`, and otherwise left as it is; no mapping changes |
| `HashMaps.HashMap.PutEach` | src/main/java/com/jianglei/util/HashMap.java:153-156 | each entry is put in order, so a later entry for a key wins |
| `HashMaps.HashMap.PutAll` | src/main/java/com/jianglei/util/HashMap.java:356-358 | the mapping becomes the old one updated by the entries |
| `HashMaps.HashMap.Size` | src/main/java/com/jianglei/util/HashMap.java:161-163 | the number of mappings |
| `HashMaps.HashMap.IsEmpty` | src/main/java/com/jianglei/util/HashMap.java:165-167 | true exactly when nothing is mapped |
| `HashMaps.HashMap.GetNode` | src/main/java/com/jianglei/util/HashMap.java:174-198 | corrected lookup: a node exactly when the key is mapped, holding its hash, key and value |
| `HashMaps.HashMap.GetNodeAsWritten` | src/main/java/com/jianglei/util/HashMap.java:174-198 | as written: `NullPointerException` exactly when there is no table or the key's bin is empty; otherwise the corrected answer |
| `HashMaps.HashMap.Get` | src/main/java/com/jianglei/util/HashMap.java:169-172 | the value of the key, or null when it is not mapped |
| `HashMaps.HashMap.ContainsKey` | src/main/java/com/jianglei/util/HashMap.java:200-202 | true exactly when the key is mapped |
| `HashMaps.HashMap.PutVal` | src/main/java/com/jianglei/util/HashMap.java:204-252 | returns the old value or null; the value is overwritten unless `onlyIfAbsent` holds and the old value is non-null; a new key adds a mapping and bumps `modCount`, while a replacement does not; on an allocated table a replacement keeps the table and `threshold`, and a new key whose bin holds fewer than 8 nodes is appended at the tail of bin `(n-1) & hash`, the table being replaced by the rehash of that exactly when `size + 1 > threshold` |
| `HashMaps.HashMap.Locate` | src/main/java/com/jianglei/util/HashMap.java:212-231 | the key's bucket, and the first position holding the key there, or -1 exactly when it is unmapped |
| `HashMaps.HashMap.AddNode` | src/main/java/com/jianglei/util/HashMap.java:221-249 | a new key gains its mapping and `modCount` grows by one; with no treeify resize, the node is at the tail of its bin and the table is replaced by its doubled rehash exactly when `size + 1 > threshold`; when a chain of 8 or more in a table below 64 bins triggers the treeify resize, the result is the rehash of the appended table, rehashed once more when `size + 1` passes the new threshold |
| `HashMaps.HashMap.Link` | src/main/java/com/jianglei/util/HashMap.java:223-228 | the node goes at the tail of its bin, table and `threshold` kept; when the bin already held 8 nodes and the table has fewer than 64 bins, the table is replaced by the doubled rehash of that, with the threshold `resize` computes |
| `HashMaps.HashMap.ResizeIfFull` | src/main/java/com/jianglei/util/HashMap.java:245-247 | with `size` at most `threshold` the table, its bins and `threshold` stay; past it, the table is replaced by a fresh one of twice the length holding the rehash, with the threshold `resize` computes; the mapping is kept either way |
| `HashMaps.HashMap.Replace` | src/main/java/com/jianglei/util/HashMap.java:236-241 | the node of the key, at its position in its bin, is replaced by one holding the new value and nothing else in the table changes; the table array, `threshold` and `modCount` stay |
| `HashMaps.HashMap.Append` | src/main/java/com/jianglei/util/HashMap.java:212-226 | a node for an absent key is linked at the tail of its bin (the head, when the bin is empty), every other bin unchanged, and the mapping gains the key |
| `HashMaps.HashMap.Put` | src/main/java/com/jianglei/util/HashMap.java:254-256 | the mapping becomes the old one with the key mapped to the value; the old value or null is returned |
| `HashMaps.HashMap.TreeifyBin` | src/main/java/com/jianglei/util/HashMap.java:332-354 | below 64 bins the table is replaced by its doubled rehash with the threshold `resize` computes, keeping the mapping; otherwise the table and threshold are left as they are |
| `HashMaps.HashMap.Resize` | src/main/java/com/jianglei/util/HashMap.java:258-330 | the first table is empty bins of the sized capacity; a later one is the lo/hi rehash of the old table; the mapping, `size` and `modCount` stay |
| `HashMaps.HashMap.RemoveNode` | src/main/java/com/jianglei/util/HashMap.java:366-408 | a key that is mapped (holding `value` when `matchValue`) loses its mapping, its node is returned, and `modCount` grows by one; otherwise null is returned and nothing changes |
| `HashMaps.HashMap.Unlink` | src/main/java/com/jianglei/util/HashMap.java:388-404 | unlinking the key's node removes exactly its mapping and counts one modification |
| `HashMaps.HashMap.Detach` | src/main/java/com/jianglei/util/HashMap.java:390-398 | the node is taken out of its chain: the head when it is first, otherwise from after its predecessor |
| `HashMaps.HashMap.Remove` | src/main/java/com/jianglei/util/HashMap.java:360-364 | the key is unmapped; its old value or null is returned |
| `HashMaps.HashMap.Clear` | src/main/java/com/jianglei/util/HashMap.java:410-419 | nothing is mapped, `modCount` grows by one, and every bin of the table is empty |
| `HashMaps.HashMap.ContainsValue` | src/main/java/com/jianglei/util/HashMap.java:421-434 | true exactly when some key maps to the value |
| `HashMaps.GetAfterClear` | src/main/java/com/jianglei/util/HashMap.java:174-198 | after `put(k, v)` and `clear()` the table exists but the bin of `k` is empty, and `get(k)` as written throws `NullPointerException` where the corrected lookup answers null |
| `ArrayLists.HugeCapacity` | src/main/java/com/jianglei/util/ArrayList.java:94-100 | `OutOfMemoryError` exactly for a negative request; otherwise at least the request and `MAX_ARRAY_SIZE`, and `Integer.MAX_VALUE` only when the request passes `MAX_ARRAY_SIZE` |
| `ArrayLists.GrowCapacity` | src/main/java/com/jianglei/util/ArrayList.java:84-92 | the capacity `grow` asks for is never negative when it succeeds; the failures are `OutOfMemoryError` or `NegativeArraySizeException` |
| `ArrayLists.GrowCapacityCorrect` | src/main/java/com/jianglei/util/ArrayList.java:82-100 | for a genuine request the new capacity is `max(minCapacity, old + old/2)`, or `hugeCapacity(minCapacity)` past `MAX_ARRAY_SIZE`, and is at least `minCapacity` |
| `ArrayLists.GrowCapacityOverflow` | src/main/java/com/jianglei/util/ArrayList.java:68-100 | a size sum that overflowed `int` still passes the growth test and then makes `grow` fail |
| `ArrayLists.GrowCapacityGrows` | src/main/java/com/jianglei/util/ArrayList.java:75-92 | once `grow` is reached it never shrinks the array |
| `ArrayLists.InsertShifted` | src/main/java/com/jianglei/util/ArrayList.java:262-269 | shifting the tail up by `\|xs\|` and copying `xs` into the gap inserts `xs` at `index` |
| `ArrayLists.DeleteShifted` | src/main/java/com/jianglei/util/ArrayList.java:273-283 | shifting `[to, n)` down to `from` deletes `[from, to)` |
| `ArrayLists.AppendCopied` | src/main/java/com/jianglei/util/ArrayList.java:249-256 | copying `xs` to position `n` appends it to the first `n` slots |
| `ArrayLists.StoreIsCopied` | src/main/java/com/jianglei/util/ArrayList.java:183-187 | storing one element is copying a one-element array |
| `ArrayLists.CompactStep` | src/main/java/com/jianglei/util/ArrayList.java:316-325 | one step of the `batchRemove` copy loop keeps the survivors of the prefix read so far in `[0, w)` |
| `ArrayLists.ArrayList.constructor` | src/main/java/com/jianglei/util/ArrayList.java:36-38 | `new ArrayList()`: empty, sharing the default empty array |
| `ArrayLists.ArrayList.WithCapacity` | src/main/java/com/jianglei/util/ArrayList.java:25-34 | an empty list with exactly the requested capacity |
| `ArrayLists.ArrayList.FromCollection` | src/main/java/com/jianglei/util/ArrayList.java:40-48 | a list holding exactly the collection's elements |
| `ArrayLists.ArrayList.Create` | src/main/java/com/jianglei/util/ArrayList.java:25-34 | `IllegalArgumentException` exactly for a negative capacity; otherwise an empty list of that capacity |
| `ArrayLists.ArrayList.Size` | src/main/java/com/jianglei/util/ArrayList.java:102-104 | the number of elements |
| `ArrayLists.ArrayList.IsEmpty` | src/main/java/com/jianglei/util/ArrayList.java:106-108 | true exactly when there are no elements |
| `ArrayLists.ArrayList.TrimToSize` | src/main/java/com/jianglei/util/ArrayList.java:50-57 | the capacity becomes the size; the elements stay and `modCount` grows by one |
| `ArrayLists.ArrayList.Grow` | src/main/java/com/jianglei/util/ArrayList.java:84-92 | the elements stay; it fails exactly when `GrowCapacity` does; on success the capacity is that value and at least `minCapacity` |
| `ArrayLists.ArrayList.EnsureExplicitCapacity` | src/main/java/com/jianglei/util/ArrayList.java:75-80 | `modCount` grows by one whether or not the array grows; it grows only when `minCapacity` exceeds the capacity |
| `ArrayLists.ArrayList.EnsureCapacityInternal` | src/main/java/com/jianglei/util/ArrayList.java:68-73 | succeeds exactly when the exact sum fits in `int`, leaving room for it, and at least `DEFAULT_CAPACITY` (10) slots for a list on the default empty array |
| `ArrayLists.ArrayList.EnsureCapacity` | src/main/java/com/jianglei/util/ArrayList.java:59-66 | a request at or below 10 on a default-empty list, or at or below 0 otherwise, changes nothing; a larger one counts a modification and leaves room for it; the elements stay |
| `ArrayLists.ArrayList.IndexOf` | src/main/java/com/jianglei/util/ArrayList.java:114-126 | the first index of the value (null-aware), or -1 |
| `ArrayLists.ArrayList.LastIndexOf` | src/main/java/com/jianglei/util/ArrayList.java:128-139 | the last index of the value (null-aware), or -1 |
| `ArrayLists.ArrayList.Contains` | src/main/java/com/jianglei/util/ArrayList.java:110-112 | true exactly when the value is an element |
| `ArrayLists.ArrayList.ToArray` | src/main/java/com/jianglei/util/ArrayList.java:152-154 | a fresh array of exactly the elements |
| `ArrayLists.ArrayList.Get` | src/main/java/com/jianglei/util/ArrayList.java:170-173 | the element at the index; `IndexOutOfBoundsException` at or past the size; a negative index fails at the array access |
| `ArrayLists.ArrayList.Set` | src/main/java/com/jianglei/util/ArrayList.java:175-181 | returns the old element and changes only that slot; the size and `modCount` stay; the same failures as `get` |
| `ArrayLists.ArrayList.Add` | src/main/java/com/jianglei/util/ArrayList.java:183-187 | appends the element and bumps `modCount`; fails only when the size is already `Integer.MAX_VALUE` |
| `ArrayLists.ArrayList.AddAt` | src/main/java/com/jianglei/util/ArrayList.java:189-197 | an index outside `[0, size]` is refused before any change; otherwise the element is inserted at the index and `modCount` grows by one |
| `ArrayLists.ArrayList.InsertOne` | src/main/java/com/jianglei/util/ArrayList.java:192-195 | the array work of `add(index, e)`: the shift and the store give the inserted list; the slots past it stay null |
| `ArrayLists.ArrayList.RemoveAt` | src/main/java/com/jianglei/util/ArrayList.java:199-210 | returns the element at the index; the contents lose that slot; the vacated slot is nulled and `modCount` grows by one |
| `ArrayLists.ArrayList.FastRemove` | src/main/java/com/jianglei/util/ArrayList.java:230-238 | deletes the element at the index and counts one modification |
| `ArrayLists.ArrayList.CloseGap` | src/main/java/com/jianglei/util/ArrayList.java:204-209 | the shift down by one deletes the element, and the freed last slot is nulled |
| `ArrayLists.ArrayList.Remove` | src/main/java/com/jianglei/util/ArrayList.java:212-228 | removes only the first occurrence of the value; returns whether there was one; `modCount` grows only then |
| `ArrayLists.ArrayList.Clear` | src/main/java/com/jianglei/util/ArrayList.java:240-247 | the list is empty, every slot is null, the capacity stays, and `modCount` grows by one |
| `ArrayLists.ArrayList.NullOut` | src/main/java/com/jianglei/util/ArrayList.java:278-281 | slots `[from, to)` become null and the others keep their values |
| `ArrayLists.ArrayList.AddAll` | src/main/java/com/jianglei/util/ArrayList.java:249-256 | appends the collection's elements; returns whether there were any; fails exactly when the sum overflows `int` |
| `ArrayLists.ArrayList.AppendArray` | src/main/java/com/jianglei/util/ArrayList.java:253 | the copy puts the array right after the elements |
| `ArrayLists.ArrayList.AddAllAt` | src/main/java/com/jianglei/util/ArrayList.java:258-271 | an index outside `[0, size]` is refused first; otherwise the elements are inserted in order at the index, and the result says whether there were any |
| `ArrayLists.ArrayList.InsertArray` | src/main/java/com/jianglei/util/ArrayList.java:264-268 | the shift and the copy insert the array's elements at the index |
| `ArrayLists.ArrayList.OpenGap` | src/main/java/com/jianglei/util/ArrayList.java:264-267 | the tail moves up by `numNew`, when there is anything to move |
| `ArrayLists.ArrayList.RemoveRange` | src/main/java/com/jianglei/util/ArrayList.java:273-283 | deletes exactly `[from, to)`, nulls the freed tail, and counts one modification |
| `ArrayLists.ArrayList.ShiftDown` | src/main/java/com/jianglei/util/ArrayList.java:274-281 | the shift deletes the range and the freed tail becomes null |
| `ArrayLists.ArrayList.RemoveAll` | src/main/java/com/jianglei/util/ArrayList.java:300-303 | a null `c` is `NullPointerException` and nothing changes; otherwise exactly the elements not in `c` survive, in order, and the result is whether any went |
| `ArrayLists.ArrayList.RetainAll` | src/main/java/com/jianglei/util/ArrayList.java:305-308 | a null `c` is refused; otherwise exactly the elements in `c` survive, in order, and the result is whether any went |
| `ArrayLists.ArrayList.BatchRemove` | src/main/java/com/jianglei/util/ArrayList.java:310-336 | the elements whose membership in `c` equals `complement` survive, in order; the rest of the old range is nulled; `modCount` grows by the number removed; the result is whether any went |
| `ArrayLists.ArrayList.Compact` | src/main/java/com/jianglei/util/ArrayList.java:314-325 | the copy loop moves the survivors, in order, into `[0, w)` |
| `ArrayLists.ArrayList.Iterator` | src/main/java/com/jianglei/util/ArrayList.java:380-382 | a fresh iterator at 0, with no last element and in step with the list |
| `ArrayLists.ArrayList.ListIterator` | src/main/java/com/jianglei/util/ArrayList.java:369-378 | `IndexOutOfBoundsException` exactly for an index outside `[0, size]`; otherwise a fresh list iterator at the index |
| `ArrayLists.ArrayList.SubList` | src/main/java/com/jianglei/util/ArrayList.java:494-507 | the three checks in source order; otherwise a fresh in-step view whose elements are `[from, to)` |
| `ArrayLists.Itr.constructor` | src/main/java/com/jianglei/util/ArrayList.java:384-388 | a new iterator at 0, in step with the list |
| `ArrayLists.Itr.ListItr` | src/main/java/com/jianglei/util/ArrayList.java:431-435 | a new list iterator at the index, in step with the list |
| `ArrayLists.Itr.HasNext` | src/main/java/com/jianglei/util/ArrayList.java:390-392 | true exactly when the cursor is not at the size |
| `ArrayLists.Itr.Next` | src/main/java/com/jianglei/util/ArrayList.java:394-407 | out of step: `ConcurrentModificationException` and nothing changes; at the end: `NoSuchElementException`; otherwise the element at the cursor, which becomes `lastRet` while the cursor moves on |
| `ArrayLists.Itr.Remove` | src/main/java/com/jianglei/util/ArrayList.java:409-422 | no last element: `IllegalStateException`; out of step: `ConcurrentModificationException`; otherwise the last element is deleted, the cursor becomes `lastRet`, `lastRet` is cleared, and the iterator is back in step |
| `ArrayLists.Itr.HasPrevious` | src/main/java/com/jianglei/util/ArrayList.java:437-439 | true exactly when the cursor is not 0 |
| `ArrayLists.Itr.NextIndex` | src/main/java/com/jianglei/util/ArrayList.java:441-443 | the cursor |
| `ArrayLists.Itr.PreviousIndex` | src/main/java/com/jianglei/util/ArrayList.java:446-448 | the cursor minus one |
| `ArrayLists.Itr.Privious` | src/main/java/com/jianglei/util/ArrayList.java:451-462 | as written: the cursor steps back but `lastRet` stays, and the element returned is the one at `lastRet - 1`, or an array-index failure when `lastRet <= 0` |
| `ArrayLists.Itr.Previous` | src/main/java/com/jianglei/util/ArrayList.java:451-462 | corrected: the element before the cursor, whose index becomes both the cursor and `lastRet` |
| `ArrayLists.Itr.Set` | src/main/java/com/jianglei/util/ArrayList.java:466-476 | no last element: `IllegalStateException`; out of step: `ConcurrentModificationException`; otherwise the last returned slot is replaced and `modCount` stays |
| `ArrayLists.Itr.Add` | src/main/java/com/jianglei/util/ArrayList.java:478-491 | out of step: `ConcurrentModificationException`; otherwise the element is inserted at the cursor, the cursor steps over it, `lastRet` is cleared and the iterator resyncs; a failed growth leaves the list as it was |
| `ArrayLists.SubList.constructor` | src/main/java/com/jianglei/util/ArrayList.java:515-522 | an in-step view of `[from, to)` at offset `from` |
| `ArrayLists.SubList.Set` | src/main/java/com/jianglei/util/ArrayList.java:524-530 | the range check, then the comodification check, then the parent's slot `offset + index` is replaced and its old value returned |
| `ArrayLists.SubList.Get` | src/main/java/com/jianglei/util/ArrayList.java:532-536 | the range check, the comodification check, then the parent's element at `offset + index` |
| `ArrayLists.SubList.Size` | src/main/java/com/jianglei/util/ArrayList.java:538-541 | out of step: `ConcurrentModificationException`; otherwise the number of elements in view |
| `ArrayLists.SubList.ListIterator` | src/main/java/com/jianglei/util/ArrayList.java:589-598 | the comodification check, then the index check, then a fresh in-step iterator at the index |
| `ArrayLists.SubList.AddAt` | src/main/java/com/jianglei/util/ArrayList.java:543-549 | the range check, the comodification check, then the parent gains the element at `offset + index`; the view grows by one and resyncs |
| `ArrayLists.SubList.AddAtInList` | src/main/java/com/jianglei/util/ArrayList.java:546-548 | the in-step case: the parent gains the element and the view follows |
| `ArrayLists.SubList.RemoveAt` | src/main/java/com/jianglei/util/ArrayList.java:551-558 | the range check, the comodification check, then the parent loses its element at `offset + index`, which is returned; the view shrinks and resyncs |
| `ArrayLists.SubList.RemoveAtInList` | src/main/java/com/jianglei/util/ArrayList.java:554-557 | the in-step case: the parent loses the element and the view follows |
| `ArrayLists.SubList.RemoveRange` | src/main/java/com/jianglei/util/ArrayList.java:560-566 | the comodification check, then the parent loses the offset range; the view shrinks by its length |
| `ArrayLists.SubList.RemoveRangeInList` | src/main/java/com/jianglei/util/ArrayList.java:562-565 | the in-step case: the parent loses the offset range and the view follows |
| `ArrayLists.SubList.AddAll` | src/main/java/com/jianglei/util/ArrayList.java:568-570 | `addAll(size, c)`: the elements go at the end of the view |
| `ArrayLists.SubList.AddAllAt` | src/main/java/com/jianglei/util/ArrayList.java:572-583 | the range check, then false for an empty `c`, then the comodification check; otherwise the parent gains the elements at `offset + index` and the view grows by their number |
| `ArrayLists.SubList.AddAllAtInList` | src/main/java/com/jianglei/util/ArrayList.java:578-582 | the in-step case: the parent gains the elements and the view follows |
| `ArrayLists.SubListItr.constructor` | src/main/java/com/jianglei/util/ArrayList.java:596-598 | a new iterator over the view at the index, in step with the parent |
| `ArrayLists.SubListItr.HasNext` | src/main/java/com/jianglei/util/ArrayList.java:600-602 | true exactly when the cursor is not at the view's size |
| `ArrayLists.SubListItr.Next` | src/main/java/com/jianglei/util/ArrayList.java:605-615 | the comodification check, the end check, then the view's element at the cursor, which moves on |
| `ArrayLists.SubListItr.HasPrevious` | src/main/java/com/jianglei/util/ArrayList.java:618-620 | true exactly when the cursor is not 0 |
| `ArrayLists.SubListItr.Privious` | src/main/java/com/jianglei/util/ArrayList.java:623-633 | the element before the cursor, whose index becomes the cursor and `lastRet` |
| `ArrayLists.SubListItr.NextIndex` | src/main/java/com/jianglei/util/ArrayList.java:638-640 | the cursor |
| `ArrayLists.SubListItr.PreviousIndex` | src/main/java/com/jianglei/util/ArrayList.java:643-645 | the cursor minus one |
| `ArrayLists.SubListItr.Remove` | src/main/java/com/jianglei/util/ArrayList.java:648-661 | no last element: `IllegalStateException`; out of step: `ConcurrentModificationException`; otherwise the view loses its last returned element and the iterator resyncs |
| `ArrayLists.SubListItr.Set` | src/main/java/com/jianglei/util/ArrayList.java:664-674 | no last element: `IllegalStateException`; otherwise the view's last returned slot is replaced |
| `ArrayLists.SubListItr.Add` | src/main/java/com/jianglei/util/ArrayList.java:677-689 | the element is inserted at the cursor through the view and the cursor steps over it |
| `ArrayLists.PriviousAfterNext` | src/main/java/com/jianglei/util/ArrayList.java:451-462 | on `[1, 2]` after two `next()` calls, `privious()` as written yields 1 where `previous()` yields 2 |
| `AbstractCollections.HugeCapacity` | src/main/java/com/jianglei/util/AbstractCollection.java:159-166 | `OutOfMemoryError` exactly for a negative request; otherwise at least the request and `MAX_ARRAY_SIZE`, and `Integer.MAX_VALUE` exactly when the request passes `MAX_ARRAY_SIZE` |
| `AbstractCollections.FinishCapacityGrows` | src/main/java/com/jianglei/util/AbstractCollection.java:145-151 | growth always makes room for at least one more element: `cap + cap/2 + 1` while that fits, then `hugeCapacity(cap + 1)`; it fails only at `Integer.MAX_VALUE` slots |
| `AbstractCollections.FinishCapacity` | src/main/java/com/jianglei/util/AbstractCollection.java:146-149 | the grown capacity of a full array is positive, and the only failure is `OutOfMemoryError` |
| `AbstractCollections.ToArrayOf` | src/main/java/com/jianglei/util/AbstractCollection.java:97-107 | the array returned holds exactly what the iterator yielded, in order, whether `size()` over- or under-estimated it; `OutOfMemoryError` exactly when that is more than `Integer.MAX_VALUE` |
| `AbstractCollections.Grow` | src/main/java/com/jianglei/util/AbstractCollection.java:145-151 | a fresh longer copy of a full array, keeping its elements; fails exactly at `Integer.MAX_VALUE` slots |
| `AbstractCollections.FinishToArray` | src/main/java/com/jianglei/util/AbstractCollection.java:142-157 | the result holds the filled array followed by the remaining elements, with no spare slot; it fails exactly when they do not fit in `Integer.MAX_VALUE` slots |
| `AbstractCollections.Rendered` | src/main/java/com/jianglei/util/AbstractCollection.java:282-295 | the text is bracketed by `[` and `]`, and is `"[]"` for no elements |
| `AbstractCollections.RenderedSnoc` | src/main/java/com/jianglei/util/AbstractCollection.java:288-293 | one more element adds `", "` and that element before the closing bracket |
| `AbstractCollections.RenderedSingle` | src/main/java/com/jianglei/util/AbstractCollection.java:282-295 | one element shows as `[e]`, with `(this Collection)` for the collection itself |
| `AbstractCollections.FilterStep` | src/main/java/com/jianglei/util/AbstractCollection.java:253-259 | one step of the `removeAll`/`retainAll` loop keeps the filtered prefix followed by the untouched rest |
| `AbstractCollections.AbstractCollection.constructor` | src/main/java/com/jianglei/util/AbstractCollection.java:32-33 | a collection over the given elements |
| `AbstractCollections.AbstractCollection.IsEmpty` | src/main/java/com/jianglei/util/AbstractCollection.java:46-48 | true exactly when there are no elements |
| `AbstractCollections.AbstractCollection.Contains` | src/main/java/com/jianglei/util/AbstractCollection.java:59-72 | true exactly when the iterator yields the value (null-aware) |
| `AbstractCollections.AbstractCollection.ContainsAll` | src/main/java/com/jianglei/util/AbstractCollection.java:232-238 | true exactly when every element of `c` is contained |
| `AbstractCollections.AbstractCollection.ToArray` | src/main/java/com/jianglei/util/AbstractCollection.java:97-107 | a fresh array of exactly the elements, in order |
| `AbstractCollections.AbstractCollection.Add` | src/main/java/com/jianglei/util/AbstractCollection.java:182-184 | always `UnsupportedOperationException` |
| `AbstractCollections.AbstractCollection.IteratorRemove` | src/main/java/com/jianglei/util/AbstractCollection.java:209-211 | the iterator's `remove` deletes the element just returned, or is `UnsupportedOperationException` when the collection does not support it |
| `AbstractCollections.AbstractCollection.Remove` | src/main/java/com/jianglei/util/AbstractCollection.java:201-219 | deletes only the first occurrence and returns true; with no match, false and nothing changes |
| `AbstractCollections.AbstractCollection.Filter` | src/main/java/com/jianglei/util/AbstractCollection.java:250-274 | the elements whose membership in `c` differs from `complement` are removed, survivors keep their order, and the result is whether any went; a collection without removal fails exactly when something would go |
| `AbstractCollections.AbstractCollection.RemoveAll` | src/main/java/com/jianglei/util/AbstractCollection.java:250-261 | a null `c` is `NullPointerException`; otherwise, with iterator removal, no element in `c` remains and the result says whether any went; without it, nothing changes and the call fails with `UnsupportedOperationException` exactly when some element is in `c`, returning false otherwise |
| `AbstractCollections.AbstractCollection.RetainAll` | src/main/java/com/jianglei/util/AbstractCollection.java:263-274 | a null `c` is `NullPointerException`; otherwise, with iterator removal, only elements in `c` remain and the result says whether any went; without it, nothing changes and the call fails with `UnsupportedOperationException` exactly when some element is not in `c`, returning false otherwise |
| `AbstractCollections.AbstractCollection.Clear` | src/main/java/com/jianglei/util/AbstractCollection.java:275-281 | no element is left, or `UnsupportedOperationException` on a non-empty collection without removal |
| `AbstractCollections.AbstractCollection.ToString` | src/main/java/com/jianglei/util/AbstractCollection.java:282-295 | the bracketed, comma-separated rendering of the elements |
| `AbstractLists.InsertAllAtSnoc` | src/main/java/com/jianglei/util/AbstractList.java:72-75 | adding the elements of `c` one at a time at `index++` inserts them all at `index` |
| `AbstractLists.LastIndexAsWrittenIs` | src/main/java/com/jianglei/util/AbstractList.java:49-61 | as written, `lastIndexOf` returns the last index unless `o` is non-null and a null element lies after that index, in which case it throws |
| `AbstractLists.LastIndexAsWritten` | src/main/java/com/jianglei/util/AbstractList.java:49-61 | as written, a result is `-1` or an index holding `o`; the only failure is `NullPointerException`, for a non-null `o` in a list with a null element |
| `AbstractLists.TailWithout` | src/main/java/com/jianglei/util/AbstractList.java:52-59 | scanning back one step: a value other than the last element occurs in a suffix exactly when it occurs in it without that element |
| `AbstractLists.LastIndexInit` | src/main/java/com/jianglei/util/AbstractList.java:52-59 | when the last element is not `o`, the last `o` is the last one before it |
| `AbstractLists.LastIndexOfNullElement` | src/main/java/com/jianglei/util/AbstractList.java:56-58 | on the list `[null]`, searching for an object throws as written, where -1 is intended |
| `AbstractLists.SubListSizeNeverReturns` | src/main/java/com/jianglei/util/AbstractList.java:285-288 | `SubList.size()` as written never returns a size: stack overflow when in step, comodification otherwise |
| `AbstractLists.SubListSizeAsWritten` | src/main/java/com/jianglei/util/AbstractList.java:285-288 | as written, `SubList.size()` always fails, with `ConcurrentModificationException` when out of step |
| `AbstractLists.DeleteRangeStep` | src/main/java/com/jianglei/util/AbstractList.java:230-233 | deleting one more element at the front of the remaining range extends the deleted range by one |
| `AbstractLists.NewSubList` | src/main/java/com/jianglei/util/AbstractList.java:253-270 | `IndexOutOfBoundsException` for `from < 0` or `to > size`, then `IllegalArgumentException` for `from > to`; otherwise an in-step view of `[from, to)` |
| `AbstractLists.AbstractList.constructor` | src/main/java/com/jianglei/util/AbstractList.java:11-13 | a list over the given elements with `modCount` 0 |
| `AbstractLists.AbstractList.Get` | src/main/java/com/jianglei/util/AbstractList.java:20 | the element at the index, or `IndexOutOfBoundsException` outside `[0, size)` |
| `AbstractLists.AbstractList.Set` | src/main/java/com/jianglei/util/AbstractList.java:22-24 | unsupported by default; otherwise `IndexOutOfBoundsException` outside `[0, size)`, else the slot is replaced and the old element returned; `modCount` stays |
| `AbstractLists.AbstractList.AddAt` | src/main/java/com/jianglei/util/AbstractList.java:26-28 | unsupported by default; otherwise the element is inserted and `modCount` grows by one |
| `AbstractLists.AbstractList.RemoveAt` | src/main/java/com/jianglei/util/AbstractList.java:30-32 | unsupported by default; otherwise the element is deleted and returned, and `modCount` grows by one |
| `AbstractLists.AbstractList.Add` | src/main/java/com/jianglei/util/AbstractList.java:15-18 | `add(size(), e)`: appends and returns true |
| `AbstractLists.AbstractList.Iterator` | src/main/java/com/jianglei/util/AbstractList.java:79-81 | a fresh in-step iterator at 0 |
| `AbstractLists.AbstractList.ListIterator` | src/main/java/com/jianglei/util/AbstractList.java:87-89 | a fresh in-step list iterator at the index, unchecked |
| `AbstractLists.AbstractList.IndexOf` | src/main/java/com/jianglei/util/AbstractList.java:34-47 | the first index of the value (null-aware), or -1 |
| `AbstractLists.AbstractList.LastIndexOf` | src/main/java/com/jianglei/util/AbstractList.java:49-61 | corrected: the last index of the value (null-aware), or -1 |
| `AbstractLists.AbstractList.LastIndexOfAsWritten` | src/main/java/com/jianglei/util/AbstractList.java:49-61 | as written: the backward scan with `element.equals(o)` |
| `AbstractLists.AbstractList.Clear` | src/main/java/com/jianglei/util/AbstractList.java:65-67 | `removeRange(0, size())`: the list is empty and `modCount` grows by the old size; without removal support a non-empty list is refused unchanged |
| `AbstractLists.AbstractList.RemoveRange` | src/main/java/com/jianglei/util/AbstractList.java:228-234 | `to - from` elements from `from` are deleted; `NoSuchElementException` when the list runs out first |
| `AbstractLists.AbstractList.AddAll` | src/main/java/com/jianglei/util/AbstractList.java:69-77 | an index outside `[0, size]` is refused before any change; otherwise `c`'s elements are inserted consecutively at the index, and the result is whether `c` was non-empty |
| `AbstractLists.AbstractList.Equals` | src/main/java/com/jianglei/util/AbstractList.java:211-226 | true exactly for the list itself or a list with the same elements in the same order; false for a non-list |
| `AbstractLists.AbstractList.SubList` | src/main/java/com/jianglei/util/AbstractList.java:205-209 | the checked view of `[from, to)` |
| `AbstractLists.Itr.constructor` | src/main/java/com/jianglei/util/AbstractList.java:91-97 | a new iterator at 0, in step with the list |
| `AbstractLists.Itr.ListItr` | src/main/java/com/jianglei/util/AbstractList.java:143-145 | a new list iterator at the index, in step with the list |
| `AbstractLists.Itr.HasNext` | src/main/java/com/jianglei/util/AbstractList.java:99-101 | true exactly when the cursor is not at the size |
| `AbstractLists.Itr.Next` | src/main/java/com/jianglei/util/AbstractList.java:104-117 | out of step: `ConcurrentModificationException`; past the end: `NoSuchElementException`; otherwise `get(cursor)`, whose index becomes `lastRet` while the cursor moves on |
| `AbstractLists.Itr.Remove` | src/main/java/com/jianglei/util/AbstractList.java:119-133 | no last element: `IllegalStateException`; out of step: `ConcurrentModificationException`; otherwise the last element is deleted, the cursor steps back only when `lastRet < cursor`, `lastRet` is cleared and the iterator resyncs |
| `AbstractLists.Itr.HasPrevious` | src/main/java/com/jianglei/util/AbstractList.java:148-150 | true exactly when the cursor is not 0 |
| `AbstractLists.Itr.Privious` | src/main/java/com/jianglei/util/AbstractList.java:153-163 | out of step: `ConcurrentModificationException`; at 0: `NoSuchElementException`; otherwise the element before the cursor, whose index becomes both the cursor and `lastRet` |
| `AbstractLists.Itr.NextIndex` | src/main/java/com/jianglei/util/AbstractList.java:166-168 | the cursor |
| `AbstractLists.Itr.PreviousIndex` | src/main/java/com/jianglei/util/AbstractList.java:171-173 | the cursor minus one |
| `AbstractLists.Itr.Set` | src/main/java/com/jianglei/util/AbstractList.java:176-187 | no last element: `IllegalStateException`; out of step: `ConcurrentModificationException`; otherwise the last returned slot is replaced |
| `AbstractLists.Itr.Add` | src/main/java/com/jianglei/util/AbstractList.java:190-202 | out of step: `ConcurrentModificationException`; otherwise the element is inserted at the cursor, the cursor steps over it, `lastRet` is cleared and the iterator resyncs |
| `AbstractLists.SubList.constructor` | src/main/java/com/jianglei/util/AbstractList.java:253-270 | an in-step view of `[from, to)` at offset `from` |
| `AbstractLists.SubList.Set` | src/main/java/com/jianglei/util/AbstractList.java:271-275 | the range check, the comodification check, then the parent's slot `index + offset` is replaced |
| `AbstractLists.SubList.Get` | src/main/java/com/jianglei/util/AbstractList.java:278-282 | the range check, the comodification check, then the parent's element at `index + offset` |
| `AbstractLists.SubList.SizeAsWritten` | src/main/java/com/jianglei/util/AbstractList.java:285-288 | as written: stack overflow when in step, `ConcurrentModificationException` otherwise, never a size |
| `AbstractLists.SubList.Size` | src/main/java/com/jianglei/util/AbstractList.java:285-288 | corrected: `ConcurrentModificationException` exactly when out of step, otherwise the number of elements in view |
| `AbstractLists.SubList.AddAt` | src/main/java/com/jianglei/util/AbstractList.java:290-296 | the range check, the comodification check, then the parent gains the element at `index + offset`; the view grows by one and resyncs |
| `AbstractLists.SubList.RemoveAt` | src/main/java/com/jianglei/util/AbstractList.java:298-305 | the range check, the comodification check, then the parent loses the element at `index + offset`, which is returned; the view shrinks and resyncs |
| `AbstractLists.SubList.RemoveRange` | src/main/java/com/jianglei/util/AbstractList.java:307-312 | the comodification check, then the parent loses the offset range and the view shrinks by its length |
| `AbstractLists.SubList.AddAll` | src/main/java/com/jianglei/util/AbstractList.java:314-316 | `addAll(size, c)` |
| `AbstractLists.SubList.AddAllAt` | src/main/java/com/jianglei/util/AbstractList.java:318-329 | the range check, false for an empty `c`, the comodification check, then the parent gains the elements at `offset + index` and the view grows by their number |
| `AbstractMaps.Keys` | src/main/java/com/jianglei/util/AbstractMap.java:92-110 | one key per entry, in iteration order |
| `AbstractMaps.Values` | src/main/java/com/jianglei/util/AbstractMap.java:63-82 | one value per entry, in iteration order |
| `AbstractMaps.SizeCountsKeys` | src/main/java/com/jianglei/util/AbstractMap.java:39-41 | in the entry set of a map, the number of entries is the number of keys |
| `AbstractMaps.KeySetMembers` | src/main/java/com/jianglei/util/AbstractMap.java:92-110 | a key is in the key set exactly when some entry carries it |
| `AbstractMaps.FirstKeyIsTheKey` | src/main/java/com/jianglei/util/AbstractMap.java:125-143 | in a map, the first entry with a key is the only one |
| `AbstractMaps.GetFindsTheEntry` | src/main/java/com/jianglei/util/AbstractMap.java:125-143 | in a map, `get` of an entry's key gives that entry's value |
| `AbstractMaps.AbstractMap.constructor` | src/main/java/com/jianglei/util/AbstractMap.java:28-29 | a map over the given entries |
| `AbstractMaps.AbstractMap.Size` | src/main/java/com/jianglei/util/AbstractMap.java:39-41 | the number of entries, which is the number of keys in a map |
| `AbstractMaps.AbstractMap.IsEmpty` | src/main/java/com/jianglei/util/AbstractMap.java:48-50 | true exactly when no key is mapped |
| `AbstractMaps.AbstractMap.ContainsValue` | src/main/java/com/jianglei/util/AbstractMap.java:63-82 | true exactly when some entry's value equals the value (null-aware) |
| `AbstractMaps.AbstractMap.ContainsKey` | src/main/java/com/jianglei/util/AbstractMap.java:92-110 | true exactly when some entry's key equals the key (null-aware) |
| `AbstractMaps.AbstractMap.Get` | src/main/java/com/jianglei/util/AbstractMap.java:125-143 | the value of the first entry with the key, or null when there is none |
| `AbstractMaps.AbstractMap.Put` | src/main/java/com/jianglei/util/AbstractMap.java:156-158 | always `UnsupportedOperationException` |

## Left out

- Interfaces (`Collection`, `List`, `Map`, `Set`, `Queue`, `Deque`, `Iterator`, `ListIterator`): they declare operations and hold no logic.
- `Object2`: monitor methods and `finalize`, which are concurrency and runtime hooks.
- `AbstractSequentialList`: it delegates to a `listIterator` no class in the repository implements.
- Serialization (`writeObject`/`readObject`) of `ArrayList`: stream I/O.
- `clone` and the `toArray(T[])` variants: they rely on reflection and runtime array types.
- `HashMap` tree bins (`TreeNode`, `putTreeVal`, `getTreeNode`, `split`, `removeTreeNode`, `treeify`, `comparableClassFor`): `TreeNode` is not defined in the repository. Bins are chains only. `HashMaps.HashMap.TreeifyBin` models the resize branch and leaves a table of 64 or more bins unchanged.
- `HashMap` hooks `afterNodeAccess`/`afterNodeInsertion`/`afterNodeRemoval`, and the `keySet`/`values` views: they refer to members that are not defined.
- `HashMap.java` is commented out and would not compile as written (for example, a misplaced parenthesis in the cast at line 188). The model follows the evident algorithm.
- `HashMaps.HashMap.Resize`: only tables below `MAXIMUM_CAPACITY` are resized. The source's guard at line 264 tests `oldCap > MAXIMUM_CAPACITY`, which no table reaches. The table invariant keeps a table of `2^30` bins at threshold `Integer.MAX_VALUE`, so `size` cannot pass it while `size` is an `int`.
- `HashMaps.ThresholdFor` and `HashMaps.PendingCapacity`: the `float` load-factor arithmetic is modelled with exact reals, not IEEE single precision. Rounding of the products may differ from the source.
- `HashMaps.HashMap.Put`, `HashMaps.HashMap.PutVal`: a new key requires `size < Integer.MAX_VALUE`, room for one more mapping. The overflow of `size` past `int` is not modelled.
- `HashMaps.HashMap.PutAll`, `HashMaps.HashMap.PutMapEntries`, `HashMaps.HashMap.PutEach`: require `size` plus the number of entries to be at most `Integer.MAX_VALUE`, room for every entry even when some keys are already mapped. The overflow of `size` past `int` is not modelled.
- `HashMaps.HashMap.FromMap`: requires at most `Integer.MAX_VALUE` entries, as any `Map` argument has.
- `modCount` is an unbounded integer in every class. Its `int` wrap-around after 2^32 modifications is not modelled.
- `ArrayLists.SubListItr` models the anonymous iterator of `ArrayList.SubList.listIterator`, which works directly on the parent's `elementData`. The anonymous iterator of `AbstractList.SubList` wraps `l.listIterator(index + offset)` (`AbstractList.java:334-396`) and is not part of this model: its `hasNext` calls the recursive `size()`. `SubList.subList` and `RandomAccessSubList` are also left out.
- `AbstractCollection.addAll`: the skeleton's `add` always throws, so `addAll` can only throw or return false on an empty argument. It is not part of this model.
- The primitives a subclass supplies (`get`, `set`, `add(int, E)`, `remove(int)`, `size`, `iterator`, `entrySet`) are modelled by their `List`/`Map` contracts over a sequence. Flags choose between the throwing default and a supporting override.
- The `AbstractCollection` methods that `AbstractList` inherits are modelled once, on `AbstractCollection`.
- `AbstractLists.AbstractList.RemoveRange`: takes natural-number bounds with `from <= to`. The source's behaviour for negative or reversed bounds is not modelled.
- `AbstractLists.SubList.RemoveRange`, `ArrayLists.SubList.RemoveRange` and `ArrayLists.ArrayList.RemoveRange`: require a valid range. The source checks none and relies on its callers.
- `ArrayLists.ArrayList.FromCollection`, `ArrayLists.ArrayList.AddAll`, `ArrayLists.ArrayList.AddAllAt`, `ArrayLists.ArrayList.BatchRemove`, `ArrayLists.SubList.AddAll`, `ArrayLists.SubList.AddAllAt`, `AbstractLists.AbstractList.AddAll`, `AbstractLists.SubList.AddAll`, `AbstractLists.SubList.AddAllAt`, `AbstractCollections.AbstractCollection.ContainsAll`: the argument collection `c` is a sequence of its elements. So three behaviours are not modelled. A null `c` does not throw `NullPointerException` from `c.toArray()` or `c.iterator()`. A `c.contains` that throws does not leave `batchRemove`'s `finally` block compacting a partly filtered array. `addAll(index, this)` on an `AbstractList` does not iterate the list it is changing. `RemoveAll` and `RetainAll` do take a nullable `c`.
- HashMap chains are sequences of `Node` values, so nodes have no identity and `next` links have no aliasing. `HashMaps.HashMap.GetNode` and `HashMaps.HashMap.RemoveNode` return copies of nodes, and `HashMaps.HashMap.Replace` stores a new node where the source assigns `e.value`.
- `HashMaps.HashMap.Create`: the load factor is a `real`, which has no NaN, so the `Float.isNaN(loadFactor)` test of `HashMap.java:124` is not represented.
- `AbstractLists.Itr.Next`: omits the second comodification check in the exception handler. `get` changes nothing, so that check cannot fail there.
- Element `equals` and `hashCode` are user code. Equality is Dafny equality on `Ref<T>`, and a hash code is a function handed to the map.

## Findings

| source | as written | input that shows it | evidently intended | confidence | as-written member | corrected member |
|---|---|---|---|---|---|---|
| src/main/java/com/jianglei/util/HashMap.java:174-198 | the chain walk `first.next` sits outside the null guard | `get(k)` where the bin of `k` is empty, for instance after `put(k, v)` and `clear()` | return null when there is no table or the bin is empty | not executed | `HashMaps.HashMap.GetNodeAsWritten` (with `HashMaps.GetAfterClear`) | `HashMaps.HashMap.GetNode` |
| src/main/java/com/jianglei/util/AbstractList.java:285-288 | `SubList.size()` returns `this.size()`, calling itself | `size()` on any sub-list in step with its parent | return the `size` field after the comodification check | not executed | `AbstractLists.SubList.SizeAsWritten` (with `AbstractLists.SubListSizeNeverReturns`) | `AbstractLists.SubList.Size` |
| src/main/java/com/jianglei/util/ArrayList.java:451-462 | `privious()` moves the cursor back but returns `elementData[lastRet - 1]` and never updates `lastRet` | list `[1, 2]`, `next()` twice, then `privious()`: returns 1 instead of 2 | return the element before the cursor and set `lastRet` to its index | not executed | `ArrayLists.Itr.Privious` (with `ArrayLists.PriviousAfterNext`) | `ArrayLists.Itr.Previous` |
| src/main/java/com/jianglei/util/AbstractList.java:49-61 | for a non-null `o`, the backward scan calls `element.equals(o)` on each element | list `[null]`, `lastIndexOf(x)` with `x` non-null: `NullPointerException` instead of -1 | compare with `o.equals(element)`, as `indexOf` does | not executed | `AbstractLists.AbstractList.LastIndexOfAsWritten` (with `AbstractLists.LastIndexOfNullElement`) | `AbstractLists.AbstractList.LastIndexOf` |

=== FILE: abstract_collection.dfy ===
/**
 * `AbstractCollection`: the skeleton of a collection built on two primitives a
 * subclass supplies, `iterator()` and `size()`. The model stands for the
 * subclass by the sequence its iterator yields, in order, and by whether that
 * iterator implements `remove`; everything else is the skeleton's own code.
 */
module AbstractCollections {
  import opened JavaLang
  import opened ListSpec

  const MAX_ARRAY_SIZE: int := INT_MAX - 8

  /** `hugeCapacity(minCapacity)`: the last capacity `finishToArray` can ask for. */
  function HugeCapacity(minCapacity: int32): (r: Result<int32>)
    ensures minCapacity < 0 <==> r == Err(OutOfMemory)
    ensures r.Ok? ==> r.value >= minCapacity && r.value >= MAX_ARRAY_SIZE
    ensures r.Ok? ==> (r.value == INT_MAX <==> minCapacity > MAX_ARRAY_SIZE)
  {
    if minCapacity < 0 then Err(OutOfMemory)
    else if minCapacity > MAX_ARRAY_SIZE then Ok(INT_MAX)
    else Ok(MAX_ARRAY_SIZE)
  }

  /**
   * The capacity `finishToArray` grows a full array of `cap` slots to:
   * `cap + cap/2 + 1` in `int` arithmetic, or `hugeCapacity(cap + 1)` once that
   * passes `MAX_ARRAY_SIZE` (or wraps around).
   */
  function FinishCapacity(cap: int32): (r: Result<int32>)
    requires cap >= 0
    ensures r.Err? ==> r.error == OutOfMemory
    ensures r.Ok? ==> r.value > 0
  {
    var newCap := Wrap32(cap + cap / 2 + 1);
    if Wrap32(newCap - MAX_ARRAY_SIZE) > 0 then HugeCapacity(Wrap32(cap + 1)) else Ok(newCap)
  }

  /**
   * Growth always makes room for one more element, by half the capacity when
   * that fits, and fails only when the array already has `Integer.MAX_VALUE`
   * slots.
   */
  lemma FinishCapacityGrows(cap: int32)
    requires cap >= 0
    ensures FinishCapacity(cap).Err? <==> cap == INT_MAX
    ensures FinishCapacity(cap).Err? ==> FinishCapacity(cap).error == OutOfMemory
    ensures FinishCapacity(cap).Ok? ==> cap < FinishCapacity(cap).value
    ensures cap + cap / 2 + 1 <= MAX_ARRAY_SIZE ==> FinishCapacity(cap) == Ok(cap + cap / 2 + 1)
    ensures cap + cap / 2 + 1 > MAX_ARRAY_SIZE && cap < INT_MAX ==>
      FinishCapacity(cap) == Ok(if cap + 1 > MAX_ARRAY_SIZE then INT_MAX else MAX_ARRAY_SIZE)
  {
    var newCap := Wrap32(cap + cap / 2 + 1);
    if cap + cap / 2 + 1 <= INT_MAX {
      assert newCap == cap + cap / 2 + 1;
    } else {
      assert newCap == cap + cap / 2 + 1 - TWO_32;
      assert Wrap32(newCap - MAX_ARRAY_SIZE) > 0;
    }
  }

  /**
   * `toArray()` of a collection whose `size()` says `size` and whose iterator
   * yields `items`: `size()` is only an estimate, and the array returned holds
   * exactly what was iterated, truncated or grown as needed.
   */
  method ToArrayOf<T>(size: int32, items: seq<Ref<T>>) returns (r: Result<array<Ref<T>>>)
    requires size >= 0
    ensures r.Ok? <==> |items| <= INT_MAX
    ensures r.Ok? ==> fresh(r.value) && r.value[..] == items
    ensures r.Err? ==> r.error == OutOfMemory
  {
    var a := new Ref<T>[size](_ => Null);
    var i := 0;
    while i < a.Length
      invariant i <= a.Length && i <= |items|
      invariant a[..i] == items[..i]
    {
      if i == |items| {
        var b := CopyOf(a, i);
        assert b[..] == items;
        return Ok(b);
      }
      a[i] := items[i];
      i := i + 1;
      assert a[..i] == items[..i];
    }
    if i < |items| {
      r := FinishToArray(a, items[i..]);
      assert items[..i] + items[i..] == items;
    } else {
      assert a[..] == items;
      r := Ok(a);
    }
  }

  /** The `i == cap` step of `finishToArray`: a copy of the full array `a` with room for more. */
  method Grow<T>(a: array<Ref<T>>) returns (r: Result<array<Ref<T>>>)
    requires a.Length <= INT_MAX
    ensures r.Ok? <==> a.Length < INT_MAX
    ensures r.Ok? ==> fresh(r.value) && a.Length < r.value.Length <= INT_MAX && r.value[..a.Length] == a[..]
    ensures r.Err? ==> r.error == OutOfMemory
  {
    var cap := a.Length;
    FinishCapacityGrows(cap);
    var newCap := FinishCapacity(cap);
    if newCap.Err? {
      return Err(newCap.error);
    }
    var b := CopyOf(a, newCap.value);
    assert b[..cap] == a[..];
    r := Ok(b);
  }

  /**
   * `finishToArray(r, it)`: the iterator has already filled the `r.Length`
   * slots of `r` and yields `rest` on top; the array returned holds both, with
   * no slot to spare.
   */
  method FinishToArray<T>(r: array<Ref<T>>, rest: seq<Ref<T>>) returns (res: Result<array<Ref<T>>>)
    requires r.Length <= INT_MAX
    ensures res.Ok? <==> r.Length + |rest| <= INT_MAX
    ensures res.Ok? ==> res.value[..] == r[..] + rest
    ensures res.Ok? && rest != [] ==> fresh(res.value)
    ensures res.Err? ==> res.error == OutOfMemory
  {
    var a := r;
    var i := r.Length;
    var j := 0;
    while j < |rest|
      invariant j <= |rest| && i == r.Length + j
      invariant i <= a.Length <= INT_MAX
      invariant a == r || fresh(a)
      invariant a == r ==> i == a.Length
      invariant j > 0 ==> fresh(a)
      invariant a[..i] == r[..] + rest[..j]
    {
      if i == a.Length {
        var grown := Grow(a);
        if grown.Err? {
          return Err(grown.error);
        }
        a := grown.value;
      }
      a[i] := rest[j];
      i := i + 1;
      j := j + 1;
      assert a[..i] == a[..i - 1] + [rest[j - 1]];
      assert rest[..j] == rest[..j - 1] + [rest[j - 1]];
    }
    if i == a.Length {
      assert a[..] == a[..i];
      res := Ok(a);
    } else {
      var b := CopyOf(a, i);
      assert b[..] == a[..i];
      res := Ok(b);
    }
  }

  /** What `StringBuilder.append` adds for one element: `null`, `(this Collection)` or the element's `toString()`. */
  function Shown<T>(e: Ref<T>, show: T -> string, isThis: T -> bool): string
  {
    match e
    case Null => "null"
    case Obj(x) => if isThis(x) then "(this Collection)" else show(x)
  }

  /** The elements shown one after another, separated by `", "`. */
  function Joined<T>(s: seq<Ref<T>>, show: T -> string, isThis: T -> bool): string
  {
    if |s| == 0 then ""
    else if |s| == 1 then Shown(s[0], show, isThis)
    else Joined(s[..|s| - 1], show, isThis) + ", " + Shown(s[|s| - 1], show, isThis)
  }

  /** The text `toString()` produces for the elements `s`: `"[]"`, or `"[e1, e2, ...]"`. */
  function Rendered<T>(s: seq<Ref<T>>, show: T -> string, isThis: T -> bool): (r: string)
    ensures |r| >= 2 && r[0] == '[' && r[|r| - 1] == ']'
    ensures s == [] ==> r == "[]"
  {
    "[" + Joined(s, show, isThis) + "]"
  }

  /** Appending an element to a non-empty collection puts `", "` and the element before the closing bracket. */
  lemma RenderedSnoc<T>(s: seq<Ref<T>>, x: Ref<T>, show: T -> string, isThis: T -> bool)
    requires s != []
    ensures Rendered(s + [x], show, isThis) ==
      Rendered(s, show, isThis)[..|Rendered(s, show, isThis)| - 1] + ", " + Shown(x, show, isThis) + "]"
  {
    assert (s + [x])[..|s|] == s;
    var r := Rendered(s, show, isThis);
    assert r[..|r| - 1] == "[" + Joined(s, show, isThis);
  }

  /** A collection of one element shows just that element between brackets. */
  lemma RenderedSingle<T>(x: Ref<T>, show: T -> string, isThis: T -> bool)
    ensures Rendered([x], show, isThis) == "[" + Shown(x, show, isThis) + "]"
  {
  }

  /**
   * One step of the `removeAll`/`retainAll` loop: with the first `k` elements
   * of `orig` filtered, the iterator stands on `orig[k]`; keeping it moves the
   * iterator on, removing it deletes that position.
   */
  lemma FilterStep<T>(orig: seq<T>, k: nat, c: seq<T>, complement: bool)
    requires k < |orig|
    ensures var kept := Keep(orig[..k], c, complement);
      && |kept| < |kept + orig[k..]| && (kept + orig[k..])[|kept|] == orig[k]
      && ((orig[k] in c) == complement ==>
           Keep(orig[..k + 1], c, complement) == kept + [orig[k]]
           && Keep(orig[..k + 1], c, complement) + orig[k + 1..] == kept + orig[k..])
      && ((orig[k] in c) != complement ==>
           Keep(orig[..k + 1], c, complement) == kept
           && Keep(orig[..k + 1], c, complement) + orig[k + 1..] == DeleteAt(kept + orig[k..], |kept|))
  {
    var kept := Keep(orig[..k], c, complement);
    assert orig[..k + 1] == orig[..k] + [orig[k]];
    KeepSnoc(orig[..k], orig[k], c, complement);
    assert orig[k..] == [orig[k]] + orig[k + 1..];
    var s := kept + orig[k..];
    assert s[..|kept|] == kept;
    assert s[|kept| + 1..] == orig[k + 1..];
  }

  /**
   * A collection built on the subclass's `iterator()`: `elements` is what the
   * iterator yields, `size()` is their number, and `removable` says whether
   * the iterator implements `remove` (the `Iterator` default throws
   * `UnsupportedOperationException`).
   */
  class AbstractCollection<T(==)> {
    var elements: seq<Ref<T>>
    const removable: bool

    constructor (elements: seq<Ref<T>>, removable: bool)
      ensures this.elements == elements && this.removable == removable
    {
      this.elements := elements;
      this.removable := removable;
    }

    /** `isEmpty()` is `size() == 0`. */
    method IsEmpty() returns (b: bool)
      ensures b <==> elements == []
    {
      b := |elements| == 0;
    }

    /** `contains(o)`: whether the iterator yields `o` (compared by `==` when `o` is null, by `equals` otherwise). */
    method Contains(o: Ref<T>) returns (b: bool)
      ensures b <==> o in elements
    {
      var i := 0;
      while i < |elements|
        invariant i <= |elements|
        invariant o !in elements[..i]
      {
        var e := elements[i];
        if e == o {
          return true;
        }
        i := i + 1;
        assert elements[..i] == elements[..i - 1] + [e];
      }
      assert elements[..i] == elements;
      return false;
    }

    /** `containsAll(c)`: whether every element `c` yields is contained. */
    method ContainsAll(c: seq<Ref<T>>) returns (b: bool)
      ensures b <==> forall x :: x in c ==> x in elements
    {
      var j := 0;
      while j < |c|
        invariant j <= |c|
        invariant forall k :: 0 <= k < j ==> c[k] in elements
      {
        var found := Contains(c[j]);
        if !found {
          return false;
        }
        j := j + 1;
      }
      return true;
    }

    /** `toArray()`, with `size()` as the estimate. */
    method ToArray() returns (r: Result<array<Ref<T>>>)
      requires |elements| <= INT_MAX
      ensures r.Ok? && fresh(r.value) && r.value[..] == elements
    {
      r := ToArrayOf(|elements|, elements);
    }

    /** `add(e)`: the skeleton supports no additions. */
    method Add(e: Ref<T>) returns (r: Result<bool>)
      ensures r == Err(UnsupportedOperation)
    {
      r := Err(UnsupportedOperation);
    }

    /** `it.remove()` right after `it.next()` returned `elements[i]`. */
    method IteratorRemove(i: nat) returns (o: Outcome)
      requires i < |elements|
      modifies this
      ensures removable ==> o == Pass && elements == DeleteAt(old(elements), i)
      ensures !removable ==> o == Fail(UnsupportedOperation) && elements == old(elements)
    {
      if !removable {
        return Fail(UnsupportedOperation);
      }
      elements := DeleteAt(elements, i);
      o := Pass;
    }

    /**
     * `remove(o)`: removes the first element equal to `o` through the
     * iterator; without a match nothing changes.
     */
    method Remove(o: Ref<T>) returns (r: Result<bool>)
      modifies this
      ensures o !in old(elements) ==> r == Ok(false) && elements == old(elements)
      ensures o in old(elements) && removable ==> r == Ok(true) && elements == RemoveFirst(old(elements), o)
      ensures o in old(elements) && !removable ==> r == Err(UnsupportedOperation) && elements == old(elements)
    {
      var i := 0;
      while i < |elements|
        invariant i <= |elements| && elements == old(elements)
        invariant o !in elements[..i]
      {
        var e := elements[i];
        if e == o {
          FirstIndexAt(elements, o, i);
          var removed := IteratorRemove(i);
          if removed.Fail? {
            return Err(removed.error);
          }
          return Ok(true);
        }
        i := i + 1;
        assert elements[..i] == elements[..i - 1] + [e];
      }
      assert elements[..i] == elements;
      return Ok(false);
    }

    /**
     * The loop shared by `removeAll(c)` (`complement` false) and
     * `retainAll(c)` (`complement` true): every element whose membership in
     * `c` differs from `complement` is removed through the iterator.
     */
    method Filter(c: seq<Ref<T>>, complement: bool) returns (r: Result<bool>)
      modifies this
      ensures removable ==> r == Ok(|elements| < |old(elements)|) && elements == Keep(old(elements), c, complement)
      ensures !removable ==> elements == old(elements)
      ensures !removable ==> r == if exists x :: x in old(elements) && (x in c) != complement
                                 then Err(UnsupportedOperation) else Ok(false)
    {
      ghost var orig := elements;
      ghost var k := 0;
      var i := 0;
      var modified := false;
      while i < |elements|
        invariant k <= |orig|
        invariant elements == Keep(orig[..k], c, complement) + orig[k..]
        invariant i == |Keep(orig[..k], c, complement)|
        invariant modified <==> i < k
        invariant !removable ==> !modified && elements == orig
        decreases |orig| - k
      {
        FilterStep(orig, k, c, complement);
        var e := elements[i];
        if (e in c) != complement {
          var removed := IteratorRemove(i);
          if removed.Fail? {
            assert orig[k] in orig;
            return Err(removed.error);
          }
          modified := true;
        } else {
          i := i + 1;
        }
        k := k + 1;
      }
      assert orig[..k] == orig;
      KeepAll(orig, c, complement);
      r := Ok(modified);
    }

    /** `removeAll(c)`: a null `c` is refused; otherwise the elements in `c` go. */
    method RemoveAll(c: Ref<seq<Ref<T>>>) returns (r: Result<bool>)
      modifies this
      ensures c.Null? ==> r == Err(NullPointer) && elements == old(elements)
      ensures c.Obj? && removable ==>
        r == Ok(|elements| < |old(elements)|) && elements == Keep(old(elements), c.target, false)
      ensures c.Obj? && !removable ==> elements == old(elements)
      ensures c.Obj? && !removable ==>
        r == if exists x :: x in old(elements) && x in c.target then Err(UnsupportedOperation) else Ok(false)
    {
      if c.Null? {
        return Err(NullPointer);
      }
      r := Filter(c.target, false);
    }

    /** `retainAll(c)`: a null `c` is refused; otherwise the elements not in `c` go. */
    method RetainAll(c: Ref<seq<Ref<T>>>) returns (r: Result<bool>)
      modifies this
      ensures c.Null? ==> r == Err(NullPointer) && elements == old(elements)
      ensures c.Obj? && removable ==>
        r == Ok(|elements| < |old(elements)|) && elements == Keep(old(elements), c.target, true)
      ensures c.Obj? && !removable ==> elements == old(elements)
      ensures c.Obj? && !removable ==>
        r == if exists x :: x in old(elements) && x !in c.target then Err(UnsupportedOperation) else Ok(false)
    {
      if c.Null? {
        return Err(NullPointer);
      }
      r := Filter(c.target, true);
    }

    /** `clear()`: `next` and `remove` until the iterator is exhausted. */
    method Clear() returns (o: Outcome)
      modifies this
      ensures removable ==> o == Pass && elements == []
      ensures !removable ==> elements == old(elements)
      ensures !removable ==> o == if old(elements) == [] then Pass else Fail(UnsupportedOperation)
    {
      while |elements| > 0
        invariant !removable ==> elements == old(elements)
        decreases |elements|
      {
        var removed := IteratorRemove(0);
        if removed.Fail? {
          return removed;
        }
      }
      o := Pass;
    }

    /**
     * `toString()`, where `show` stands for the elements' own `toString()` and
     * `isThis` picks out an element that is this very collection.
     */
    method ToString(show: T -> string, isThis: T -> bool) returns (s: string)
      ensures s == Rendered(elements, show, isThis)
    {
      if |elements| == 0 {
        return "[]";
      }
      var sb := "[";
      var i := 0;
      while true
        invariant i < |elements|
        invariant sb == "[" + (if i == 0 then "" else Joined(elements[..i], show, isThis) + ", ")
        decreases |elements| - i
      {
        var e := elements[i];
        sb := sb + Shown(e, show, isThis);
        i := i + 1;
        assert elements[..i][..i - 1] == elements[..i - 1];
        assert sb == "[" + Joined(elements[..i], show, isThis);
        if i == |elements| {
          assert elements[..i] == elements;
          return sb + "]";
        }
        sb := sb + ", ";
      }
    }
  }
}

=== FILE: abstract_list.dfy ===
/**
 * `AbstractList`: the skeleton of a random-access list. A subclass supplies
 * `get(index)` and `size()`, and may override `set`, `add(index, e)` and
 * `remove(index)`, whose defaults here throw `UnsupportedOperationException`.
 * The model stands for the subclass by its elements and by which of the three
 * it overrides; an override is taken to behave as the `List` contract says,
 * bumping `modCount` on every structural change. On top of those primitives
 * sit the skeleton's own iterators, searches, bulk operations and `SubList`.
 */
module AbstractLists {
  import opened JavaLang
  import opened ListSpec

  /** Inserting `xs` and then `x` right after them is inserting `xs + [x]`. */
  lemma InsertAllAtSnoc<T>(s: seq<T>, index: nat, xs: seq<T>, x: T)
    requires index <= |s|
    ensures InsertAt(InsertAllAt(s, index, xs), index + |xs|, x) == InsertAllAt(s, index, xs + [x])
  {
    var t := InsertAllAt(s, index, xs);
    assert t[..index + |xs|] == s[..index] + xs;
    assert t[index + |xs|..] == s[index..];
  }

  /**
   * `lastIndexOf(o)` as written: scanning backwards, a non-null `o` is
   * compared by calling `equals` on the element, which throws
   * `NullPointerException` when the element is null.
   */
  function LastIndexAsWritten<T(==)>(s: seq<Ref<T>>, o: Ref<T>): (r: Result<int>)
    ensures r.Err? ==> r.error == NullPointer && o.Obj? && Null in s
    ensures r.Ok? ==> -1 <= r.value < |s| && (r.value >= 0 ==> s[r.value] == o)
  {
    if |s| == 0 then Ok(-1)
    else if s[|s| - 1] == o then Ok(|s| - 1)
    else if o.Obj? && s[|s| - 1].Null? then Err(NullPointer)
    else LastIndexAsWritten(s[..|s| - 1], o)
  }

  /**
   * As written, `lastIndexOf` finds the last index exactly when no null
   * element lies after it, or `o` is itself null; otherwise it throws.
   */
  lemma {:induction false} LastIndexAsWrittenIs<T>(s: seq<Ref<T>>, o: Ref<T>)
    ensures LastIndexAsWritten(s, o) ==
      if o.Obj? && Null in s[LastIndex(s, o) + 1..] then Err(NullPointer) else Ok(LastIndex(s, o))
  {
    if |s| == 0 {
    } else if s[|s| - 1] == o {
    } else if o.Obj? && s[|s| - 1].Null? {
      var last := LastIndex(s, o);
      assert s[last + 1..][|s| - last - 2] == Null;
    } else {
      var init := s[..|s| - 1];
      LastIndexAsWrittenIs(init, o);
      LastIndexInit(s, o);
      if o.Obj? {
        TailWithout(s, LastIndex(s, o) + 1, Null);
      }
    }
  }

  /** Scanning back to a null at `c` with no `o` after it, a non-null `o` throws. */
  lemma LastIndexAsWrittenThrows<T>(s: seq<Ref<T>>, o: Ref<T>, c: nat)
    requires c < |s| && s[c] == Null && o.Obj? && o !in s[c + 1..]
    ensures LastIndexAsWritten(s, o) == Err(NullPointer)
  {
    LastIndexAsWrittenIs(s, o);
    var last := LastIndex(s, o);
    assert s[last + 1..][c - last - 1] == Null;
  }

  /** Scanning back to `o` at `n` past no null (or with `o` null), the result is `n`. */
  lemma LastIndexAsWrittenFinds<T>(s: seq<Ref<T>>, o: Ref<T>, n: nat)
    requires n < |s| && s[n] == o && o !in s[n + 1..] && (o.Obj? ==> Null !in s[n + 1..])
    ensures LastIndexAsWritten(s, o) == Ok(n)
  {
    LastIndexAsWrittenIs(s, o);
    LastIndexAt(s, o, n);
  }

  /** Scanning the whole list finds neither `o` nor a null it would throw on: the result is -1. */
  lemma LastIndexAsWrittenAbsent<T>(s: seq<Ref<T>>, o: Ref<T>)
    requires o !in s && (o.Obj? ==> Null !in s)
    ensures LastIndexAsWritten(s, o) == Ok(-1)
  {
    LastIndexAsWrittenIs(s, o);
    assert s[0..] == s;
  }

  /** A value other than the last element occurs in a suffix exactly when it occurs in it without the last element. */
  lemma TailWithout<T>(s: seq<T>, k: nat, x: T)
    requires k < |s| && s[|s| - 1] != x
    ensures (x in s[k..]) == (x in s[..|s| - 1][k..])
  {
    assert s[k..] == s[..|s| - 1][k..] + [s[|s| - 1]];
  }

  /** When the last element is not `o`, the last `o` is the last one before it. */
  lemma LastIndexInit<T>(s: seq<T>, o: T)
    requires |s| > 0 && s[|s| - 1] != o
    ensures LastIndex(s, o) == LastIndex(s[..|s| - 1], o)
  {
  }

  /** The smallest input that shows the difference: a list holding only `null`, searched for an object. */
  lemma LastIndexOfNullElement<T>(x: T)
    ensures LastIndexAsWritten([Null], Obj(x)) == Err(NullPointer)
    ensures LastIndex([Null], Obj(x)) == -1
  {
  }

  /** `SubList.size()` as written calls itself until the stack, `depth` frames deep, runs out. */
  function SubListSizeAsWritten(inSync: bool, depth: nat): (r: Result<nat>)
    ensures r.Err? && (!inSync ==> r.error == ConcurrentModification)
  {
    if !inSync then Err(ConcurrentModification)
    else if depth == 0 then Err(StackOverflow)
    else SubListSizeAsWritten(inSync, depth - 1)
  }

  /** However deep the stack, `SubList.size()` as written never returns a size. */
  lemma {:induction false} SubListSizeNeverReturns(inSync: bool, depth: nat)
    ensures SubListSizeAsWritten(inSync, depth) == if inSync then Err(StackOverflow) else Err(ConcurrentModification)
  {
    if inSync && depth > 0 {
      SubListSizeNeverReturns(inSync, depth - 1);
    }
  }

  /** What `equals(o)` may be handed: this very list, some `List`, or anything else (including `null`). */
  datatype Operand<T> = Itself | AList(elements: seq<Ref<T>>) | Other

  class AbstractList<T(==)> {
    /** The subclass's elements, as `get` and `size()` report them. */
    var elements: seq<Ref<T>>
    var modCount: int
    /** Whether the subclass overrides `set`, `add(index, e)` and `remove(index)`. */
    const supportsSet: bool
    const supportsAdd: bool
    const supportsRemove: bool

    constructor (elements: seq<Ref<T>>, supportsSet: bool, supportsAdd: bool, supportsRemove: bool)
      ensures this.elements == elements && modCount == 0
      ensures this.supportsSet == supportsSet && this.supportsAdd == supportsAdd && this.supportsRemove == supportsRemove
    {
      this.elements := elements;
      modCount := 0;
      this.supportsSet := supportsSet;
      this.supportsAdd := supportsAdd;
      this.supportsRemove := supportsRemove;
    }

    /** `get(index)`, the subclass's: the element at `index`, or `IndexOutOfBoundsException`. */
    method Get(index: int) returns (r: Result<Ref<T>>)
      ensures 0 <= index < |elements| ==> r == Ok(elements[index])
      ensures !(0 <= index < |elements|) ==> r == Err(IndexOutOfBounds)
    {
      if 0 <= index < |elements| {
        r := Ok(elements[index]);
      } else {
        r := Err(IndexOutOfBounds);
      }
    }

    /** `set(index, element)`: the default throws; an override replaces one element and returns the old one. */
    method Set(index: int, element: Ref<T>) returns (r: Result<Ref<T>>)
      modifies this
      ensures modCount == old(modCount)
      ensures !supportsSet ==> r == Err(UnsupportedOperation) && elements == old(elements)
      ensures supportsSet && !(0 <= index < old(|elements|)) ==> r == Err(IndexOutOfBounds) && elements == old(elements)
      ensures supportsSet && 0 <= index < old(|elements|) ==>
        r == Ok(old(elements[index])) && elements == old(elements)[index := element]
    {
      if !supportsSet {
        return Err(UnsupportedOperation);
      }
      if !(0 <= index < |elements|) {
        return Err(IndexOutOfBounds);
      }
      r := Ok(elements[index]);
      elements := elements[index := element];
    }

    /** `add(index, element)`: the default throws; an override inserts and bumps `modCount`. */
    method AddAt(index: int, element: Ref<T>) returns (o: Outcome)
      modifies this
      ensures !supportsAdd ==> o == Fail(UnsupportedOperation) && unchanged(this)
      ensures supportsAdd && !(0 <= index <= old(|elements|)) ==> o == Fail(IndexOutOfBounds) && unchanged(this)
      ensures supportsAdd && 0 <= index <= old(|elements|) ==>
        o == Pass && elements == InsertAt(old(elements), index, element) && modCount == old(modCount) + 1
    {
      if !supportsAdd {
        return Fail(UnsupportedOperation);
      }
      if !(0 <= index <= |elements|) {
        return Fail(IndexOutOfBounds);
      }
      elements := InsertAt(elements, index, element);
      modCount := modCount + 1;
      o := Pass;
    }

    /** `remove(index)`: the default throws; an override deletes, returns the element and bumps `modCount`. */
    method RemoveAt(index: int) returns (r: Result<Ref<T>>)
      modifies this
      ensures !supportsRemove ==> r == Err(UnsupportedOperation) && unchanged(this)
      ensures supportsRemove && !(0 <= index < old(|elements|)) ==> r == Err(IndexOutOfBounds) && unchanged(this)
      ensures supportsRemove && 0 <= index < old(|elements|) ==>
        r == Ok(old(elements[index])) && elements == DeleteAt(old(elements), index) && modCount == old(modCount) + 1
    {
      if !supportsRemove {
        return Err(UnsupportedOperation);
      }
      if !(0 <= index < |elements|) {
        return Err(IndexOutOfBounds);
      }
      r := Ok(elements[index]);
      elements := DeleteAt(elements, index);
      modCount := modCount + 1;
    }

    /** `add(e)` is `add(size(), e)`: an append. */
    method Add(e: Ref<T>) returns (r: Result<bool>)
      modifies this
      ensures supportsAdd ==> r == Ok(true) && elements == old(elements) + [e] && modCount == old(modCount) + 1
      ensures !supportsAdd ==> r == Err(UnsupportedOperation) && unchanged(this)
    {
      var o := AddAt(|elements|, e);
      if o.Fail? {
        return Err(o.error);
      }
      r := Ok(true);
    }

    /** `iterator()` */
    method Iterator() returns (it: Itr<T>)
      ensures fresh(it) && it.list == this && !it.isListIterator
      ensures it.cursor == 0 && it.lastRet == -1 && it.InSync()
    {
      it := new Itr(this);
    }

    /** `listIterator(index)`: no check on `index`; a bad one surfaces on the first access. */
    method ListIterator(index: int) returns (it: Itr<T>)
      ensures fresh(it) && it.list == this && it.isListIterator
      ensures it.cursor == index && it.lastRet == -1 && it.InSync()
    {
      it := new Itr.ListItr(this, index);
    }

    /** `indexOf(o)`: the first position holding `o`, found with a list iterator, or -1. */
    method IndexOf(o: Ref<T>) returns (r: int)
      ensures r == FirstIndex(elements, o)
    {
      var it := ListIterator(0);
      var more := it.HasNext();
      while more
        invariant fresh(it) && it.list == this && it.isListIterator && it.InSync()
        invariant 0 <= it.cursor <= |elements| && (more <==> it.cursor < |elements|)
        invariant o !in elements[..it.cursor]
        decreases |elements| - it.cursor
      {
        var next := it.Next();
        if next.value == o {
          r := it.PreviousIndex();
          FirstIndexAt(elements, o, r);
          return;
        }
        assert elements[..it.cursor] == elements[..it.cursor - 1] + [next.value];
        more := it.HasNext();
      }
      assert elements[..it.cursor] == elements;
      r := -1;
    }

    /** `lastIndexOf(o)`: the last position holding `o`, found walking a list iterator backwards, or -1. */
    method LastIndexOf(o: Ref<T>) returns (r: int)
      ensures r == LastIndex(elements, o)
    {
      var it := ListIterator(|elements|);
      var more := it.HasPrevious();
      while more
        invariant fresh(it) && it.list == this && it.isListIterator && it.InSync()
        invariant 0 <= it.cursor <= |elements| && (more <==> it.cursor > 0)
        invariant o !in elements[it.cursor..]
        decreases it.cursor
      {
        var previous := it.Privious();
        if previous.value == o {
          r := it.NextIndex();
          LastIndexAt(elements, o, r);
          return;
        }
        assert elements[it.cursor..] == [previous.value] + elements[it.cursor + 1..];
        more := it.HasPrevious();
      }
      r := -1;
    }

    /**
     * `lastIndexOf(o)` as written, where a non-null `o` is compared by
     * `element.equals(o)`: a null element met before a match throws.
     */
    method LastIndexOfAsWritten(o: Ref<T>) returns (r: Result<int>)
      ensures r == LastIndexAsWritten(elements, o)
    {
      var it := ListIterator(|elements|);
      var more := it.HasPrevious();
      while more
        invariant fresh(it) && it.list == this && it.isListIterator && it.InSync()
        invariant 0 <= it.cursor <= |elements| && (more <==> it.cursor > 0)
        invariant o !in elements[it.cursor..]
        invariant o.Obj? ==> Null !in elements[it.cursor..]
        decreases it.cursor
      {
        var previous := it.Privious();
        assert elements[it.cursor..] == [previous.value] + elements[it.cursor + 1..];
        if o.Obj? && previous.value.Null? {
          LastIndexAsWrittenThrows(elements, o, it.cursor);
          return Err(NullPointer);
        }
        if previous.value == o {
          var n := it.NextIndex();
          LastIndexAsWrittenFinds(elements, o, n);
          return Ok(n);
        }
        more := it.HasPrevious();
      }
      assert elements[0..] == elements;
      LastIndexAsWrittenAbsent(elements, o);
      r := Ok(-1);
    }

    /** `clear()` is `removeRange(0, size())`. */
    method Clear() returns (o: Outcome)
      modifies this
      ensures supportsRemove ==> o == Pass && elements == [] && modCount == old(modCount) + old(|elements|)
      ensures !supportsRemove ==> elements == old(elements) && modCount == old(modCount)
      ensures !supportsRemove ==> o == if old(elements) == [] then Pass else Fail(UnsupportedOperation)
    {
      o := RemoveRange(0, |elements|);
    }

    /**
     * `removeRange(fromIndex, toIndex)`: `toIndex - fromIndex` rounds of
     * `next()` and `remove()` on a list iterator placed at `fromIndex`, each
     * deleting the element at `fromIndex`; the rounds stop with
     * `NoSuchElementException` when the list runs out first.
     */
    method RemoveRange(fromIndex: nat, toIndex: nat) returns (o: Outcome)
      requires fromIndex <= toIndex
      modifies this
      ensures fromIndex == toIndex ==> o == Pass && elements == old(elements) && modCount == old(modCount)
      ensures fromIndex < toIndex && fromIndex >= old(|elements|) ==>
        o == Fail(NoSuchElement) && elements == old(elements) && modCount == old(modCount)
      ensures fromIndex < toIndex && fromIndex < old(|elements|) && !supportsRemove ==>
        o == Fail(UnsupportedOperation) && elements == old(elements) && modCount == old(modCount)
      ensures fromIndex < old(|elements|) && supportsRemove ==>
        var end := if toIndex <= old(|elements|) then toIndex else old(|elements|);
        && elements == DeleteRange(old(elements), fromIndex, end)
        && modCount == old(modCount) + (end - fromIndex)
        && o == (if toIndex <= old(|elements|) then Pass else Fail(NoSuchElement))
    {
      var it := ListIterator(fromIndex);
      var i := 0;
      var n := toIndex - fromIndex;
      while i < n
        invariant fresh(it) && it.list == this && it.isListIterator && it.InSync()
        invariant i <= n && (i == 0 || fromIndex + i <= old(|elements|))
        invariant it.cursor == fromIndex && it.lastRet == -1
        invariant i == 0 ==> elements == old(elements)
        invariant i > 0 ==> elements == DeleteRange(old(elements), fromIndex, fromIndex + i)
        invariant modCount == old(modCount) + i
        invariant !supportsRemove ==> i == 0
      {
        var next := it.Next();
        if next.Err? {
          return Fail(next.error);
        }
        DeleteRangeStep(old(elements), fromIndex, fromIndex + i);
        var removed := it.Remove();
        if removed.Fail? {
          return removed;
        }
        i := i + 1;
      }
      o := Pass;
    }

    /**
     * `addAll(index, c)`: after `rangeCheckForAdd`, `add(index++, e)` for each
     * element of `c` in turn; true iff `c` was not empty.
     */
    method AddAll(index: int, c: seq<Ref<T>>) returns (r: Result<bool>)
      modifies this
      ensures !(0 <= index <= old(|elements|)) ==> r == Err(IndexOutOfBounds) && unchanged(this)
      ensures 0 <= index <= old(|elements|) && c == [] ==> r == Ok(false) && unchanged(this)
      ensures 0 <= index <= old(|elements|) && c != [] && !supportsAdd ==> r == Err(UnsupportedOperation) && unchanged(this)
      ensures 0 <= index <= old(|elements|) && supportsAdd ==>
        r == Ok(c != []) && elements == InsertAllAt(old(elements), index, c) && modCount == old(modCount) + |c|
    {
      if index < 0 || index > |elements| {
        return Err(IndexOutOfBounds);
      }
      var modified := false;
      var i := index;
      var j := 0;
      while j < |c|
        invariant j <= |c| && i == index + j
        invariant elements == InsertAllAt(old(elements), index, c[..j])
        invariant modCount == old(modCount) + j
        invariant modified <==> j > 0
        invariant !supportsAdd ==> j == 0
        invariant j == 0 ==> unchanged(this)
      {
        InsertAllAtSnoc(old(elements), index, c[..j], c[j]);
        assert c[..j] + [c[j]] == c[..j + 1];
        var o := AddAt(i, c[j]);
        if o.Fail? {
          return Err(o.error);
        }
        i := i + 1;
        j := j + 1;
        modified := true;
      }
      assert c[..j] == c;
      r := Ok(modified);
    }

    /**
     * `equals(o)`: true for this very list, false for anything that is not a
     * `List`, and otherwise whether the two iterators yield equal elements
     * pairwise and run out together.
     */
    method Equals(o: Operand<T>) returns (b: bool)
      ensures b <==> o.Itself? || (o.AList? && o.elements == elements)
    {
      if o.Itself? {
        return true;
      }
      if o.Other? {
        return false;
      }
      var e1 := ListIterator(0);
      var others := o.elements;
      var j := 0;
      var more1 := e1.HasNext();
      while more1 && j < |others|
        invariant fresh(e1) && e1.list == this && e1.isListIterator && e1.InSync()
        invariant 0 <= j <= |elements| && j <= |others| && e1.cursor == j
        invariant more1 <==> j < |elements|
        invariant elements[..j] == others[..j]
        decreases |others| - j
      {
        var o1 := e1.Next();
        var o2 := others[j];
        j := j + 1;
        if o1.value != o2 {
          assert elements[j - 1] != others[j - 1];
          return false;
        }
        assert elements[..j] == others[..j];
        more1 := e1.HasNext();
      }
      if more1 || j < |others| {
        assert |elements| != |others|;
        return false;
      }
      assert elements == elements[..j] && others == others[..j];
      return true;
    }

    /** `subList(fromIndex, toIndex)` */
    method SubList(fromIndex: int, toIndex: int) returns (r: Result<SubList<T>>)
      ensures !(0 <= fromIndex <= toIndex <= |elements|) <==> r.Err?
      ensures r.Ok? ==> fresh(r.value) && r.value.l == this && r.value.Valid() && r.value.InSync()
      ensures r.Ok? ==> r.value.Contents() == elements[fromIndex..toIndex]
    {
      r := NewSubList(this, fromIndex, toIndex);
    }
  }

  /** Deleting one more element at the front of the range. */
  lemma DeleteRangeStep<T>(s: seq<T>, from: nat, to: nat)
    requires from <= to < |s|
    ensures DeleteAt(DeleteRange(s, from, to), from) == DeleteRange(s, from, to + 1)
  {
    assert DeleteRange(s, from, to)[from + 1..] == s[to + 1..];
  }

  /**
   * `AbstractList.Itr`, and with `isListIterator` its subclass `ListItr`: a
   * cursor over the list through `get`, failing fast once the list's
   * `modCount` moves away from the value the iterator last saw.
   */
  class Itr<T(==)> {
    const list: AbstractList<T>
    /** Created by `listIterator`, so the `ListItr` operations are available. */
    const isListIterator: bool
    var cursor: int
    var lastRet: int
    var expectedModCount: int

    ghost predicate InSync()
      reads this, list
    {
      expectedModCount == list.modCount
    }

    /** `new Itr()` */
    constructor (list: AbstractList<T>)
      ensures this.list == list && !isListIterator
      ensures cursor == 0 && lastRet == -1 && InSync()
    {
      this.list := list;
      isListIterator := false;
      cursor := 0;
      lastRet := -1;
      expectedModCount := list.modCount;
    }

    /** `new ListItr(index)` */
    constructor ListItr(list: AbstractList<T>, index: int)
      ensures this.list == list && isListIterator
      ensures cursor == index && lastRet == -1 && InSync()
    {
      this.list := list;
      isListIterator := true;
      cursor := index;
      lastRet := -1;
      expectedModCount := list.modCount;
    }

    /** `hasNext()` is `cursor != size()`. */
    method HasNext() returns (b: bool)
      ensures b <==> cursor != |list.elements|
    {
      b := cursor != |list.elements|;
    }

    /**
     * `next()`: after the comodification check, `get(cursor)`; an
     * `IndexOutOfBoundsException` from `get` becomes `NoSuchElementException`
     * (the second check in the handler cannot fail, as `get` changed nothing).
     */
    method Next() returns (r: Result<Ref<T>>)
      modifies this
      ensures expectedModCount == old(expectedModCount)
      ensures !old(InSync()) ==> r == Err(ConcurrentModification) && unchanged(this)
      ensures old(InSync()) && !(0 <= old(cursor) < |list.elements|) ==> r == Err(NoSuchElement) && unchanged(this)
      ensures old(InSync()) && 0 <= old(cursor) < |list.elements| ==>
        r == Ok(list.elements[old(cursor)]) && lastRet == old(cursor) && cursor == old(cursor) + 1
    {
      if list.modCount != expectedModCount {
        return Err(ConcurrentModification);
      }
      var i := cursor;
      var next := list.Get(i);
      if next.Err? {
        return Err(NoSuchElement);
      }
      lastRet := i;
      cursor := i + 1;
      r := next;
    }

    /**
     * `remove()`: removes the element last returned, steps the cursor back
     * over it when it lay before the cursor, forgets it and resynchronises.
     */
    method Remove() returns (o: Outcome)
      modifies this, list
      ensures old(lastRet) < 0 ==> o == Fail(IllegalState) && unchanged(this) && unchanged(list)
      ensures old(lastRet) >= 0 && !old(InSync()) ==> o == Fail(ConcurrentModification) && unchanged(this) && unchanged(list)
      ensures old(lastRet) >= 0 && old(InSync()) && !list.supportsRemove ==>
        o == Fail(UnsupportedOperation) && unchanged(this) && unchanged(list)
      ensures old(lastRet) >= 0 && old(InSync()) && list.supportsRemove && old(lastRet) >= old(|list.elements|) ==>
        o == Fail(ConcurrentModification) && unchanged(this) && unchanged(list)
      ensures 0 <= old(lastRet) < old(|list.elements|) && old(InSync()) && list.supportsRemove ==>
        && o == Pass
        && list.elements == DeleteAt(old(list.elements), old(lastRet))
        && list.modCount == old(list.modCount) + 1
        && cursor == (if old(lastRet) < old(cursor) then old(cursor) - 1 else old(cursor))
        && lastRet == -1 && InSync()
    {
      if lastRet < 0 {
        return Fail(IllegalState);
      }
      if list.modCount != expectedModCount {
        return Fail(ConcurrentModification);
      }
      var removed := list.RemoveAt(lastRet);
      if removed.Err? {
        return if removed.error == IndexOutOfBounds then Fail(ConcurrentModification) else Fail(removed.error);
      }
      if lastRet < cursor {
        cursor := cursor - 1;
      }
      lastRet := -1;
      expectedModCount := list.modCount;
      o := Pass;
    }

    /** `hasPrevious()` is `cursor != 0`. */
    method HasPrevious() returns (b: bool)
      requires isListIterator
      ensures b <==> cursor != 0
    {
      b := cursor != 0;
    }

    /** `privious()`: the element before the cursor, which becomes both the cursor and the last returned index. */
    method Privious() returns (r: Result<Ref<T>>)
      requires isListIterator
      modifies this
      ensures expectedModCount == old(expectedModCount)
      ensures !old(InSync()) ==> r == Err(ConcurrentModification) && unchanged(this)
      ensures old(InSync()) && !(0 < old(cursor) <= |list.elements|) ==> r == Err(NoSuchElement) && unchanged(this)
      ensures old(InSync()) && 0 < old(cursor) <= |list.elements| ==>
        r == Ok(list.elements[old(cursor) - 1]) && cursor == old(cursor) - 1 && lastRet == cursor
    {
      if list.modCount != expectedModCount {
        return Err(ConcurrentModification);
      }
      var i := cursor - 1;
      var previous := list.Get(i);
      if previous.Err? {
        return Err(NoSuchElement);
      }
      lastRet := i;
      cursor := i;
      r := previous;
    }

    /** `nextIndex()` */
    method NextIndex() returns (i: int)
      requires isListIterator
      ensures i == cursor
    {
      i := cursor;
    }

    /** `previousIndex()` */
    method PreviousIndex() returns (i: int)
      requires isListIterator
      ensures i == cursor - 1
    {
      i := cursor - 1;
    }

    /** `set(e)`: replaces the element last returned; an `IndexOutOfBoundsException` becomes a comodification. */
    method Set(e: Ref<T>) returns (o: Outcome)
      requires isListIterator
      modifies this, list
      ensures cursor == old(cursor) && lastRet == old(lastRet) && list.modCount == old(list.modCount)
      ensures old(lastRet) < 0 ==> o == Fail(IllegalState) && list.elements == old(list.elements)
      ensures old(lastRet) >= 0 && !old(InSync()) ==> o == Fail(ConcurrentModification) && list.elements == old(list.elements)
      ensures old(lastRet) >= 0 && old(InSync()) && !list.supportsSet ==>
        o == Fail(UnsupportedOperation) && list.elements == old(list.elements)
      ensures old(lastRet) >= 0 && old(InSync()) && list.supportsSet && old(lastRet) >= old(|list.elements|) ==>
        o == Fail(ConcurrentModification) && list.elements == old(list.elements)
      ensures 0 <= old(lastRet) < old(|list.elements|) && old(InSync()) && list.supportsSet ==>
        o == Pass && list.elements == old(list.elements)[old(lastRet) := e] && InSync()
      ensures !old(InSync()) ==> expectedModCount == old(expectedModCount)
    {
      if lastRet < 0 {
        return Fail(IllegalState);
      }
      if list.modCount != expectedModCount {
        return Fail(ConcurrentModification);
      }
      var r := list.Set(lastRet, e);
      if r.Err? {
        return if r.error == IndexOutOfBounds then Fail(ConcurrentModification) else Fail(r.error);
      }
      expectedModCount := list.modCount;
      o := Pass;
    }

    /** `add(e)`: inserts at the cursor, steps over the new element, forgets the last returned one and resynchronises. */
    method Add(e: Ref<T>) returns (o: Outcome)
      requires isListIterator
      modifies this, list
      ensures !old(InSync()) ==> o == Fail(ConcurrentModification) && unchanged(this) && unchanged(list)
      ensures old(InSync()) && !list.supportsAdd ==> o == Fail(UnsupportedOperation) && unchanged(this) && unchanged(list)
      ensures old(InSync()) && list.supportsAdd && !(0 <= old(cursor) <= old(|list.elements|)) ==>
        o == Fail(ConcurrentModification) && unchanged(this) && unchanged(list)
      ensures old(InSync()) && list.supportsAdd && 0 <= old(cursor) <= old(|list.elements|) ==>
        && o == Pass
        && list.elements == InsertAt(old(list.elements), old(cursor), e)
        && list.modCount == old(list.modCount) + 1
        && cursor == old(cursor) + 1 && lastRet == -1 && InSync()
    {
      if list.modCount != expectedModCount {
        return Fail(ConcurrentModification);
      }
      var i := cursor;
      var added := list.AddAt(i, e);
      if added.Fail? {
        return if added.error == IndexOutOfBounds then Fail(ConcurrentModification) else added;
      }
      lastRet := -1;
      cursor := i + 1;
      expectedModCount := list.modCount;
      o := Pass;
    }
  }

  /** `new SubList(list, fromIndex, toIndex)`, with its three argument checks. */
  method NewSubList<T(==)>(list: AbstractList<T>, fromIndex: int, toIndex: int) returns (r: Result<SubList<T>>)
    ensures fromIndex < 0 ==> r == Err(IndexOutOfBounds)
    ensures 0 <= fromIndex && toIndex > |list.elements| ==> r == Err(IndexOutOfBounds)
    ensures 0 <= fromIndex && toIndex <= |list.elements| && fromIndex > toIndex ==> r == Err(IllegalArgument)
    ensures 0 <= fromIndex <= toIndex <= |list.elements| ==>
      r.Ok? && fresh(r.value) && r.value.l == list && r.value.Valid() && r.value.InSync()
      && r.value.Contents() == list.elements[fromIndex..toIndex]
  {
    if fromIndex < 0 {
      return Err(IndexOutOfBounds);
    }
    if toIndex > |list.elements| {
      return Err(IndexOutOfBounds);
    }
    if fromIndex > toIndex {
      return Err(IllegalArgument);
    }
    var sub := new SubList(list, fromIndex, toIndex);
    r := Ok(sub);
  }

  /**
   * `SubList`: the window `[offset, offset + size)` of the list `l`. Its own
   * changes go through `l` and resynchronise `modCount`; any other structural
   * change of `l` makes it fail fast.
   */
  class SubList<T(==)> {
    const l: AbstractList<T>
    const offset: nat
    var size: nat
    var modCount: int

    /** While in step with `l`, the window lies within `l`; `l`'s `modCount` never falls behind. */
    ghost predicate Valid()
      reads this, l
    {
      && modCount <= l.modCount
      && (InSync() ==> offset + size <= |l.elements|)
    }

    ghost predicate InSync()
      reads this, l
    {
      modCount == l.modCount
    }

    /** The sub-list's elements. */
    ghost function Contents(): seq<Ref<T>>
      reads this, l
      requires Valid() && InSync()
    {
      l.elements[offset..offset + size]
    }

    constructor (list: AbstractList<T>, fromIndex: nat, toIndex: nat)
      requires fromIndex <= toIndex <= |list.elements|
      ensures l == list && offset == fromIndex && size == toIndex - fromIndex
      ensures Valid() && InSync()
    {
      l := list;
      offset := fromIndex;
      size := toIndex - fromIndex;
      modCount := list.modCount;
    }

    /** `set(index, element)`: `rangeCheck`, the comodification check, then `l.set(index + offset, element)`. */
    method Set(index: int, element: Ref<T>) returns (r: Result<Ref<T>>)
      requires Valid()
      modifies l
      ensures Valid() && l.modCount == old(l.modCount)
      ensures !(0 <= index < size) ==> r == Err(IndexOutOfBounds) && l.elements == old(l.elements)
      ensures 0 <= index < size && !InSync() ==> r == Err(ConcurrentModification) && l.elements == old(l.elements)
      ensures 0 <= index < size && InSync() && !l.supportsSet ==> r == Err(UnsupportedOperation) && l.elements == old(l.elements)
      ensures 0 <= index < size && InSync() && l.supportsSet ==>
        && r == Ok(old(Contents())[index])
        && l.elements == old(l.elements)[offset + index := element]
        && Contents() == old(Contents())[index := element]
    {
      if index < 0 || index >= size {
        return Err(IndexOutOfBounds);
      }
      if modCount != l.modCount {
        return Err(ConcurrentModification);
      }
      r := l.Set(index + offset, element);
      if r.Ok? {
        assert l.elements[offset..offset + size] == old(l.elements)[offset..offset + size][index := element];
      }
    }

    /** `get(index)`: `rangeCheck`, the comodification check, then `l.get(index + offset)`. */
    method Get(index: int) returns (r: Result<Ref<T>>)
      requires Valid()
      ensures !(0 <= index < size) ==> r == Err(IndexOutOfBounds)
      ensures 0 <= index < size && !InSync() ==> r == Err(ConcurrentModification)
      ensures 0 <= index < size && InSync() ==> r == Ok(Contents()[index])
    {
      if index < 0 || index >= size {
        return Err(IndexOutOfBounds);
      }
      if modCount != l.modCount {
        return Err(ConcurrentModification);
      }
      r := l.Get(index + offset);
    }

    /**
     * `size()` as written: after the comodification check it calls itself,
     * so with `depth` stack frames to spare it ends in `StackOverflowError`.
     */
    method SizeAsWritten(depth: nat) returns (r: Result<nat>)
      requires Valid()
      ensures r == SubListSizeAsWritten(InSync(), depth)
      ensures r == if InSync() then Err(StackOverflow) else Err(ConcurrentModification)
      decreases depth
    {
      if modCount != l.modCount {
        return Err(ConcurrentModification);
      }
      if depth == 0 {
        return Err(StackOverflow);
      }
      r := SizeAsWritten(depth - 1);
    }

    /** `size()` as intended: the comodification check, then the `size` field. */
    method Size() returns (r: Result<nat>)
      requires Valid()
      ensures InSync() ==> r == Ok(|Contents()|)
      ensures !InSync() ==> r == Err(ConcurrentModification)
    {
      if modCount != l.modCount {
        return Err(ConcurrentModification);
      }
      r := Ok(size);
    }

    /** `add(index, element)`: `rangeCheckForAdd`, the comodification check, `l.add(index + offset, element)`, then resync. */
    method AddAt(index: int, element: Ref<T>) returns (o: Outcome)
      requires Valid()
      modifies this, l
      ensures Valid()
      ensures !(0 <= index <= old(size)) ==> o == Fail(IndexOutOfBounds) && unchanged(this) && unchanged(l)
      ensures 0 <= index <= old(size) && !old(InSync()) ==> o == Fail(ConcurrentModification) && unchanged(this) && unchanged(l)
      ensures 0 <= index <= old(size) && old(InSync()) && !l.supportsAdd ==>
        o == Fail(UnsupportedOperation) && unchanged(this) && unchanged(l)
      ensures 0 <= index <= old(size) && old(InSync()) && l.supportsAdd ==>
        && o == Pass && InSync()
        && Contents() == InsertAt(old(Contents()), index, element)
        && l.elements == InsertAt(old(l.elements), offset + index, element)
    {
      if index < 0 || index > size {
        return Fail(IndexOutOfBounds);
      }
      if modCount != l.modCount {
        return Fail(ConcurrentModification);
      }
      InsertAtIsInsertAll(l.elements, offset + index, element);
      InsertAtIsInsertAll(Contents(), index, element);
      InsertAllAtWindow(l.elements, offset, size, index, [element]);
      o := l.AddAt(index + offset, element);
      if o.Fail? {
        return;
      }
      modCount := l.modCount;
      size := size + 1;
    }

    /** `remove(index)`: `rangeCheck`, the comodification check, `l.remove(index + offset)`, then resync. */
    method RemoveAt(index: int) returns (r: Result<Ref<T>>)
      requires Valid()
      modifies this, l
      ensures Valid()
      ensures !(0 <= index < old(size)) ==> r == Err(IndexOutOfBounds) && unchanged(this) && unchanged(l)
      ensures 0 <= index < old(size) && !old(InSync()) ==> r == Err(ConcurrentModification) && unchanged(this) && unchanged(l)
      ensures 0 <= index < old(size) && old(InSync()) && !l.supportsRemove ==>
        r == Err(UnsupportedOperation) && unchanged(this) && unchanged(l)
      ensures 0 <= index < old(size) && old(InSync()) && l.supportsRemove ==>
        && r == Ok(old(Contents())[index]) && InSync()
        && Contents() == DeleteAt(old(Contents()), index)
        && l.elements == DeleteAt(old(l.elements), offset + index)
    {
      if index < 0 || index >= size {
        return Err(IndexOutOfBounds);
      }
      if modCount != l.modCount {
        return Err(ConcurrentModification);
      }
      DeleteAtIsRange(l.elements, offset + index);
      DeleteAtIsRange(Contents(), index);
      DeleteRangeWindow(l.elements, offset, size, index, index + 1);
      r := l.RemoveAt(index + offset);
      if r.Err? {
        return;
      }
      modCount := l.modCount;
      size := size - 1;
    }

    /**
     * `removeRange(fromIndex, toIndex)`: the comodification check, then `l`'s
     * `removeRange` at the offset positions, then resync.
     */
    method RemoveRange(fromIndex: nat, toIndex: nat) returns (o: Outcome)
      requires Valid() && fromIndex <= toIndex <= size
      modifies this, l
      ensures Valid()
      ensures !old(InSync()) ==> o == Fail(ConcurrentModification) && unchanged(this) && unchanged(l)
      ensures old(InSync()) && fromIndex < toIndex && !l.supportsRemove ==>
        o == Fail(UnsupportedOperation) && unchanged(this) && l.elements == old(l.elements)
      ensures old(InSync()) && (fromIndex == toIndex || l.supportsRemove) ==>
        && o == Pass && InSync()
        && Contents() == DeleteRange(old(Contents()), fromIndex, toIndex)
        && l.elements == DeleteRange(old(l.elements), offset + fromIndex, offset + toIndex)
    {
      if modCount != l.modCount {
        return Fail(ConcurrentModification);
      }
      DeleteRangeWindow(l.elements, offset, size, fromIndex, toIndex);
      o := l.RemoveRange(fromIndex + offset, toIndex + offset);
      if o.Fail? {
        return;
      }
      modCount := l.modCount;
      size := size - (toIndex - fromIndex);
    }

    /** `addAll(c)` is `addAll(size, c)`. */
    method AddAll(c: seq<Ref<T>>) returns (r: Result<bool>)
      requires Valid()
      modifies this, l
      ensures Valid()
      ensures c == [] ==> r == Ok(false) && unchanged(this) && unchanged(l)
      ensures c != [] && !old(InSync()) ==> r == Err(ConcurrentModification) && unchanged(this) && unchanged(l)
      ensures c != [] && old(InSync()) && !l.supportsAdd ==> r == Err(UnsupportedOperation) && unchanged(this) && unchanged(l)
      ensures c != [] && old(InSync()) && l.supportsAdd ==>
        r == Ok(true) && InSync() && Contents() == old(Contents()) + c
    {
      r := AddAllAt(size, c);
      if r.Ok? && c != [] {
        assert InsertAllAt(old(Contents()), old(size), c) == old(Contents()) + c;
      }
    }

    /**
     * `addAll(index, c)`: `rangeCheckForAdd`; false for an empty `c`; then
     * the comodification check, `l.addAll(offset + index, c)` and resync.
     */
    method AddAllAt(index: int, c: seq<Ref<T>>) returns (r: Result<bool>)
      requires Valid()
      modifies this, l
      ensures Valid()
      ensures !(0 <= index <= old(size)) ==> r == Err(IndexOutOfBounds) && unchanged(this) && unchanged(l)
      ensures 0 <= index <= old(size) && c == [] ==> r == Ok(false) && unchanged(this) && unchanged(l)
      ensures 0 <= index <= old(size) && c != [] && !old(InSync()) ==>
        r == Err(ConcurrentModification) && unchanged(this) && unchanged(l)
      ensures 0 <= index <= old(size) && c != [] && old(InSync()) && !l.supportsAdd ==>
        r == Err(UnsupportedOperation) && unchanged(this) && unchanged(l)
      ensures 0 <= index <= old(size) && c != [] && old(InSync()) && l.supportsAdd ==>
        && r == Ok(true) && InSync()
        && Contents() == InsertAllAt(old(Contents()), index, c)
        && l.elements == InsertAllAt(old(l.elements), offset + index, c)
    {
      if index < 0 || index > size {
        return Err(IndexOutOfBounds);
      }
      if |c| == 0 {
        return Ok(false);
      }
      if modCount != l.modCount {
        return Err(ConcurrentModification);
      }
      InsertAllAtWindow(l.elements, offset, size, index, c);
      var added := l.AddAll(offset + index, c);
      if added.Err? {
        return Err(added.error);
      }
      modCount := l.modCount;
      size := size + |c|;
      r := Ok(true);
    }
  }
}

=== FILE: abstract_map.dfy ===
/**
 * `AbstractMap`: the skeleton of a map built on one primitive a subclass
 * supplies, `entrySet()`. The model stands for the subclass by the entries its
 * entry-set iterator yields, in order; the query operations only read them.
 */
module AbstractMaps {
  import opened JavaLang
  import opened ListSpec

  /** A `Map.Entry`: a key and a value, either of which may be null. */
  datatype Entry<K, V> = Entry(key: Ref<K>, value: Ref<V>)

  /** The keys of the entries, in iteration order. */
  function Keys<K, V>(entries: seq<Entry<K, V>>): (r: seq<Ref<K>>)
    ensures |r| == |entries| && forall i :: 0 <= i < |entries| ==> r[i] == entries[i].key
  {
    if |entries| == 0 then [] else Keys(entries[..|entries| - 1]) + [entries[|entries| - 1].key]
  }

  /** The values of the entries, in iteration order. */
  function Values<K, V>(entries: seq<Entry<K, V>>): (r: seq<Ref<V>>)
    ensures |r| == |entries| && forall i :: 0 <= i < |entries| ==> r[i] == entries[i].value
  {
    if |entries| == 0 then [] else Values(entries[..|entries| - 1]) + [entries[|entries| - 1].value]
  }

  /** The set of keys the entries map. */
  ghost function KeySet<K, V>(entries: seq<Entry<K, V>>): set<Ref<K>>
  {
    if |entries| == 0 then {} else KeySet(entries[..|entries| - 1]) + {entries[|entries| - 1].key}
  }

  /** An entry set of a map: no key appears in two entries. */
  ghost predicate IsMap<K, V>(entries: seq<Entry<K, V>>)
  {
    forall i, j :: 0 <= i < j < |entries| ==> entries[i].key != entries[j].key
  }

  /** The entry set of a map has one entry per key, so `size()` counts the keys. */
  lemma {:induction false} SizeCountsKeys<K, V>(entries: seq<Entry<K, V>>)
    requires IsMap(entries)
    ensures |KeySet(entries)| == |entries|
  {
    if |entries| > 0 {
      var init := entries[..|entries| - 1];
      var last := entries[|entries| - 1];
      SizeCountsKeys(init);
      KeySetMembers(init, last.key);
      assert last.key !in KeySet(init);
    }
  }

  /** A key is in the key set exactly when some entry carries it. */
  lemma {:induction false} KeySetMembers<K, V>(entries: seq<Entry<K, V>>, k: Ref<K>)
    ensures k in KeySet(entries) <==> exists i :: 0 <= i < |entries| && entries[i].key == k
  {
    if |entries| > 0 {
      var init := entries[..|entries| - 1];
      KeySetMembers(init, k);
      if k in KeySet(init) {
        var i :| 0 <= i < |init| && init[i].key == k;
        assert entries[i].key == k;
      }
      if exists i :: 0 <= i < |entries| && entries[i].key == k {
        var i :| 0 <= i < |entries| && entries[i].key == k;
        if i < |init| {
          assert init[i].key == k;
        }
      }
    }
  }

  /** In the entry set of a map, the first entry with a key is its only one. */
  lemma FirstKeyIsTheKey<K, V>(entries: seq<Entry<K, V>>, i: nat)
    requires IsMap(entries) && i < |entries|
    ensures FirstIndex(Keys(entries), entries[i].key) == i
  {
    var keys := Keys(entries);
    assert keys[i] == entries[i].key;
    forall j | 0 <= j < i
      ensures keys[..i][j] != entries[i].key
    {
    }
    FirstIndexAt(keys, entries[i].key, i);
  }

  class AbstractMap<K(==), V(==)> {
    /** What `entrySet().iterator()` yields. */
    var entries: seq<Entry<K, V>>

    constructor (entries: seq<Entry<K, V>>)
      ensures this.entries == entries
    {
      this.entries := entries;
    }

    /** `size()` is `entrySet().size()`. */
    method Size() returns (n: nat)
      ensures n == |entries|
      ensures IsMap(entries) ==> n == |KeySet(entries)|
    {
      n := |entries|;
      if IsMap(entries) {
        SizeCountsKeys(entries);
      }
    }

    /** `isEmpty()` is `size() == 0`. */
    method IsEmpty() returns (b: bool)
      ensures b <==> KeySet(entries) == {}
    {
      var n := Size();
      b := n == 0;
      if !b {
        KeySetMembers(entries, entries[0].key);
      }
    }

    /** `containsValue(value)`: whether some entry's value equals `value` (null-aware). */
    method ContainsValue(value: Ref<V>) returns (b: bool)
      ensures b <==> value in Values(entries)
    {
      var i := 0;
      while i < |entries|
        invariant i <= |entries|
        invariant value !in Values(entries)[..i]
      {
        var e := entries[i];
        if e.value == value {
          assert Values(entries)[i] == value;
          return true;
        }
        i := i + 1;
        assert Values(entries)[..i] == Values(entries)[..i - 1] + [e.value];
      }
      assert Values(entries)[..i] == Values(entries);
      return false;
    }

    /** `containsKey(key)`: whether some entry's key equals `key` (null-aware). */
    method ContainsKey(key: Ref<K>) returns (b: bool)
      ensures b <==> key in Keys(entries)
    {
      var i := 0;
      while i < |entries|
        invariant i <= |entries|
        invariant key !in Keys(entries)[..i]
      {
        var e := entries[i];
        if e.key == key {
          assert Keys(entries)[i] == key;
          return true;
        }
        i := i + 1;
        assert Keys(entries)[..i] == Keys(entries)[..i - 1] + [e.key];
      }
      assert Keys(entries)[..i] == Keys(entries);
      return false;
    }

    /** `get(key)`: the value of the first entry whose key equals `key`, or null when there is none. */
    method Get(key: Ref<K>) returns (r: Ref<V>)
      ensures key !in Keys(entries) ==> r == Null
      ensures key in Keys(entries) ==> r == entries[FirstIndex(Keys(entries), key)].value
    {
      var i := 0;
      while i < |entries|
        invariant i <= |entries|
        invariant key !in Keys(entries)[..i]
      {
        var e := entries[i];
        if e.key == key {
          FirstIndexAt(Keys(entries), key, i);
          return e.value;
        }
        i := i + 1;
        assert Keys(entries)[..i] == Keys(entries)[..i - 1] + [e.key];
      }
      assert Keys(entries)[..i] == Keys(entries);
      return Null;
    }

    /** `put(key, value)`: the skeleton supports no insertions. */
    method Put(key: Ref<K>, value: Ref<V>) returns (r: Result<Ref<V>>)
      ensures r == Err(UnsupportedOperation)
    {
      r := Err(UnsupportedOperation);
    }
  }

  /** In a map, `get` finds the value of the one entry with the key asked for. */
  lemma GetFindsTheEntry<K, V>(entries: seq<Entry<K, V>>, i: nat)
    requires IsMap(entries) && i < |entries|
    ensures entries[i].key in Keys(entries)
    ensures entries[FirstIndex(Keys(entries), entries[i].key)].value == entries[i].value
  {
    FirstKeyIsTheKey(entries, i);
    assert Keys(entries)[i] == entries[i].key;
  }
}

=== FILE: array_list.dfy ===
/**
 * `ArrayList`: a list backed by an `Object[]` of some capacity, of which the
 * first `size` slots hold the elements. Insertions and removals shift the
 * array in place, the capacity grows by half when it runs out, and every
 * structural change bumps `modCount` so that iterators and sub-lists can fail
 * fast.
 */
module ArrayLists {
  import opened JavaLang
  import opened ListSpec

  const DEFAULT_CAPACITY: int := 10
  const MAX_ARRAY_SIZE: int := INT_MAX - 8

  /** `hugeCapacity(minCapacity)`: the capacity used once 1.5x growth passes `MAX_ARRAY_SIZE`. */
  function HugeCapacity(minCapacity: int32): (r: Result<int32>)
    ensures minCapacity < 0 <==> r == Err(OutOfMemory)
    ensures r.Ok? ==> r.value >= minCapacity && r.value >= MAX_ARRAY_SIZE
    ensures r.Ok? && r.value != MAX_ARRAY_SIZE ==> r.value == INT_MAX && minCapacity > MAX_ARRAY_SIZE
  {
    if minCapacity < 0 then Err(OutOfMemory)
    else if minCapacity > MAX_ARRAY_SIZE then Ok(INT_MAX)
    else Ok(MAX_ARRAY_SIZE)
  }

  /**
   * The capacity `grow(minCapacity)` hands to `Arrays.copyOf`, computed with
   * `int` arithmetic exactly as written; `Arrays.copyOf` refuses a negative one.
   */
  function GrowCapacity(oldCapacity: int32, minCapacity: int32): (r: Result<int32>)
    requires oldCapacity >= 0
    ensures r.Ok? ==> r.value >= 0
    ensures r.Err? ==> r.error == OutOfMemory || r.error == NegativeArraySize
  {
    var newCapacity := Wrap32(oldCapacity + oldCapacity / 2);
    var newCapacity := if Wrap32(newCapacity - minCapacity) < 0 then minCapacity else newCapacity;
    if Wrap32(newCapacity - MAX_ARRAY_SIZE) > 0 then HugeCapacity(minCapacity)
    else if newCapacity < 0 then Err(NegativeArraySize)
    else Ok(newCapacity)
  }

  /**
   * For a genuine request (`oldCapacity < minCapacity`), `grow` succeeds with
   * `max(minCapacity, 1.5 * oldCapacity)`, or with `hugeCapacity(minCapacity)`
   * when that passes `MAX_ARRAY_SIZE`.
   */
  lemma GrowCapacityCorrect(oldCapacity: int32, minCapacity: int32)
    requires 0 <= oldCapacity < minCapacity
    ensures GrowCapacity(oldCapacity, minCapacity).Ok?
    ensures GrowCapacity(oldCapacity, minCapacity).value >= minCapacity
    ensures var wanted := if oldCapacity + oldCapacity / 2 < minCapacity then minCapacity else oldCapacity + oldCapacity / 2;
      GrowCapacity(oldCapacity, minCapacity) ==
        if wanted <= MAX_ARRAY_SIZE then Ok(wanted) else HugeCapacity(minCapacity)
  {
  }

  /**
   * A request that overflowed `int` (`size + n` past `Integer.MAX_VALUE`,
   * wrapped negative) passes the `minCapacity - elementData.length > 0` test
   * and then makes `grow` fail.
   */
  lemma GrowCapacityOverflow(oldCapacity: int32, request: int)
    requires 0 <= oldCapacity && INT_MAX < request <= oldCapacity + INT_MAX
    ensures Wrap32(Wrap32(request) - oldCapacity) > 0
    ensures GrowCapacity(oldCapacity, Wrap32(request)).Err?
  {
  }

  /** `grow` is only reached with `minCapacity - elementData.length > 0`; then it never shrinks the array. */
  lemma GrowCapacityGrows(oldCapacity: int32, minCapacity: int32)
    requires 0 <= oldCapacity && Wrap32(minCapacity - oldCapacity) > 0
    ensures GrowCapacity(oldCapacity, minCapacity).Ok? ==>
      minCapacity > oldCapacity && GrowCapacity(oldCapacity, minCapacity).value >= minCapacity
  {
  }

  // ---------------------------------------------------------------------------
  // The shifts of the backing array, on sequences

  /** Shifting `[index, n)` up by `|xs|` and copying `xs` into the gap inserts `xs` at `index`. */
  lemma InsertShifted<T>(before: seq<T>, n: nat, index: nat, xs: seq<T>)
    requires index <= n && n + |xs| <= |before|
    ensures var after := Copied(Copied(before, before, index, index + |xs|, n - index), xs, 0, index, |xs|);
      && after[..n + |xs|] == InsertAllAt(before[..n], index, xs)
      && forall k :: n + |xs| <= k < |before| ==> after[k] == before[k]
  {
    var mid := Copied(before, before, index, index + |xs|, n - index);
    var after := Copied(mid, xs, 0, index, |xs|);
    assert forall k :: 0 <= k < index ==> after[k] == before[k];
    assert forall k :: index <= k < index + |xs| ==> after[k] == xs[k - index];
    assert forall k :: index + |xs| <= k < n + |xs| ==> after[k] == mid[k] == before[k - |xs|];
    InsertAllAtSlots(before, after, n, index, xs);
  }

  /** Shifting `[to, n)` down to `from` deletes `[from, to)`; the slots from `n` on keep their values. */
  lemma DeleteShifted<T>(before: seq<T>, n: nat, from: nat, to: nat)
    requires from <= to <= n <= |before|
    ensures var after := Copied(before, before, to, from, n - to);
      && after[..n - (to - from)] == DeleteRange(before[..n], from, to)
      && forall k :: n <= k < |before| ==> after[k] == before[k]
  {
    var after := Copied(before, before, to, from, n - to);
    assert forall k :: 0 <= k < from ==> after[k] == before[k];
    assert forall k :: from <= k < n - (to - from) ==> after[k] == before[k + (to - from)];
    DeleteRangeSlots(before, after, n, from, to);
  }

  /** Copying `xs` to position `n` appends it to the first `n` slots. */
  lemma AppendCopied<T>(before: seq<T>, n: nat, xs: seq<T>)
    requires n + |xs| <= |before|
    ensures var after := Copied(before, xs, 0, n, |xs|);
      && after[..n + |xs|] == before[..n] + xs
      && forall k :: n + |xs| <= k < |before| ==> after[k] == before[k]
  {
    assert xs[0..|xs|] == xs;
  }

  /** Storing one element is copying a one-element array. */
  lemma StoreIsCopied<T>(s: seq<T>, i: nat, x: T)
    requires i < |s|
    ensures s[i := x] == Copied(s, [x], 0, i, 1)
  {
  }

  /**
   * The survivors of one more step of `batchRemove`'s copy loop: `e`, read at
   * `r`, is written to `w` exactly when it passes the test.
   */
  lemma CompactStep<T>(orig: seq<T>, a: seq<T>, w: nat, r: nat, c: seq<T>, complement: bool)
    requires w <= r < |orig| == |a|
    requires a[..w] == Keep(orig[..r], c, complement) && a[r..] == orig[r..]
    ensures var keep := (orig[r] in c) == complement;
      var a' := if keep then a[w := orig[r]] else a;
      var w' := if keep then w + 1 else w;
      a'[..w'] == Keep(orig[..r + 1], c, complement) && a'[r + 1..] == orig[r + 1..]
  {
    var e := orig[r];
    assert a[r] == e;
    KeepSnoc(orig[..r], e, c, complement);
    assert orig[..r + 1] == orig[..r] + [e];
    if (e in c) == complement {
      assert a[w := e][..w + 1] == a[..w] + [e];
      assert a[w := e][r + 1..] == a[r + 1..];
    }
  }

  class ArrayList<T(==)> {
    var elementData: array<Ref<T>>
    var size: nat
    var modCount: int
    /** `elementData == DEFAULTCAPACITY_EMPTY_ELEMENTDATA`: created by the no-argument constructor and never grown. */
    var usesDefaultEmpty: bool

    ghost predicate Valid()
      reads this, elementData
    {
      && elementData.Length <= INT_MAX
      && size <= elementData.Length
      && (usesDefaultEmpty ==> elementData.Length == 0)
      && forall k :: size <= k < elementData.Length ==> elementData[k] == Null
    }

    /** The list's elements: `elementData[0..size)`. */
    ghost function Contents(): seq<Ref<T>>
      reads this, elementData
      requires Valid()
    {
      elementData[..size]
    }

    /** `new ArrayList()` */
    constructor ()
      ensures Valid() && Contents() == [] && usesDefaultEmpty && modCount == 0
    {
      elementData := new Ref<T>[0];
      size := 0;
      modCount := 0;
      usesDefaultEmpty := true;
    }

    /** `new ArrayList(initialCapacity)` for a capacity it accepts. */
    constructor WithCapacity(initialCapacity: nat)
      requires initialCapacity <= INT_MAX
      ensures Valid() && Contents() == [] && !usesDefaultEmpty && modCount == 0
      ensures elementData.Length == initialCapacity
    {
      elementData := new Ref<T>[initialCapacity](_ => Null);
      size := 0;
      modCount := 0;
      usesDefaultEmpty := false;
    }

    /** `new ArrayList(c)`, where `items` is what `c.toArray()` returns. */
    constructor FromCollection(items: seq<Ref<T>>)
      requires |items| <= INT_MAX
      ensures Valid() && Contents() == items && !usesDefaultEmpty && modCount == 0
      ensures elementData.Length == |items| && size == |items|
    {
      elementData := new Ref<T>[|items|](i requires 0 <= i < |items| => items[i]);
      size := |items|;
      modCount := 0;
      usesDefaultEmpty := false;
      new;
      assert elementData[..size] == items;
    }

    /** `new ArrayList(initialCapacity)`, which refuses a negative capacity. */
    static method Create(initialCapacity: int32) returns (r: Result<ArrayList<T>>)
      ensures initialCapacity < 0 <==> r == Err(IllegalArgument)
      ensures r.Ok? ==> fresh(r.value) && r.value.Valid() && r.value.Contents() == []
      ensures r.Ok? ==> r.value.elementData.Length == initialCapacity && r.value.modCount == 0
    {
      if initialCapacity >= 0 {
        var list := new ArrayList<T>.WithCapacity(initialCapacity);
        r := Ok(list);
      } else {
        r := Err(IllegalArgument);
      }
    }

    /** `size()` */
    method Size() returns (n: nat)
      requires Valid()
      ensures n == |Contents()|
    {
      n := size;
    }

    /** `isEmpty()` */
    method IsEmpty() returns (b: bool)
      requires Valid()
      ensures b <==> Contents() == []
    {
      b := size == 0;
    }

    /** `trimToSize()`: the capacity shrinks to the size; the elements stay. */
    method TrimToSize()
      requires Valid()
      modifies this
      ensures elementData == old(elementData) || fresh(elementData)
      ensures Valid() && Contents() == old(Contents()) && modCount == old(modCount) + 1
      ensures elementData.Length == size
    {
      modCount := modCount + 1;
      if size < elementData.Length {
        if size == 0 {
          elementData := new Ref<T>[0];
        } else {
          elementData := CopyOf(elementData, size);
        }
        usesDefaultEmpty := false;
      }
    }

    /** `grow(minCapacity)`: a copy of the array with the capacity `GrowCapacity` picks. */
    method Grow(minCapacity: int32) returns (o: Outcome)
      requires Valid() && Wrap32(minCapacity - elementData.Length) > 0
      modifies this
      ensures elementData == old(elementData) || fresh(elementData)
      ensures Valid() && Contents() == old(Contents()) && modCount == old(modCount)
      ensures GrowCapacity(old(elementData.Length), minCapacity).Err? <==> o.Fail?
      ensures o.Fail? ==> o.error == GrowCapacity(old(elementData.Length), minCapacity).error
      ensures o.Fail? ==> elementData == old(elementData) && usesDefaultEmpty == old(usesDefaultEmpty)
      ensures o.Pass? ==> elementData.Length == GrowCapacity(old(elementData.Length), minCapacity).value
      ensures o.Pass? ==> elementData.Length >= minCapacity && !usesDefaultEmpty
    {
      var newCapacity := GrowCapacity(elementData.Length, minCapacity);
      GrowCapacityGrows(elementData.Length, minCapacity);
      if newCapacity.Err? {
        return Fail(newCapacity.error);
      }
      elementData := CopyOf(elementData, newCapacity.value);
      usesDefaultEmpty := false;
      o := Pass;
    }

    /** `ensureExplicitCapacity(minCapacity)`: counts as a modification, grows when needed. */
    method EnsureExplicitCapacity(minCapacity: int32) returns (o: Outcome)
      requires Valid()
      modifies this
      ensures elementData == old(elementData) || fresh(elementData)
      ensures Valid() && Contents() == old(Contents()) && modCount == old(modCount) + 1
      ensures Wrap32(minCapacity - old(elementData.Length)) <= 0 ==>
        o.Pass? && elementData == old(elementData) && usesDefaultEmpty == old(usesDefaultEmpty)
      ensures Wrap32(minCapacity - old(elementData.Length)) > 0 ==>
        (o.Pass? <==> GrowCapacity(old(elementData.Length), minCapacity).Ok?)
      ensures o.Pass? ==> elementData.Length >= minCapacity
      ensures o.Fail? ==> elementData == old(elementData)
      ensures o.Fail? ==> o.error == OutOfMemory || o.error == NegativeArraySize
    {
      modCount := modCount + 1;
      if Wrap32(minCapacity - elementData.Length) > 0 {
        o := Grow(minCapacity);
      } else {
        o := Pass;
      }
    }

    /**
     * `ensureCapacityInternal(size + n)` for the exact sum `request`, which the
     * source computes in `int`: it succeeds, leaving room for `request`
     * elements, exactly when the sum does not overflow.
     */
    method EnsureCapacityInternal(request: nat) returns (o: Outcome)
      requires Valid() && request <= size + INT_MAX
      modifies this
      ensures elementData == old(elementData) || fresh(elementData)
      ensures Valid() && Contents() == old(Contents()) && modCount == old(modCount) + 1
      ensures o.Pass? <==> request <= INT_MAX
      ensures o.Pass? ==> elementData.Length >= request
      ensures o.Pass? && old(usesDefaultEmpty) ==> elementData.Length >= DEFAULT_CAPACITY
      ensures o.Fail? ==> o.error == OutOfMemory || o.error == NegativeArraySize
    {
      var minCapacity := Wrap32(request);
      if usesDefaultEmpty {
        minCapacity := if DEFAULT_CAPACITY < minCapacity then minCapacity else DEFAULT_CAPACITY;
      }
      if request > INT_MAX {
        GrowCapacityOverflow(elementData.Length, request);
      } else if minCapacity > elementData.Length {
        GrowCapacityCorrect(elementData.Length, minCapacity);
      }
      o := EnsureExplicitCapacity(minCapacity);
    }

    /** `ensureCapacity(minCapacity)`: a no-op up to `DEFAULT_CAPACITY` on a list still using the shared empty array. */
    method EnsureCapacity(minCapacity: int32)
      requires Valid()
      modifies this
      ensures elementData == old(elementData) || fresh(elementData)
      ensures Valid() && Contents() == old(Contents())
      ensures var minExpand := if old(usesDefaultEmpty) then DEFAULT_CAPACITY else 0;
        if minCapacity > minExpand then modCount == old(modCount) + 1 && elementData.Length >= minCapacity
        else modCount == old(modCount) && elementData == old(elementData)
    {
      var minExpand := if usesDefaultEmpty then DEFAULT_CAPACITY else 0;
      if minCapacity > minExpand {
        if minCapacity > elementData.Length {
          GrowCapacityCorrect(elementData.Length, minCapacity);
        }
        var o := EnsureExplicitCapacity(minCapacity);
      }
    }

    /** `indexOf(o)`: the first position holding `o`, or -1. */
    method IndexOf(o: Ref<T>) returns (r: int)
      requires Valid()
      ensures r == FirstIndex(Contents(), o)
    {
      var i := 0;
      while i < size
        invariant 0 <= i <= size
        invariant o !in Contents()[..i]
      {
        if elementData[i] == o {
          assert Contents()[..i + 1] == Contents()[..i] + [o];
          return i;
        }
        assert Contents()[..i + 1] == Contents()[..i] + [elementData[i]];
        i := i + 1;
      }
      assert Contents()[..i] == Contents();
      return -1;
    }

    /** `lastIndexOf(o)`: the last position holding `o`, or -1. */
    method LastIndexOf(o: Ref<T>) returns (r: int)
      requires Valid()
      ensures r == LastIndex(Contents(), o)
    {
      var i := size as int - 1;
      while i >= 0
        invariant -1 <= i < size
        invariant o !in Contents()[i + 1..]
      {
        if elementData[i] == o {
          assert Contents()[i + 1..] == Contents()[i + 1..];
          LastIndexAt(Contents(), o, i);
          return i;
        }
        assert Contents()[i..] == [elementData[i]] + Contents()[i + 1..];
        i := i - 1;
      }
      return -1;
    }

    /** `contains(o)` is `indexOf(o) >= 0`. */
    method Contains(o: Ref<T>) returns (b: bool)
      requires Valid()
      ensures b <==> o in Contents()
    {
      var i := IndexOf(o);
      b := i >= 0;
    }

    /** `toArray()`: a fresh array of exactly the elements. */
    method ToArray() returns (a: array<Ref<T>>)
      requires Valid()
      ensures fresh(a) && a[..] == Contents()
    {
      a := CopyOf(elementData, size);
      assert a[..] == Contents();
    }

    /** `get(index)`: `rangeCheck` refuses `index >= size`; a negative index fails on the array access. */
    method Get(index: int32) returns (r: Result<Ref<T>>)
      requires Valid()
      ensures index >= |Contents()| ==> r == Err(IndexOutOfBounds)
      ensures index < 0 ==> r == Err(ArrayIndexOutOfBounds)
      ensures 0 <= index < |Contents()| ==> r == Ok(Contents()[index])
    {
      if index >= size {
        return Err(IndexOutOfBounds);
      }
      if index < 0 {
        return Err(ArrayIndexOutOfBounds);
      }
      r := Ok(elementData[index]);
    }

    /** `set(index, element)`: replaces one element and returns the old one; not a structural change. */
    method Set(index: int32, element: Ref<T>) returns (r: Result<Ref<T>>)
      requires Valid()
      modifies elementData
      ensures Valid() && modCount == old(modCount)
      ensures index >= size ==> r == Err(IndexOutOfBounds)
      ensures index < 0 ==> r == Err(ArrayIndexOutOfBounds)
      ensures r.Err? ==> Contents() == old(Contents())
      ensures 0 <= index < size ==>
        r == Ok(old(Contents())[index]) && Contents() == old(Contents())[index := element]
    {
      if index >= size {
        return Err(IndexOutOfBounds);
      }
      if index < 0 {
        return Err(ArrayIndexOutOfBounds);
      }
      var oldValue := elementData[index];
      elementData[index] := element;
      r := Ok(oldValue);
    }

    /** `add(e)`: appends; fails only when `size + 1` overflows `int`. */
    method Add(e: Ref<T>) returns (o: Outcome)
      requires Valid()
      modifies this, elementData
      ensures Valid() && modCount == old(modCount) + 1
      ensures o.Pass? <==> old(size) < INT_MAX
      ensures o.Pass? ==> Contents() == old(Contents()) + [e]
      ensures o.Fail? ==> Contents() == old(Contents())
    {
      o := EnsureCapacityInternal(size + 1);
      if o.Fail? {
        return;
      }
      elementData[size] := e;
      size := size + 1;
      assert Contents() == old(Contents()) + [e];
    }

    /** `add(index, element)`: shifts `[index, size)` up by one and stores `element` at `index`. */
    method AddAt(index: int32, element: Ref<T>) returns (o: Outcome)
      requires Valid()
      modifies this, elementData
      ensures Valid()
      ensures index < 0 || index > old(size) ==>
        o == Fail(IndexOutOfBounds) && Contents() == old(Contents()) && modCount == old(modCount)
      ensures 0 <= index <= old(size) ==> modCount == old(modCount) + 1
      ensures 0 <= index <= old(size) ==> (o.Pass? <==> old(size) < INT_MAX)
      ensures o.Pass? ==> 0 <= index <= old(size) && Contents() == InsertAt(old(Contents()), index, element)
      ensures o.Fail? ==> Contents() == old(Contents())
    {
      if index > size || index < 0 {
        return Fail(IndexOutOfBounds);
      }
      o := EnsureCapacityInternal(size + 1);
      if o.Fail? {
        return;
      }
      InsertOne(index, element);
      size := size + 1;
    }

    /** The array work of `add(index, element)`: `[index, size)` moves up by one and `element` goes into the gap. */
    method InsertOne(index: nat, element: Ref<T>)
      requires Valid() && index <= size < elementData.Length
      modifies elementData
      ensures elementData[..size + 1] == InsertAt(old(elementData[..size]), index, element)
      ensures forall k :: size + 1 <= k < elementData.Length ==> elementData[k] == Null
    {
      ghost var before := elementData[..];
      ArrayCopy(elementData, index, elementData, index + 1, size - index);
      ghost var mid := elementData[..];
      Store(elementData, index, element);
      StoreIsCopied(mid, index, element);
      InsertShifted(before, size, index, [element]);
      InsertAtIsInsertAll(before[..size], index, element);
    }

    /**
     * `remove(index)`: returns the element and closes the gap, nulling the
     * vacated slot. The `modCount` bump precedes the array access, so a
     * negative index still counts as a modification.
     */
    method RemoveAt(index: int32) returns (r: Result<Ref<T>>)
      requires Valid()
      modifies this, elementData
      ensures Valid() && elementData == old(elementData)
      ensures index >= old(size) ==> r == Err(IndexOutOfBounds) && modCount == old(modCount)
      ensures index < old(size) ==> modCount == old(modCount) + 1
      ensures index < 0 ==> r == Err(ArrayIndexOutOfBounds)
      ensures r.Err? ==> Contents() == old(Contents())
      ensures 0 <= index < old(size) ==>
        r == Ok(old(Contents())[index]) && Contents() == DeleteAt(old(Contents()), index)
    {
      if index >= size {
        return Err(IndexOutOfBounds);
      }
      modCount := modCount + 1;
      if index < 0 {
        return Err(ArrayIndexOutOfBounds);
      }
      var oldValue := elementData[index];
      CloseGap(index);
      r := Ok(oldValue);
    }

    /** `fastRemove(index)`: `remove(index)` without the checks and the return value. */
    method FastRemove(index: nat)
      requires Valid() && index < size
      modifies this, elementData
      ensures Valid() && elementData == old(elementData) && usesDefaultEmpty == old(usesDefaultEmpty)
      ensures Contents() == DeleteAt(old(Contents()), index)
      ensures modCount == old(modCount) + 1
    {
      modCount := modCount + 1;
      CloseGap(index);
    }

    /** The shift both removals share: `[index + 1, size)` moves down by one and the freed last slot is nulled. */
    method CloseGap(index: nat)
      requires Valid() && index < size
      modifies this, elementData
      ensures Valid() && elementData == old(elementData) && usesDefaultEmpty == old(usesDefaultEmpty)
      ensures Contents() == DeleteAt(old(Contents()), index)
      ensures modCount == old(modCount)
    {
      ghost var before := elementData[..];
      var numMoved := size - index - 1;
      if numMoved > 0 {
        ArrayCopy(elementData, index + 1, elementData, index, numMoved);
      } else {
        assert Copied(before, before, index + 1, index, 0) == before;
      }
      DeleteShifted(before, size, index, index + 1);
      DeleteAtIsRange(before[..size], index);
      size := size - 1;
      ghost var shifted := elementData[..];
      Store(elementData, size, Null);
      assert elementData[..size] == shifted[..size];
    }

    /** `remove(o)`: removes the first occurrence of `o`, if any, and says whether there was one. */
    method Remove(o: Ref<T>) returns (found: bool)
      requires Valid()
      modifies this, elementData
      ensures Valid()
      ensures found <==> o in old(Contents())
      ensures Contents() == RemoveFirst(old(Contents()), o)
      ensures modCount == old(modCount) + (if found then 1 else 0)
    {
      var index := 0;
      while index < size
        invariant 0 <= index <= size
        invariant o !in Contents()[..index]
      {
        if elementData[index] == o {
          assert Contents()[..index + 1] == Contents()[..index] + [o];
          FirstIndexAt(Contents(), o, index);
          FastRemove(index);
          return true;
        }
        assert Contents()[..index + 1] == Contents()[..index] + [elementData[index]];
        index := index + 1;
      }
      assert Contents()[..index] == Contents();
      return false;
    }

    /** `clear()`: nulls every element slot; the capacity stays. */
    method Clear()
      requires Valid()
      modifies this, elementData
      ensures Valid() && Contents() == [] && modCount == old(modCount) + 1
      ensures elementData == old(elementData)
      ensures forall k :: 0 <= k < elementData.Length ==> elementData[k] == Null
    {
      modCount := modCount + 1;
      NullOut(0, size);
      size := 0;
    }

    /** The loop the removals end with: slots `[from, to)` become `null`, the others keep their value. */
    method NullOut(from: nat, to: nat)
      requires from <= to <= elementData.Length
      modifies elementData
      ensures forall k :: 0 <= k < elementData.Length ==>
        elementData[k] == if from <= k < to then Null else old(elementData[k])
      ensures elementData[..from] == old(elementData[..from])
    {
      var i := from;
      while i < to
        invariant from <= i <= to
        invariant forall k :: 0 <= k < elementData.Length ==>
          elementData[k] == if from <= k < i then Null else old(elementData[k])
      {
        elementData[i] := Null;
        i := i + 1;
      }
    }

    /** `addAll(c)`: appends `c.toArray()`; returns whether it was non-empty. */
    method AddAll(items: seq<Ref<T>>) returns (r: Result<bool>)
      requires Valid() && |items| <= INT_MAX
      modifies this, elementData
      ensures Valid() && modCount == old(modCount) + 1
      ensures r.Ok? <==> old(size) + |items| <= INT_MAX
      ensures r.Ok? ==> r.value == (|items| != 0) && Contents() == old(Contents()) + items
      ensures r.Err? ==> Contents() == old(Contents())
    {
      var a := new Ref<T>[|items|](i requires 0 <= i < |items| => items[i]);
      var numNew := a.Length;
      var o := EnsureCapacityInternal(size + numNew);
      if o.Fail? {
        return Err(o.error);
      }
      assert a[..] == items;
      AppendArray(a);
      size := size + numNew;
      r := Ok(numNew != 0);
    }

    /** The copy of `addAll(c)`: `a` goes into the slots from `size` on. */
    method AppendArray(a: array<Ref<T>>)
      requires Valid() && size + a.Length <= elementData.Length && a != elementData
      modifies elementData
      ensures elementData[..size + a.Length] == old(elementData[..size]) + a[..]
      ensures forall k :: size + a.Length <= k < elementData.Length ==> elementData[k] == Null
    {
      ghost var before := elementData[..];
      ArrayCopy(a, 0, elementData, size, a.Length);
      AppendCopied(before, size, a[..]);
    }

    /** `addAll(index, c)`: inserts `c.toArray()` before `index`, after checking `0 <= index <= size`. */
    method AddAllAt(index: int32, items: seq<Ref<T>>) returns (r: Result<bool>)
      requires Valid() && |items| <= INT_MAX
      modifies this, elementData
      ensures Valid()
      ensures index < 0 || index > old(size) ==>
        r == Err(IndexOutOfBounds) && Contents() == old(Contents()) && modCount == old(modCount)
      ensures 0 <= index <= old(size) ==> modCount == old(modCount) + 1
      ensures 0 <= index <= old(size) ==> (r.Ok? <==> old(size) + |items| <= INT_MAX)
      ensures r.Ok? ==> 0 <= index <= old(size) && r.value == (|items| != 0)
      ensures r.Ok? ==> Contents() == InsertAllAt(old(Contents()), index, items)
      ensures r.Err? ==> Contents() == old(Contents())
    {
      if index > size || index < 0 {
        return Err(IndexOutOfBounds);
      }
      var a := new Ref<T>[|items|](i requires 0 <= i < |items| => items[i]);
      var numNew := a.Length;
      var o := EnsureCapacityInternal(size + numNew);
      if o.Fail? {
        return Err(o.error);
      }
      assert a[..] == items;
      InsertArray(index, a);
      size := size + numNew;
      r := Ok(numNew != 0);
    }

    /**
     * The shifting part of `addAll(index, c)`: `[index, size)` moves up by
     * `a.Length` and `a` is copied into the gap.
     */
    method InsertArray(index: nat, a: array<Ref<T>>)
      requires Valid() && index <= size && size + a.Length <= elementData.Length && a != elementData
      modifies elementData
      ensures elementData[..size + a.Length] == InsertAllAt(old(elementData[..size]), index, a[..])
      ensures forall k :: size + a.Length <= k < elementData.Length ==> elementData[k] == Null
    {
      var numNew := a.Length;
      ghost var before := elementData[..];
      OpenGap(index, numNew);
      ArrayCopy(a, 0, elementData, index, numNew);
      InsertShifted(before, size, index, a[..]);
    }

    /** The shift of `addAll(index, c)`: `[index, size)` moves up by `numNew`, when there is anything to move. */
    method OpenGap(index: nat, numNew: nat)
      requires index <= size && size + numNew <= elementData.Length
      modifies elementData
      ensures elementData[..] == Copied(old(elementData[..]), old(elementData[..]), index, index + numNew, size - index)
    {
      var numMoved := size - index;
      if numMoved > 0 {
        ArrayCopy(elementData, index, elementData, index + numNew, numMoved);
      } else {
        assert Copied(elementData[..], elementData[..], index, index + numNew, 0) == elementData[..];
      }
    }

    /**
     * `removeRange(fromIndex, toIndex)`: closes the gap `[fromIndex, toIndex)`
     * and nulls the vacated tail. The source checks nothing; callers pass a
     * valid range.
     */
    method RemoveRange(fromIndex: nat, toIndex: nat)
      requires Valid() && fromIndex <= toIndex <= size
      modifies this, elementData
      ensures Valid() && elementData == old(elementData) && usesDefaultEmpty == old(usesDefaultEmpty)
      ensures Contents() == DeleteRange(old(Contents()), fromIndex, toIndex)
      ensures modCount == old(modCount) + 1
    {
      modCount := modCount + 1;
      ShiftDown(fromIndex, toIndex);
      size := size - (toIndex - fromIndex);
    }

    /** The array work of `removeRange`: `[toIndex, size)` moves down to `fromIndex` and the freed tail is nulled. */
    method ShiftDown(fromIndex: nat, toIndex: nat)
      requires Valid() && fromIndex <= toIndex <= size
      modifies elementData
      ensures elementData[..size - (toIndex - fromIndex)] == DeleteRange(old(elementData[..size]), fromIndex, toIndex)
      ensures forall k :: size - (toIndex - fromIndex) <= k < elementData.Length ==> elementData[k] == Null
    {
      ghost var before := elementData[..];
      var numMoved := size - toIndex;
      ArrayCopy(elementData, toIndex, elementData, fromIndex, numMoved);
      var newSize := size - (toIndex - fromIndex);
      DeleteShifted(before, size, fromIndex, toIndex);
      NullOut(newSize, size);
    }

    /** `removeAll(c)`: drops every element `c` contains; `c` must not be null. */
    method RemoveAll(c: Ref<seq<Ref<T>>>) returns (r: Result<bool>)
      requires Valid()
      modifies this, elementData
      ensures Valid()
      ensures c.Null? ==> r == Err(NullPointer) && Contents() == old(Contents()) && modCount == old(modCount)
      ensures c.Obj? ==> r.Ok? && Contents() == Keep(old(Contents()), c.target, false)
      ensures r.Ok? ==> (r.value <==> |Contents()| < |old(Contents())|)
      ensures modCount == old(modCount) + (old(size) - size)
    {
      if c.Null? {
        return Err(NullPointer);
      }
      var modified := BatchRemove(c.target, false);
      r := Ok(modified);
    }

    /** `retainAll(c)`: keeps only the elements `c` contains; `c` must not be null. */
    method RetainAll(c: Ref<seq<Ref<T>>>) returns (r: Result<bool>)
      requires Valid()
      modifies this, elementData
      ensures Valid()
      ensures c.Null? ==> r == Err(NullPointer) && Contents() == old(Contents()) && modCount == old(modCount)
      ensures c.Obj? ==> r.Ok? && Contents() == Keep(old(Contents()), c.target, true)
      ensures r.Ok? ==> (r.value <==> |Contents()| < |old(Contents())|)
      ensures modCount == old(modCount) + (old(size) - size)
    {
      if c.Null? {
        return Err(NullPointer);
      }
      var modified := BatchRemove(c.target, true);
      r := Ok(modified);
    }

    /** `iterator()` */
    method Iterator() returns (it: Itr<T>)
      requires Valid()
      ensures fresh(it) && it.Valid() && it.list == this && !it.isListIterator
      ensures it.cursor == 0 && it.lastRet == -1 && it.expectedModCount == modCount
    {
      it := new Itr(this);
    }

    /** `listIterator(index)`: refuses an index outside `[0, size]`. */
    method ListIterator(index: int32) returns (r: Result<Itr<T>>)
      requires Valid()
      ensures index < 0 || index > size <==> r == Err(IndexOutOfBounds)
      ensures 0 <= index <= size <==> r.Ok?
      ensures r.Ok? ==> fresh(r.value) && r.value.Valid() && r.value.list == this && r.value.isListIterator
      ensures r.Ok? ==> r.value.cursor == index && r.value.lastRet == -1 && r.value.expectedModCount == modCount
    {
      if index < 0 || index > size {
        return Err(IndexOutOfBounds);
      }
      var it := new Itr.ListItr(this, index);
      r := Ok(it);
    }

    /**
     * `subList(fromIndex, toIndex)`: a view of `[fromIndex, toIndex)`. The
     * checks come in the order `fromIndex < 0`, `toIndex > size`,
     * `fromIndex > toIndex`.
     */
    method SubList(fromIndex: int32, toIndex: int32) returns (r: Result<SubList<T>>)
      requires Valid()
      ensures fromIndex < 0 || toIndex > size ==> r == Err(IndexOutOfBounds)
      ensures 0 <= fromIndex && toIndex <= size && fromIndex > toIndex ==> r == Err(IllegalArgument)
      ensures 0 <= fromIndex <= toIndex <= size ==> r.Ok?
      ensures r.Ok? ==> fresh(r.value) && r.value.Valid() && r.value.InSync() && r.value.root == this
      ensures r.Ok? ==> r.value.offset == fromIndex && r.value.Contents() == Contents()[fromIndex..toIndex]
    {
      if fromIndex < 0 || toIndex > size {
        return Err(IndexOutOfBounds);
      }
      if fromIndex > toIndex {
        return Err(IllegalArgument);
      }
      var sub := new SubList(this, fromIndex, toIndex);
      r := Ok(sub);
    }

    /**
     * `batchRemove(c, complement)`: compacts, in place and in order, the
     * elements whose `c.contains` equals `complement`, nulls the rest of the
     * old range and adds the number removed to `modCount`.
     */
    method BatchRemove(c: seq<Ref<T>>, complement: bool) returns (modified: bool)
      requires Valid()
      modifies this, elementData
      ensures Valid() && elementData == old(elementData)
      ensures Contents() == Keep(old(Contents()), c, complement)
      ensures modified <==> size < old(size)
      ensures modCount == old(modCount) + (old(size) - size)
    {
      var w := Compact(c, complement);
      modified := false;
      if w != size {
        NullOut(w, size);
        modCount := modCount + (size - w);
        size := w;
        modified := true;
      }
    }

    /** The copying loop of `batchRemove`: survivors move down to `[0, w)`. */
    method Compact(c: seq<Ref<T>>, complement: bool) returns (w: nat)
      requires Valid()
      modifies elementData
      ensures w <= size
      ensures elementData[..w] == Keep(old(Contents()), c, complement)
      ensures forall k :: size <= k < elementData.Length ==> elementData[k] == Null
    {
      ghost var orig := elementData[..];
      var r := 0;
      w := 0;
      while r < size
        invariant 0 <= w <= r <= size
        invariant elementData[..w] == Keep(orig[..r], c, complement)
        invariant elementData[r..] == orig[r..]
      {
        var e := elementData[r];
        CompactStep(orig, elementData[..], w, r, c, complement);
        if (e in c) == complement {
          Store(elementData, w, e);
          w := w + 1;
        }
        r := r + 1;
      }
      assert orig[..size] == old(Contents());
      assert forall k :: size <= k < elementData.Length ==> elementData[k] == elementData[r..][k - r];
    }
  }

  /**
   * `ArrayList.Itr`, and with `isListIterator` its subclass `ListItr`: a
   * cursor over the list that fails fast once the list has been structurally
   * changed by anything but the iterator itself.
   */
  class Itr<T(==)> {
    const list: ArrayList<T>
    /** Created by `listIterator`, so the `ListItr` operations are available. */
    const isListIterator: bool
    var cursor: nat
    var lastRet: int
    var expectedModCount: int

    /**
     * While the list's `modCount` matches, the cursor and the last returned
     * index lie within the list; the list's own structural changes only ever
     * raise its `modCount`.
     */
    ghost predicate Valid()
      reads this, list, list.elementData
    {
      && list.Valid()
      && -1 <= lastRet
      && expectedModCount <= list.modCount
      && (InSync() ==> cursor <= list.size && lastRet < list.size)
    }

    ghost predicate InSync()
      reads this, list
    {
      expectedModCount == list.modCount
    }

    /** `new Itr()` */
    constructor (list: ArrayList<T>)
      requires list.Valid()
      ensures Valid() && InSync() && this.list == list && !isListIterator
      ensures cursor == 0 && lastRet == -1
    {
      this.list := list;
      isListIterator := false;
      cursor := 0;
      lastRet := -1;
      expectedModCount := list.modCount;
    }

    /** `new ListItr(index)` */
    constructor ListItr(list: ArrayList<T>, index: nat)
      requires list.Valid() && index <= list.size
      ensures Valid() && InSync() && this.list == list && isListIterator
      ensures cursor == index && lastRet == -1
    {
      this.list := list;
      isListIterator := true;
      cursor := index;
      lastRet := -1;
      expectedModCount := list.modCount;
    }

    /** `hasNext()` */
    method HasNext() returns (b: bool)
      requires Valid()
      ensures b <==> cursor != list.size
    {
      b := cursor != list.size;
    }

    /** `next()`: the element at the cursor, which moves one step on. */
    method Next() returns (r: Result<Ref<T>>)
      requires Valid()
      modifies this
      ensures Valid()
      ensures !old(InSync()) ==> r == Err(ConcurrentModification) && unchanged(this)
      ensures old(InSync()) && old(cursor) >= list.size ==> r == Err(NoSuchElement) && unchanged(this)
      ensures old(InSync()) && old(cursor) < list.size ==>
        r == Ok(list.Contents()[old(cursor)]) && cursor == old(cursor) + 1 && lastRet == old(cursor)
      ensures expectedModCount == old(expectedModCount)
    {
      if list.modCount != expectedModCount {
        return Err(ConcurrentModification);
      }
      var i := cursor;
      if i >= list.size {
        return Err(NoSuchElement);
      }
      cursor := i + 1;
      lastRet := i;
      r := Ok(list.elementData[i]);
    }

    /** `remove()`: removes the last returned element and resynchronises with the list. */
    method Remove() returns (o: Outcome)
      requires Valid()
      modifies this, list, list.elementData
      ensures Valid() && list.elementData == old(list.elementData)
      ensures old(lastRet) < 0 ==>
        o == Fail(IllegalState) && unchanged(this) && unchanged(list) && list.Contents() == old(list.Contents())
      ensures old(lastRet) >= 0 && !old(InSync()) ==>
        o == Fail(ConcurrentModification) && unchanged(this) && unchanged(list) && list.Contents() == old(list.Contents())
      ensures old(lastRet) >= 0 && old(InSync()) ==>
        && o == Pass
        && list.Contents() == DeleteAt(old(list.Contents()), old(lastRet))
        && list.modCount == old(list.modCount) + 1
        && cursor == old(lastRet) && lastRet == -1 && InSync()
    {
      if lastRet < 0 {
        return Fail(IllegalState);
      }
      if list.modCount != expectedModCount {
        return Fail(ConcurrentModification);
      }
      var r := list.RemoveAt(lastRet);
      cursor := lastRet;
      lastRet := -1;
      expectedModCount := list.modCount;
      o := Pass;
    }

    /** `hasPrevious()` */
    method HasPrevious() returns (b: bool)
      requires Valid() && isListIterator
      ensures b <==> cursor != 0
    {
      b := cursor != 0;
    }

    /** `nextIndex()` */
    method NextIndex() returns (i: int)
      requires Valid() && isListIterator
      ensures i == cursor
    {
      i := cursor;
    }

    /** `previousIndex()` */
    method PreviousIndex() returns (i: int)
      requires Valid() && isListIterator
      ensures i == cursor - 1
    {
      i := cursor - 1;
    }

    /**
     * `ListItr.privious()` as written: the cursor steps back, but the element
     * returned is the one before the last returned (`elementData[lastRet - 1]`)
     * and `lastRet` is left as it was, so a following `set` or `remove` acts on
     * the old position.
     */
    method Privious() returns (r: Result<Ref<T>>)
      requires Valid() && isListIterator
      modifies this
      ensures Valid() && lastRet == old(lastRet) && expectedModCount == old(expectedModCount)
      ensures !old(InSync()) ==> r == Err(ConcurrentModification) && unchanged(this)
      ensures old(InSync()) && old(cursor) == 0 ==> r == Err(NoSuchElement) && unchanged(this)
      ensures old(InSync()) && old(cursor) > 0 ==> cursor == old(cursor) - 1
      ensures old(InSync()) && old(cursor) > 0 && lastRet <= 0 ==> r == Err(ArrayIndexOutOfBounds)
      ensures old(InSync()) && old(cursor) > 0 && lastRet > 0 ==> r == Ok(list.Contents()[lastRet - 1])
    {
      if list.modCount != expectedModCount {
        return Err(ConcurrentModification);
      }
      var i := cursor as int - 1;
      if i < 0 {
        return Err(NoSuchElement);
      }
      cursor := i;
      if lastRet - 1 < 0 {
        return Err(ArrayIndexOutOfBounds);
      }
      r := Ok(list.elementData[lastRet - 1]);
    }

    /**
     * `previous()` as the `ListIterator` contract means it: the element before
     * the cursor, which becomes both the cursor and the last returned index.
     */
    method Previous() returns (r: Result<Ref<T>>)
      requires Valid() && isListIterator
      modifies this
      ensures Valid() && expectedModCount == old(expectedModCount)
      ensures !old(InSync()) ==> r == Err(ConcurrentModification) && unchanged(this)
      ensures old(InSync()) && old(cursor) == 0 ==> r == Err(NoSuchElement) && unchanged(this)
      ensures old(InSync()) && old(cursor) > 0 ==>
        r == Ok(list.Contents()[old(cursor) - 1]) && cursor == old(cursor) - 1 && lastRet == cursor
    {
      if list.modCount != expectedModCount {
        return Err(ConcurrentModification);
      }
      var i := cursor as int - 1;
      if i < 0 {
        return Err(NoSuchElement);
      }
      cursor := i;
      lastRet := i;
      r := Ok(list.elementData[i]);
    }

    /** `ListItr.set(e)`: replaces the last returned element. */
    method Set(e: Ref<T>) returns (o: Outcome)
      requires Valid() && isListIterator
      modifies list.elementData
      ensures Valid() && list.modCount == old(list.modCount)
      ensures old(lastRet) < 0 ==> o == Fail(IllegalState) && list.Contents() == old(list.Contents())
      ensures old(lastRet) >= 0 && !InSync() ==> o == Fail(ConcurrentModification) && list.Contents() == old(list.Contents())
      ensures old(lastRet) >= 0 && InSync() ==> o == Pass && list.Contents() == old(list.Contents())[lastRet := e]
    {
      if lastRet < 0 {
        return Fail(IllegalState);
      }
      if list.modCount != expectedModCount {
        return Fail(ConcurrentModification);
      }
      var r := list.Set(lastRet, e);
      o := Pass;
    }

    /**
     * `ListItr.add(e)`: inserts at the cursor, steps over the new element and
     * resynchronises; a failed capacity increase propagates.
     */
    method Add(e: Ref<T>) returns (o: Outcome)
      requires Valid() && isListIterator
      modifies this, list, list.elementData
      ensures Valid()
      ensures !old(InSync()) ==>
        o == Fail(ConcurrentModification) && unchanged(this) && unchanged(list) && list.Contents() == old(list.Contents())
      ensures old(InSync()) && o.Pass? ==>
        && list.Contents() == InsertAt(old(list.Contents()), old(cursor), e)
        && cursor == old(cursor) + 1 && lastRet == -1 && InSync()
      ensures old(InSync()) ==> (o.Pass? <==> old(list.size) < INT_MAX)
      ensures o.Fail? ==> list.Contents() == old(list.Contents()) && cursor == old(cursor)
    {
      if list.modCount != expectedModCount {
        return Fail(ConcurrentModification);
      }
      var i := cursor;
      o := list.AddAt(i, e);
      if o.Fail? {
        return;
      }
      cursor := i + 1;
      lastRet := -1;
      expectedModCount := list.modCount;
    }
  }

  /**
   * `ArrayList.SubList` over the list itself: the window `[offset, offset +
   * size)` of `root`. Its own changes go through the list and resynchronise
   * `modCount`; any other structural change of the list makes it fail fast.
   */
  class SubList<T(==)> {
    const root: ArrayList<T>
    const offset: nat
    var size: nat
    var modCount: int

    ghost predicate Valid()
      reads this, root, root.elementData
    {
      && root.Valid()
      && size <= INT_MAX
      && modCount <= root.modCount
      && (InSync() ==> offset + size <= root.size)
    }

    ghost predicate InSync()
      reads this, root
    {
      modCount == root.modCount
    }

    /** The elements in view. */
    ghost function Contents(): seq<Ref<T>>
      reads this, root, root.elementData
      requires Valid() && InSync()
    {
      root.Contents()[offset..offset + size]
    }

    /** `new SubList(list, 0, fromIndex, toIndex)` */
    constructor (root: ArrayList<T>, fromIndex: nat, toIndex: nat)
      requires root.Valid() && fromIndex <= toIndex <= root.size
      ensures Valid() && InSync() && this.root == root && offset == fromIndex && size == toIndex - fromIndex
      ensures Contents() == root.Contents()[fromIndex..toIndex]
    {
      this.root := root;
      offset := fromIndex;
      size := toIndex - fromIndex;
      modCount := root.modCount;
    }

    /** `set(index, e)`: writes the list's slot `offset + index`. */
    method Set(index: int32, e: Ref<T>) returns (r: Result<Ref<T>>)
      requires Valid()
      modifies root.elementData
      ensures Valid()
      ensures index < 0 || index >= size ==> r == Err(IndexOutOfBounds) && root.Contents() == old(root.Contents())
      ensures 0 <= index < size && !InSync() ==> r == Err(ConcurrentModification) && root.Contents() == old(root.Contents())
      ensures 0 <= index < size && InSync() ==>
        && r == Ok(old(root.Contents())[offset + index])
        && root.Contents() == old(root.Contents())[offset + index := e]
    {
      if index < 0 || index >= size {
        return Err(IndexOutOfBounds);
      }
      if root.modCount != modCount {
        return Err(ConcurrentModification);
      }
      var oldValue := root.elementData[offset + index];
      root.elementData[offset + index] := e;
      r := Ok(oldValue);
    }

    /** `get(index)`: reads the list's slot `offset + index`. */
    method Get(index: int32) returns (r: Result<Ref<T>>)
      requires Valid()
      ensures index < 0 || index >= size ==> r == Err(IndexOutOfBounds)
      ensures 0 <= index < size && !InSync() ==> r == Err(ConcurrentModification)
      ensures 0 <= index < size && InSync() ==> r == Ok(root.Contents()[offset + index])
    {
      if index < 0 || index >= size {
        return Err(IndexOutOfBounds);
      }
      if root.modCount != modCount {
        return Err(ConcurrentModification);
      }
      r := Ok(root.elementData[offset + index]);
    }

    /** `size()` */
    method Size() returns (r: Result<nat>)
      requires Valid()
      ensures !InSync() <==> r == Err(ConcurrentModification)
      ensures InSync() ==> r == Ok(|Contents()|)
    {
      if root.modCount != modCount {
        return Err(ConcurrentModification);
      }
      r := Ok(size);
    }

    /**
     * `listIterator(index)`: checks for comodification first, then that the
     * index lies in `[0, size]`; `iterator()` is `listIterator(0)`.
     */
    method ListIterator(index: int32) returns (r: Result<SubListItr<T>>)
      requires Valid()
      ensures !InSync() ==> r == Err(ConcurrentModification)
      ensures InSync() && (index < 0 || index > size) ==> r == Err(IndexOutOfBounds)
      ensures InSync() && 0 <= index <= size ==> r.Ok?
      ensures r.Ok? ==> fresh(r.value) && r.value.Valid() && r.value.InSync() && r.value.sub == this
      ensures r.Ok? ==> r.value.cursor == index && r.value.lastRet == -1
    {
      if root.modCount != modCount {
        return Err(ConcurrentModification);
      }
      if index < 0 || index > size {
        return Err(IndexOutOfBounds);
      }
      var it := new SubListItr(this, index);
      r := Ok(it);
    }

    /** `add(index, e)`: inserts into the list at `offset + index`. */
    method AddAt(index: int32, e: Ref<T>) returns (o: Outcome)
      requires Valid()
      modifies this, root, root.elementData
      ensures Valid()
      ensures index < 0 || index > old(size) ==>
        o == Fail(IndexOutOfBounds) && unchanged(this) && unchanged(root) && root.Contents() == old(root.Contents())
      ensures 0 <= index <= old(size) && !old(InSync()) ==>
        o == Fail(ConcurrentModification) && unchanged(this) && unchanged(root) && root.Contents() == old(root.Contents())
      ensures old(InSync()) && o.Pass? ==>
        && 0 <= index <= old(size)
        && root.Contents() == InsertAt(old(root.Contents()), offset + index, e)
        && size == old(size) + 1 && InSync()
        && Contents() == InsertAt(old(Contents()), index, e)
      ensures old(InSync()) && 0 <= index <= old(size) ==> (o.Pass? <==> old(root.size) < INT_MAX)
      ensures o.Fail? ==> root.Contents() == old(root.Contents()) && size == old(size)
      ensures old(InSync()) && 0 <= index <= old(size) ==> root.modCount == old(root.modCount) + 1
    {
      if index < 0 || index > size {
        return Fail(IndexOutOfBounds);
      }
      if root.modCount != modCount {
        return Fail(ConcurrentModification);
      }
      InsertAtIsInsertAll(root.Contents(), offset + index, e);
      InsertAtIsInsertAll(Contents(), index as nat, e);
      InsertAllAtWindow(root.Contents(), offset, size, index as nat, [e]);
      o := AddAtInList(index as nat, e);
    }

    /** The in-sync part of `add(index, e)`: the list gains `e` at `offset + index` and the view follows. */
    method AddAtInList(index: nat, e: Ref<T>) returns (o: Outcome)
      requires Valid() && InSync() && index <= size
      modifies this, root, root.elementData
      ensures Valid() && root.modCount == old(root.modCount) + 1
      ensures o.Pass? <==> old(root.size) < INT_MAX
      ensures o.Pass? ==>
        root.Contents() == InsertAt(old(root.Contents()), offset + index, e) && size == old(size) + 1 && InSync()
      ensures o.Fail? ==> root.Contents() == old(root.Contents()) && size == old(size)
    {
      o := root.AddAt(offset + index, e);
      if o.Fail? {
        return;
      }
      modCount := root.modCount;
      size := size + 1;
    }

    /** `remove(index)`: removes the list's element at `offset + index`. */
    method RemoveAt(index: int32) returns (r: Result<Ref<T>>)
      requires Valid()
      modifies this, root, root.elementData
      ensures Valid() && root.elementData == old(root.elementData)
      ensures index < 0 || index >= old(size) ==>
        r == Err(IndexOutOfBounds) && unchanged(this) && unchanged(root) && root.Contents() == old(root.Contents())
      ensures 0 <= index < old(size) && !old(InSync()) ==>
        r == Err(ConcurrentModification) && unchanged(this) && unchanged(root) && root.Contents() == old(root.Contents())
      ensures 0 <= index < old(size) && old(InSync()) ==>
        && r == Ok(old(Contents())[index])
        && root.Contents() == DeleteAt(old(root.Contents()), offset + index)
        && size == old(size) - 1 && InSync()
        && Contents() == DeleteAt(old(Contents()), index)
    {
      if index < 0 || index >= size {
        return Err(IndexOutOfBounds);
      }
      if root.modCount != modCount {
        return Err(ConcurrentModification);
      }
      DeleteAtIsRange(root.Contents(), offset + index);
      DeleteAtIsRange(Contents(), index as nat);
      DeleteRangeWindow(root.Contents(), offset, size, index as nat, index as nat + 1);
      r := RemoveAtInList(index as nat);
    }

    /** The in-sync part of `remove(index)`: the list loses its element at `offset + index` and the view follows. */
    method RemoveAtInList(index: nat) returns (r: Result<Ref<T>>)
      requires Valid() && InSync() && index < size
      modifies this, root, root.elementData
      ensures Valid() && InSync() && root.elementData == old(root.elementData)
      ensures r == Ok(old(root.Contents())[offset + index])
      ensures root.Contents() == DeleteAt(old(root.Contents()), offset + index)
      ensures size == old(size) - 1
    {
      r := root.RemoveAt(offset + index);
      modCount := root.modCount;
      size := size - 1;
    }

    /** `removeRange(fromIndex, toIndex)`, relative to the window. */
    method RemoveRange(fromIndex: nat, toIndex: nat) returns (o: Outcome)
      requires Valid() && fromIndex <= toIndex <= size
      modifies this, root, root.elementData
      ensures Valid() && root.elementData == old(root.elementData)
      ensures !old(InSync()) ==>
        o == Fail(ConcurrentModification) && unchanged(this) && unchanged(root) && root.Contents() == old(root.Contents())
      ensures old(InSync()) ==>
        && o == Pass
        && root.Contents() == DeleteRange(old(root.Contents()), offset + fromIndex, offset + toIndex)
        && size == old(size) - (toIndex - fromIndex) && InSync()
        && Contents() == DeleteRange(old(Contents()), fromIndex, toIndex)
    {
      if root.modCount != modCount {
        return Fail(ConcurrentModification);
      }
      DeleteRangeWindow(root.Contents(), offset, size, fromIndex, toIndex);
      RemoveRangeInList(fromIndex, toIndex);
      o := Pass;
    }

    /** The in-sync part of `removeRange`: the list loses `[offset + fromIndex, offset + toIndex)` and the view follows. */
    method RemoveRangeInList(fromIndex: nat, toIndex: nat)
      requires Valid() && InSync() && fromIndex <= toIndex <= size
      modifies this, root, root.elementData
      ensures Valid() && InSync() && root.elementData == old(root.elementData)
      ensures root.Contents() == DeleteRange(old(root.Contents()), offset + fromIndex, offset + toIndex)
      ensures size == old(size) - (toIndex - fromIndex)
    {
      root.RemoveRange(offset + fromIndex, offset + toIndex);
      modCount := root.modCount;
      size := size - (toIndex - fromIndex);
    }

    /** `addAll(c)` is `addAll(size, c)`. */
    method AddAll(items: seq<Ref<T>>) returns (r: Result<bool>)
      requires Valid() && |items| <= INT_MAX
      modifies this, root, root.elementData
      ensures Valid()
      ensures |items| == 0 ==> r == Ok(false) && unchanged(this) && unchanged(root)
      ensures |items| > 0 && !old(InSync()) ==> r == Err(ConcurrentModification) && unchanged(this) && unchanged(root)
      ensures old(InSync()) && r == Ok(true) ==>
        && root.Contents() == InsertAllAt(old(root.Contents()), offset + old(size), items)
        && InSync() && Contents() == old(Contents()) + items
      ensures r.Err? ==> root.Contents() == old(root.Contents())
    {
      r := AddAllAt(size, items);
    }

    /**
     * `addAll(index, c)`: an empty `c` returns false before the comodification
     * check; otherwise the elements go into the list at `offset + index`.
     */
    method AddAllAt(index: int32, items: seq<Ref<T>>) returns (r: Result<bool>)
      requires Valid() && |items| <= INT_MAX
      modifies this, root, root.elementData
      ensures Valid()
      ensures index < 0 || index > old(size) ==> r == Err(IndexOutOfBounds) && unchanged(this) && unchanged(root)
      ensures 0 <= index <= old(size) && |items| == 0 ==> r == Ok(false) && unchanged(this) && unchanged(root)
      ensures 0 <= index <= old(size) && |items| > 0 && !old(InSync()) ==>
        r == Err(ConcurrentModification) && unchanged(this) && unchanged(root)
      ensures old(InSync()) && r == Ok(true) ==>
        && 0 <= index <= old(size)
        && root.Contents() == InsertAllAt(old(root.Contents()), offset + index, items)
        && size == old(size) + |items| && InSync()
        && Contents() == InsertAllAt(old(Contents()), index, items)
      ensures old(InSync()) && 0 <= index <= old(size) && |items| > 0 ==>
        (r.Ok? <==> old(root.size) + |items| <= INT_MAX)
      ensures r.Err? ==> root.Contents() == old(root.Contents())
    {
      if index < 0 || index > size {
        return Err(IndexOutOfBounds);
      }
      var cSize := |items|;
      if cSize == 0 {
        return Ok(false);
      }
      if root.modCount != modCount {
        return Err(ConcurrentModification);
      }
      InsertAllAtWindow(root.Contents(), offset, size, index as nat, items);
      r := AddAllAtInList(index as nat, items);
    }

    /** The in-sync part of `addAll(index, c)`: the list gains `items` at `offset + index` and the view follows. */
    method AddAllAtInList(index: nat, items: seq<Ref<T>>) returns (r: Result<bool>)
      requires Valid() && InSync() && index <= size && 0 < |items| <= INT_MAX
      modifies this, root, root.elementData
      ensures Valid()
      ensures r.Ok? <==> old(root.size) + |items| <= INT_MAX
      ensures r.Ok? ==>
        && r.value
        && root.Contents() == InsertAllAt(old(root.Contents()), offset + index, items)
        && size == old(size) + |items| && InSync()
      ensures r.Err? ==> root.Contents() == old(root.Contents())
    {
      var added := root.AddAllAt(offset + index, items);
      if added.Err? {
        return Err(added.error);
      }
      modCount := root.modCount;
      size := size + |items|;
      r := Ok(true);
    }
  }

  /**
   * The list iterator of an `ArrayList.SubList`: a cursor over the window that
   * reads the list's slots `offset + i` and fails fast on any structural change
   * of the list but its own.
   */
  class SubListItr<T(==)> {
    const sub: SubList<T>
    var cursor: nat
    var lastRet: int
    var expectedModCount: int

    /** While in step with the list, so is the sub-list, and the cursor lies in its window. */
    ghost predicate Valid()
      reads this, sub, sub.root, sub.root.elementData
    {
      && sub.Valid()
      && -1 <= lastRet
      && expectedModCount <= sub.root.modCount
      && (InSync() ==> sub.InSync() && cursor <= sub.size && lastRet < sub.size)
    }

    ghost predicate InSync()
      reads this, sub, sub.root
    {
      expectedModCount == sub.root.modCount
    }

    constructor (sub: SubList<T>, index: nat)
      requires sub.Valid() && sub.InSync() && index <= sub.size
      ensures Valid() && InSync() && this.sub == sub && cursor == index && lastRet == -1
    {
      this.sub := sub;
      cursor := index;
      lastRet := -1;
      expectedModCount := sub.root.modCount;
    }

    /** `hasNext()` */
    method HasNext() returns (b: bool)
      requires Valid()
      ensures b <==> cursor != sub.size
    {
      b := cursor != sub.size;
    }

    /** `next()` */
    method Next() returns (r: Result<Ref<T>>)
      requires Valid()
      modifies this
      ensures Valid() && expectedModCount == old(expectedModCount)
      ensures !old(InSync()) ==> r == Err(ConcurrentModification) && unchanged(this)
      ensures old(InSync()) && old(cursor) >= sub.size ==> r == Err(NoSuchElement) && unchanged(this)
      ensures old(InSync()) && old(cursor) < sub.size ==>
        r == Ok(sub.Contents()[old(cursor)]) && cursor == old(cursor) + 1 && lastRet == old(cursor)
    {
      if expectedModCount != sub.root.modCount {
        return Err(ConcurrentModification);
      }
      var i := cursor;
      if i >= sub.size {
        return Err(NoSuchElement);
      }
      cursor := i + 1;
      lastRet := i;
      r := Ok(sub.root.elementData[sub.offset + i]);
    }

    /** `hasPrevious()` */
    method HasPrevious() returns (b: bool)
      requires Valid()
      ensures b <==> cursor != 0
    {
      b := cursor != 0;
    }

    /** `privious()`: the element before the cursor, which becomes the cursor and the last returned index. */
    method Privious() returns (r: Result<Ref<T>>)
      requires Valid()
      modifies this
      ensures Valid() && expectedModCount == old(expectedModCount)
      ensures !old(InSync()) ==> r == Err(ConcurrentModification) && unchanged(this)
      ensures old(InSync()) && old(cursor) == 0 ==> r == Err(NoSuchElement) && unchanged(this)
      ensures old(InSync()) && old(cursor) > 0 ==>
        r == Ok(sub.Contents()[old(cursor) - 1]) && cursor == old(cursor) - 1 && lastRet == cursor
    {
      if expectedModCount != sub.root.modCount {
        return Err(ConcurrentModification);
      }
      var i := cursor as int - 1;
      if i < 0 {
        return Err(NoSuchElement);
      }
      cursor := i;
      lastRet := i;
      r := Ok(sub.root.elementData[sub.offset + i]);
    }

    /** `nextIndex()` */
    method NextIndex() returns (i: int)
      requires Valid()
      ensures i == cursor
    {
      i := cursor;
    }

    /** `previousIndex()` */
    method PreviousIndex() returns (i: int)
      requires Valid()
      ensures i == cursor - 1
    {
      i := cursor - 1;
    }

    /** `remove()`: removes the last returned element through the sub-list. */
    method Remove() returns (o: Outcome)
      requires Valid()
      modifies this, sub, sub.root, sub.root.elementData
      ensures Valid() && sub.root.elementData == old(sub.root.elementData)
      ensures old(lastRet) < 0 ==> o == Fail(IllegalState) && unchanged(this) && unchanged(sub) && unchanged(sub.root)
      ensures old(lastRet) >= 0 && !old(InSync()) ==>
        o == Fail(ConcurrentModification) && unchanged(this) && unchanged(sub) && unchanged(sub.root)
      ensures old(lastRet) >= 0 && old(InSync()) ==>
        && o == Pass && InSync()
        && sub.Contents() == DeleteAt(old(sub.Contents()), old(lastRet))
        && cursor == old(lastRet) && lastRet == -1
    {
      if lastRet < 0 {
        return Fail(IllegalState);
      }
      if expectedModCount != sub.root.modCount {
        return Fail(ConcurrentModification);
      }
      var r := sub.RemoveAt(lastRet);
      cursor := lastRet;
      lastRet := -1;
      expectedModCount := sub.root.modCount;
      o := Pass;
    }

    /** `set(e)`: replaces the last returned element through the list. */
    method Set(e: Ref<T>) returns (o: Outcome)
      requires Valid()
      modifies sub.root.elementData
      ensures Valid()
      ensures old(lastRet) < 0 ==> o == Fail(IllegalState) && sub.root.Contents() == old(sub.root.Contents())
      ensures old(lastRet) >= 0 && !InSync() ==>
        o == Fail(ConcurrentModification) && sub.root.Contents() == old(sub.root.Contents())
      ensures old(lastRet) >= 0 && InSync() ==> o == Pass && sub.Contents() == old(sub.Contents())[lastRet := e]
    {
      if lastRet < 0 {
        return Fail(IllegalState);
      }
      if expectedModCount != sub.root.modCount {
        return Fail(ConcurrentModification);
      }
      var r := sub.root.Set(sub.offset + lastRet, e);
      o := Pass;
    }

    /** `add(e)`: inserts at the cursor through the sub-list and steps over the new element. */
    method Add(e: Ref<T>) returns (o: Outcome)
      requires Valid()
      modifies this, sub, sub.root, sub.root.elementData
      ensures Valid()
      ensures !old(InSync()) ==> o == Fail(ConcurrentModification) && unchanged(this) && unchanged(sub) && unchanged(sub.root)
      ensures old(InSync()) && o.Pass? ==>
        && InSync()
        && sub.Contents() == InsertAt(old(sub.Contents()), old(cursor), e)
        && cursor == old(cursor) + 1 && lastRet == -1
      ensures old(InSync()) ==> (o.Pass? <==> old(sub.root.size) < INT_MAX)
      ensures o.Fail? ==> sub.root.Contents() == old(sub.root.Contents()) && cursor == old(cursor)
    {
      if expectedModCount != sub.root.modCount {
        return Fail(ConcurrentModification);
      }
      var i := cursor;
      o := sub.AddAt(i, e);
      if o.Fail? {
        return;
      }
      cursor := i + 1;
      lastRet := -1;
      expectedModCount := sub.root.modCount;
    }
  }

  /**
   * A list `[1, 2]` walked forward twice: `privious()` as written then yields
   * 1, the element before the last returned, where `previous()` yields 2.
   */
  method PriviousAfterNext() returns (asWritten: Result<Ref<int>>, intended: Result<Ref<int>>)
    ensures asWritten == Ok(Obj(1))
    ensures intended == Ok(Obj(2))
  {
    var list := new ArrayList<int>.FromCollection([Obj(1), Obj(2)]);
    var r := list.ListIterator(0);
    var it := r.value;
    var first := it.Next();
    var second := it.Next();
    asWritten := it.Privious();
    r := list.ListIterator(0);
    it := r.value;
    first := it.Next();
    second := it.Next();
    intended := it.Previous();
  }
}

=== FILE: bits.dfy ===
/**
 * Bit-level arithmetic on the unsigned 32-bit patterns of Java `int`s, as the
 * hash table uses it: `&`, `|`, `^`, the logical shift `>>>`, and the two pure
 * helpers `HashMap.hash` and `HashMap.tableSizeFor`.
 *
 * Patterns are non-negative integers; bit `i` of `x` is `Bit(x, i)`.
 */
module Bits {
  import opened JavaLang

  const MAXIMUM_CAPACITY: nat := 0x4000_0000

  function Pow2(k: nat): (r: nat)
    ensures r >= 1
  {
    if k == 0 then 1 else 2 * Pow2(k - 1)
  }

  /** The powers of two the 32-bit code relies on. */
  lemma Pow2Values()
    ensures Pow2(16) == 0x1_0000 && Pow2(30) == MAXIMUM_CAPACITY
    ensures Pow2(31) == 0x8000_0000 && Pow2(32) == TWO_32
  {
    assert Pow2(1) == 2;
    assert Pow2(2) == 4;
    assert Pow2(3) == 8;
    assert Pow2(4) == 16;
    assert Pow2(5) == 32;
    assert Pow2(6) == 64;
    assert Pow2(7) == 128;
    assert Pow2(8) == 256;
    assert Pow2(9) == 512;
    assert Pow2(10) == 1024;
    assert Pow2(11) == 2048;
    assert Pow2(12) == 4096;
    assert Pow2(13) == 8192;
    assert Pow2(14) == 16384;
    assert Pow2(15) == 32768;
    assert Pow2(16) == 65536;
    assert Pow2(17) == 131072;
    assert Pow2(18) == 262144;
    assert Pow2(19) == 524288;
    assert Pow2(20) == 1048576;
    assert Pow2(21) == 2097152;
    assert Pow2(22) == 4194304;
    assert Pow2(23) == 8388608;
    assert Pow2(24) == 16777216;
    assert Pow2(25) == 33554432;
    assert Pow2(26) == 67108864;
    assert Pow2(27) == 134217728;
    assert Pow2(28) == 268435456;
    assert Pow2(29) == 536870912;
    assert Pow2(30) == 1073741824;
    assert Pow2(31) == 2147483648;
    assert Pow2(32) == 4294967296;
  }

  /** Bit `i` (counting from the least significant) of `x`. */
  predicate Bit(x: nat, i: nat)
  {
    if i == 0 then x % 2 == 1 else Bit(x / 2, i - 1)
  }

  /** `a & b` */
  function And(a: nat, b: nat): (r: nat)
    ensures r <= a && r <= b
  {
    if a == 0 || b == 0 then 0
    else 2 * And(a / 2, b / 2) + (if a % 2 == 1 && b % 2 == 1 then 1 else 0)
  }

  /** `a | b` */
  function Or(a: nat, b: nat): (r: nat)
    ensures a <= r && b <= r
  {
    if a == 0 then b
    else if b == 0 then a
    else 2 * Or(a / 2, b / 2) + (if a % 2 == 1 || b % 2 == 1 then 1 else 0)
  }

  /** `a ^ b` */
  function Xor(a: nat, b: nat): (r: nat)
    ensures r <= a + b
  {
    if a == 0 then b
    else if b == 0 then a
    else 2 * Xor(a / 2, b / 2) + (if (a % 2 == 1) != (b % 2 == 1) then 1 else 0)
  }

  /** `x >>> s` on an unsigned pattern. */
  function Shr(x: nat, s: nat): (r: nat)
    ensures r <= x
  {
    if s == 0 then x else Shr(x / 2, s - 1)
  }

  /** The number of significant bits of `x` (0 for 0). */
  function BitLength(x: nat): (b: nat)
    ensures x < Pow2(b)
    ensures x > 0 ==> b >= 1 && Pow2(b - 1) <= x
  {
    if x == 0 then 0 else 1 + BitLength(x / 2)
  }

  function Log2(n: nat): (k: nat)
    requires n >= 1
    ensures Pow2(k) <= n < 2 * Pow2(k)
  {
    if n == 1 then 0 else 1 + Log2(n / 2)
  }

  predicate IsPow2(n: int)
  {
    n >= 1 && Pow2(Log2(n)) == n
  }

  // ---------------------------------------------------------------------------
  // Bitwise characterisations

  lemma {:induction false} BitZero(i: nat)
    ensures !Bit(0, i)
  {
    if i > 0 {
      BitZero(i - 1);
    }
  }

  /** A pattern is determined by its bits. */
  lemma {:induction false} BitsDetermine(a: nat, b: nat)
    requires forall i: nat :: Bit(a, i) == Bit(b, i)
    ensures a == b
    decreases a + b
  {
    assert Bit(a, 0) == Bit(b, 0);
    if a != 0 || b != 0 {
      forall i: nat
        ensures Bit(a / 2, i) == Bit(b / 2, i)
      {
        assert Bit(a, i + 1) == Bit(b, i + 1);
      }
      BitsDetermine(a / 2, b / 2);
    }
  }

  lemma {:induction false} BitAbove(x: nat, b: nat, i: nat)
    requires x < Pow2(b) && b <= i
    ensures !Bit(x, i)
  {
    if x == 0 {
      BitZero(i);
    } else if i > 0 {
      if b == 0 {
        assert false;
      } else {
        BitAbove(x / 2, b - 1, i - 1);
      }
    }
  }

  lemma {:induction false} BitOr(a: nat, b: nat, i: nat)
    ensures Bit(Or(a, b), i) == (Bit(a, i) || Bit(b, i))
  {
    if a == 0 {
      BitZero(i);
    } else if b == 0 {
      BitZero(i);
    } else if i > 0 {
      BitOr(a / 2, b / 2, i - 1);
    }
  }

  lemma {:induction false} BitXor(a: nat, b: nat, i: nat)
    ensures Bit(Xor(a, b), i) == (Bit(a, i) != Bit(b, i))
  {
    if a == 0 {
      BitZero(i);
    } else if b == 0 {
      BitZero(i);
    } else if i > 0 {
      BitXor(a / 2, b / 2, i - 1);
    }
  }

  lemma {:induction false} BitShr(x: nat, s: nat, i: nat)
    ensures Bit(Shr(x, s), i) == Bit(x, i + s)
  {
    if s > 0 {
      BitShr(x / 2, s - 1, i);
    }
  }

  /** An `|` of two patterns below `2^b` stays below `2^b`. */
  lemma {:induction false} OrBelow(a: nat, b: nat, k: nat)
    requires a < Pow2(k) && b < Pow2(k)
    ensures Or(a, b) < Pow2(k)
  {
    if a != 0 && b != 0 {
      OrBelow(a / 2, b / 2, k - 1);
    }
  }

  lemma {:induction false} XorBelow(a: nat, b: nat, k: nat)
    requires a < Pow2(k) && b < Pow2(k)
    ensures Xor(a, b) < Pow2(k)
  {
    if a != 0 && b != 0 {
      XorBelow(a / 2, b / 2, k - 1);
    }
  }

  lemma {:induction false} ShrBelow(x: nat, s: nat, k: nat)
    requires x < Pow2(k + s)
    ensures Shr(x, s) < Pow2(k)
  {
    if s > 0 {
      ShrBelow(x / 2, s - 1, k);
    }
  }

  // ---------------------------------------------------------------------------
  // Bucket addressing: `(n - 1) & hash` for a power of two `n`

  /** The bucket of `hash` in a table of `n` slots. */
  function Index(hash: nat, n: nat): (j: nat)
    requires n >= 1
    ensures j < n
  {
    And(hash, n - 1)
  }

  lemma {:induction false} Log2Pow2(k: nat)
    ensures Log2(Pow2(k)) == k
  {
    if k > 0 {
      Log2Pow2(k - 1);
    }
  }

  lemma {:induction false} PowMonotone(i: nat, j: nat)
    requires i <= j
    ensures Pow2(i) <= Pow2(j)
  {
    if i < j {
      PowMonotone(i, j - 1);
    }
  }

  /** Doubling a power of two gives a power of two. */
  lemma DoublePow2(n: nat)
    requires IsPow2(n)
    ensures IsPow2(2 * n) && Log2(2 * n) == Log2(n) + 1
  {
    Log2Pow2(Log2(n) + 1);
  }

  /**
   * The split rule of `resize`: in a table twice as long, a hash lands in its
   * old bucket when its `oldCap` bit is clear and `oldCap` further up otherwise.
   */
  lemma {:induction false} IndexSplit(hash: nat, n: nat)
    requires IsPow2(n)
    ensures And(hash, n) == 0 || And(hash, n) == n
    ensures Index(hash, 2 * n) == Index(hash, n) + (if And(hash, n) == 0 then 0 else n)
  {
    IndexSplitAt(hash, Log2(n));
  }

  lemma IndexSplitAt(hash: nat, k: nat)
    ensures And(hash, Pow2(k)) == 0 || And(hash, Pow2(k)) == Pow2(k)
    ensures And(hash, 2 * Pow2(k) - 1) == And(hash, Pow2(k) - 1) + (if And(hash, Pow2(k)) == 0 then 0 else Pow2(k))
  {
    AndPow2(hash, k);
    AndLowSplit(hash, k);
  }

  /** `hash & 2^k` is `2^k` exactly when bit `k` of `hash` is set, and 0 otherwise. */
  lemma {:induction false} AndPow2(hash: nat, k: nat)
    ensures And(hash, Pow2(k)) == if Bit(hash, k) then Pow2(k) else 0
  {
    if hash == 0 {
      BitZero(k);
    } else if k == 0 {
      AndStep(hash, 0, 1);
    } else {
      AndPow2(hash / 2, k - 1);
      AndStep(hash, Pow2(k - 1), 0);
    }
  }

  /** The mask of the low `k + 1` bits takes bit `k` on top of the mask of the low `k`. */
  lemma AndLowSplit(hash: nat, k: nat)
    ensures And(hash, 2 * Pow2(k) - 1) == And(hash, Pow2(k) - 1) + (if Bit(hash, k) then Pow2(k) else 0)
  {
    var x, lo, p := And(hash, 2 * Pow2(k) - 1), And(hash, Pow2(k) - 1), Pow2(k);
    if Bit(hash, k) {
      forall i: nat
        ensures Bit(x, i) == Bit(lo + p, i)
      {
        LowSplitBit(hash, k, i, x, lo, p);
      }
      BitsDetermine(x, lo + p);
    } else {
      forall i: nat
        ensures Bit(x, i) == Bit(lo, i)
      {
        LowSplitBit(hash, k, i, x, lo, p);
      }
      BitsDetermine(x, lo);
    }
  }

  lemma LowSplitBit(hash: nat, k: nat, i: nat, x: nat, lo: nat, p: nat)
    requires x == And(hash, 2 * Pow2(k) - 1) && lo == And(hash, Pow2(k) - 1) && p == Pow2(k)
    ensures Bit(hash, k) ==> Bit(x, i) == Bit(lo + p, i)
    ensures !Bit(hash, k) ==> Bit(x, i) == Bit(lo, i)
  {
    BitAnd(hash, Pow2(k + 1) - 1, i);
    BitLowMask(k + 1, i);
    BitAnd(hash, Pow2(k) - 1, i);
    BitLowMask(k, i);
    if Bit(hash, k) {
      BitAddHigh(lo, k, i);
    }
  }

  lemma {:induction false} BitAnd(a: nat, b: nat, i: nat)
    ensures Bit(And(a, b), i) == (Bit(a, i) && Bit(b, i))
  {
    if a == 0 || b == 0 {
      BitZero(i);
    } else if i > 0 {
      BitAnd(a / 2, b / 2, i - 1);
    }
  }

  /** The bits of `2^k - 1` are those below `k`. */
  lemma {:induction false} BitLowMask(k: nat, i: nat)
    ensures Bit(Pow2(k) - 1, i) == (i < k)
  {
    if k == 0 {
      BitZero(i);
    } else if i > 0 {
      BitLowMask(k - 1, i - 1);
    }
  }

  /** Adding `2^k` to a pattern below `2^k` sets bit `k` and keeps the others. */
  lemma {:induction false} BitAddHigh(x: nat, k: nat, i: nat)
    requires x < Pow2(k)
    ensures Bit(x + Pow2(k), i) == (Bit(x, i) || i == k)
  {
    if k == 0 {
      if i > 0 {
        BitZero(i - 1);
      }
    } else if i > 0 {
      BitAddHigh(x / 2, k - 1, i - 1);
    }
  }

  /** One step of `And` on a second operand `2 * c + r`: the low bits, then the rest shifted. */
  lemma AndStep(a: nat, c: nat, r: nat)
    requires r <= 1 && 2 * c + r > 0
    ensures And(a, 2 * c + r) == 2 * And(a / 2, c) + (if a % 2 == 1 && r == 1 then 1 else 0)
  {
    assert (2 * c + r) / 2 == c && (2 * c + r) % 2 == r;
  }

  // ---------------------------------------------------------------------------
  // HashMap.hash

  /** `h ^ (h >>> 16)` on the pattern `u` of a hash code. */
  function Spread(u: nat): (h: nat)
    requires u < TWO_32
    ensures h < TWO_32
  {
    Pow2Values();
    XorBelow(u, Shr(u, 16), 32);
    Xor(u, Shr(u, 16))
  }

  /**
   * `hash` keeps the upper 16 bits and can be undone by spreading again, so
   * distinct hash codes give distinct hashes.
   */
  lemma SpreadInvolution(u: nat)
    requires u < TWO_32
    ensures Shr(Spread(u), 16) == Shr(u, 16)
    ensures Spread(Spread(u)) == u
  {
    Pow2Values();
    var h := Spread(u);
    forall i: nat
      ensures Bit(Shr(h, 16), i) == Bit(Shr(u, 16), i)
    {
      BitShr(h, 16, i);
      BitShr(u, 16, i);
      BitXor(u, Shr(u, 16), i + 16);
      BitShr(u, 16, i + 16);
      BitAbove(u, 32, i + 32);
    }
    BitsDetermine(Shr(h, 16), Shr(u, 16));
    forall i: nat
      ensures Bit(Spread(h), i) == Bit(u, i)
    {
      BitXor(h, Shr(h, 16), i);
      BitXor(u, Shr(u, 16), i);
    }
    BitsDetermine(Spread(h), u);
  }

  lemma SpreadInjective(u: nat, v: nat)
    requires u < TWO_32 && v < TWO_32 && Spread(u) == Spread(v)
    ensures u == v
  {
    SpreadInvolution(u);
    SpreadInvolution(v);
  }

  /** `hash(key)`: 0 for `null`, the spread pattern of the hash code otherwise. */
  function Hash<K>(key: Ref<K>, hashCode: K -> int32): (h: nat)
    ensures h < TWO_32
    ensures key.Null? ==> h == 0
  {
    match key
    case Null => 0
    case Obj(k) => Spread(Unsigned(hashCode(k)))
  }

  // ---------------------------------------------------------------------------
  // HashMap.tableSizeFor

  /** All bits `lo <= i < hi` of `x` are set. */
  ghost predicate AllSet(x: nat, lo: int, hi: int)
  {
    forall i: nat :: lo <= i < hi ==> Bit(x, i)
  }

  /** `n |= n >>> 1; n |= n >>> 2; n |= n >>> 4; n |= n >>> 8; n |= n >>> 16;` */
  function Smear(u: nat): (r: nat)
    ensures u <= r
  {
    var u1 := Or(u, Shr(u, 1));
    var u2 := Or(u1, Shr(u1, 2));
    var u4 := Or(u2, Shr(u2, 4));
    var u8 := Or(u4, Shr(u4, 8));
    Or(u8, Shr(u8, 16))
  }

  /** One `x |= x >>> s` step doubles the run of set bits below the top bit. */
  lemma SmearStep(x: nat, s: nat, lo: int, b: nat)
    requires x < Pow2(b) && AllSet(x, lo, b)
    requires lo <= 0 || s <= b - lo
    ensures Or(x, Shr(x, s)) < Pow2(b)
    ensures AllSet(Or(x, Shr(x, s)), lo - s, b)
  {
    OrBelow(x, Shr(x, s), b);
    var y := Or(x, Shr(x, s));
    forall i: nat | lo - s <= i < b
      ensures Bit(y, i)
    {
      BitOr(x, Shr(x, s), i);
      if i < lo {
        BitShr(x, s, i);
      }
    }
  }

  lemma {:induction false} AllOnes(y: nat, b: nat)
    requires y < Pow2(b) && AllSet(y, 0, b)
    ensures y == Pow2(b) - 1
  {
    if b > 0 {
      assert Bit(y, 0);
      forall i: nat | 0 <= i < b - 1
        ensures Bit(y / 2, i)
      {
        assert Bit(y, i + 1);
      }
      AllOnes(y / 2, b - 1);
    }
  }

  lemma {:induction false} TopBit(x: nat)
    requires x > 0
    ensures Bit(x, BitLength(x) - 1)
  {
    if x / 2 > 0 {
      TopBit(x / 2);
    }
  }

  /** On a pattern of at most 32 bits, the smear sets every bit below the top one. */
  lemma SmearFills(u: nat)
    requires u < TWO_32
    ensures Smear(u) == Pow2(BitLength(u)) - 1
  {
    var b := BitLength(u);
    Pow2Values();
    if u == 0 {
      assert Shr(0, 1) == 0 && Shr(0, 2) == 0 && Shr(0, 4) == 0 && Shr(0, 8) == 0 && Shr(0, 16) == 0;
    } else {
      TopBit(u);
      assert b <= 32 by {
        if b > 32 {
          PowMonotone(32, b - 1);
        }
      }
      assert AllSet(u, b as int - 1, b);
      SmearStep(u, 1, b as int - 1, b);
      var u1 := Or(u, Shr(u, 1));
      SmearStep(u1, 2, b as int - 2, b);
      var u2 := Or(u1, Shr(u1, 2));
      SmearStep(u2, 4, b as int - 4, b);
      var u4 := Or(u2, Shr(u2, 4));
      SmearStep(u4, 8, b as int - 8, b);
      var u8 := Or(u4, Shr(u4, 8));
      SmearStep(u8, 16, b as int - 16, b);
      AllOnes(Smear(u), b);
    }
  }

  /** `tableSizeFor(cap)`, with the `int` arithmetic of the source. */
  function TableSizeFor(cap: int32): (r: int32)
    ensures 1 <= r <= MAXIMUM_CAPACITY
  {
    var n := Wrap32(cap - 1);
    var u := Unsigned(n);
    var s := Smear(u);
    SmearBelow(u);
    var m := Signed(s);
    if m < 0 then 1 else if m >= MAXIMUM_CAPACITY then MAXIMUM_CAPACITY else m + 1
  }

  lemma SmearBelow(u: nat)
    requires u < TWO_32
    ensures u <= Smear(u) < TWO_32
  {
    SmearFills(u);
    Pow2Values();
    BitLengthBelow(u, 32);
    PowMonotone(BitLength(u), 32);
  }

  lemma {:induction false} BitLengthBelow(x: nat, k: nat)
    requires x < Pow2(k)
    ensures BitLength(x) <= k
  {
    if x > 0 {
      BitLengthBelow(x / 2, k - 1);
    }
  }

  lemma {:induction false} BitLengthAbove(x: nat, k: nat)
    requires Pow2(k) <= x
    ensures k < BitLength(x)
  {
    if k > 0 {
      BitLengthAbove(x / 2, k - 1);
    }
  }

  /**
   * `tableSizeFor(cap)` is the smallest power of two at least `cap`, for
   * `1 <= cap <= MAXIMUM_CAPACITY`; larger requests give `MAXIMUM_CAPACITY`,
   * and a zero or negative one gives 1 (except `Integer.MIN_VALUE`, whose
   * `cap - 1` wraps around to `Integer.MAX_VALUE`).
   */
  lemma TableSizeForSpec(cap: int32)
    ensures IsPow2(TableSizeFor(cap))
    ensures 1 <= cap <= MAXIMUM_CAPACITY ==>
      IsPow2(TableSizeFor(cap)) && cap <= TableSizeFor(cap) && (TableSizeFor(cap) == 1 || TableSizeFor(cap) / 2 < cap)
    ensures MAXIMUM_CAPACITY < cap || cap == INT_MIN ==> TableSizeFor(cap) == MAXIMUM_CAPACITY
    ensures INT_MIN < cap <= 0 ==> TableSizeFor(cap) == 1
  {
    if INT_MIN < cap <= 0 {
      TableSizeForNonPositive(cap);
      Log2Pow2(0);
    } else if cap == INT_MIN || cap > MAXIMUM_CAPACITY {
      TableSizeForLarge(cap);
      Pow2Values();
      Log2Pow2(30);
    } else {
      TableSizeForInRange(cap);
    }
  }

  lemma TableSizeForNonPositive(cap: int32)
    requires INT_MIN < cap <= 0
    ensures TableSizeFor(cap) == 1
  {
    var u := Unsigned(Wrap32(cap - 1));
    Pow2Values();
    SmearFills(u);
    BitLengthAbove(u, 31);
    BitLengthBelow(u, 32);
    assert Smear(u) == TWO_32 - 1;
  }

  lemma TableSizeForLarge(cap: int32)
    requires cap == INT_MIN || cap > MAXIMUM_CAPACITY
    ensures TableSizeFor(cap) == MAXIMUM_CAPACITY
  {
    var u := Unsigned(Wrap32(cap - 1));
    assert u == if cap == INT_MIN then INT_MAX else cap - 1;
    Pow2Values();
    SmearFills(u);
    BitLengthAbove(u, 30);
    BitLengthBelow(u, 31);
    assert Smear(u) == INT_MAX;
    assert Signed(Smear(u)) == INT_MAX;
  }

  lemma TableSizeForInRange(cap: int32)
    requires 1 <= cap <= MAXIMUM_CAPACITY
    ensures TableSizeFor(cap) == Pow2(BitLength(cap - 1))
    ensures IsPow2(TableSizeFor(cap)) && cap <= TableSizeFor(cap)
    ensures TableSizeFor(cap) == 1 || TableSizeFor(cap) / 2 < cap
  {
    var u := Unsigned(Wrap32(cap - 1));
    assert u == cap - 1;
    Pow2Values();
    SmearFills(u);
    var b := BitLength(u);
    BitLengthBelow(u, 30);
    PowMonotone(b, 30);
    Log2Pow2(b);
  }
}

=== FILE: hash_map.dfy ===
/**
 * `HashMap`: a table of `2^k` bins, the bin of a key chosen by the low bits of
 * its spread hash. The class keeps the table in an array whose slots hold the
 * bins as sequences of nodes, and a ghost `contents` for the mapping the table
 * stands for; `HashTables` proves the table facts the methods rely on.
 */
module HashMaps {
  import opened JavaLang
  import opened Bits
  import opened ListSpec
  import opened HashTables
  import AbstractMaps

  /** The capacity and threshold `resize` settles on. */
  datatype Sizing = Sizing(newCap: nat, newThr: int32)

  /**
   * `(int) (newCap * loadFactor)`, or `Integer.MAX_VALUE` once the capacity or
   * the product reaches `MAXIMUM_CAPACITY`: the number of mappings a table of
   * `newCap` bins takes before it is resized.
   */
  function ThresholdFor(newCap: nat, loadFactor: real): (t: int32)
    requires loadFactor > 0.0
    ensures newCap >= MAXIMUM_CAPACITY ==> t == INT_MAX
    ensures newCap < MAXIMUM_CAPACITY && (newCap as real) * loadFactor < MAXIMUM_CAPACITY as real ==>
      0 <= t && t as real <= (newCap as real) * loadFactor < (t + 1) as real
    ensures (newCap as real) * loadFactor >= MAXIMUM_CAPACITY as real ==> t == INT_MAX
  {
    var ft := (newCap as real) * loadFactor;
    if newCap < MAXIMUM_CAPACITY && ft < MAXIMUM_CAPACITY as real then ft.Floor else INT_MAX
  }

  /**
   * The new capacity and threshold of `resize`: double a table below
   * `MAXIMUM_CAPACITY` (and double the threshold with `int` arithmetic once
   * the table has at least 16 bins and the doubled one stays below the
   * maximum); the first table takes the threshold as its capacity, or the
   * defaults 16 and 12 when there is none; a threshold left at 0 is
   * recomputed from the load factor.
   */
  function ResizeSizing(oldCap: nat, oldThr: int32, loadFactor: real): (s: Sizing)
    requires oldCap < MAXIMUM_CAPACITY && loadFactor > 0.0
    ensures oldCap > 0 ==> s.newCap == 2 * oldCap
    ensures oldCap == 0 ==> s.newCap == if oldThr > 0 then oldThr else DEFAULT_INITIAL_CAPACITY
    ensures oldCap == 0 && oldThr <= 0 ==> s.newThr == DEFAULT_THRESHOLD
    ensures DEFAULT_INITIAL_CAPACITY <= oldCap && 2 * oldCap < MAXIMUM_CAPACITY && 0 < oldThr ==>
      s.newThr == if 2 * oldThr <= INT_MAX then 2 * oldThr else 2 * oldThr - TWO_32
    ensures (0 < oldCap < DEFAULT_INITIAL_CAPACITY || 2 * oldCap >= MAXIMUM_CAPACITY || (oldCap == 0 && oldThr > 0)) ==>
      s.newThr == ThresholdFor(s.newCap, loadFactor)
  {
    var first :=
      if oldCap > 0 then
        Sizing(2 * oldCap, if 2 * oldCap < MAXIMUM_CAPACITY && oldCap >= DEFAULT_INITIAL_CAPACITY then Wrap32(2 * oldThr) else 0)
      else if oldThr > 0 then Sizing(oldThr, 0)
      else Sizing(DEFAULT_INITIAL_CAPACITY, DEFAULT_THRESHOLD);
    if first.newThr == 0 then Sizing(first.newCap, ThresholdFor(first.newCap, loadFactor)) else first
  }

  /** The table stays a power of two no larger than the maximum, and a table at the maximum is never resized again. */
  lemma ResizeSizingValid(oldCap: nat, oldThr: int32, loadFactor: real)
    requires oldCap < MAXIMUM_CAPACITY && loadFactor > 0.0
    requires oldCap > 0 ==> IsPow2(oldCap)
    requires oldCap == 0 ==> oldThr == 0 || (IsPow2(oldThr) && oldThr <= MAXIMUM_CAPACITY)
    ensures var s := ResizeSizing(oldCap, oldThr, loadFactor);
      && IsPow2(s.newCap) && s.newCap <= MAXIMUM_CAPACITY
      && (s.newCap == MAXIMUM_CAPACITY ==> s.newThr == INT_MAX)
      && (oldCap > 0 ==> s.newCap == 2 * oldCap)
      && (oldCap == 0 ==> s.newCap == if oldThr > 0 then oldThr else DEFAULT_INITIAL_CAPACITY)
  {
    if oldCap > 0 {
      DoubleBelowMaximum(oldCap);
    } else if oldThr <= 0 {
      assert Pow2(4) == 16 by {
        assert Pow2(1) == 2 && Pow2(2) == 4 && Pow2(3) == 8;
      }
      Log2Pow2(4);
    }
  }

  /** Doubling a power of two below the maximum stays within it. */
  lemma DoubleBelowMaximum(n: nat)
    requires IsPow2(n) && n < MAXIMUM_CAPACITY
    ensures IsPow2(2 * n) && 2 * n <= MAXIMUM_CAPACITY
  {
    DoublePow2(n);
    Pow2Values();
    var k := Log2(n);
    if k >= 30 {
      PowMonotone(30, k);
    }
    PowMonotone(k + 1, 30);
  }

  /** The mapping after putting `entries` into `m` one by one: a later entry for a key wins. */
  ghost function PutEntries<K, V>(m: map<Ref<K>, Ref<V>>, entries: seq<AbstractMaps.Entry<K, V>>): (r: map<Ref<K>, Ref<V>>)
    ensures |r| <= |m| + |entries|
  {
    if |entries| == 0 then m
    else
      var e := entries[|entries| - 1];
      PutEntries(m, entries[..|entries| - 1])[e.key := e.value]
  }

  /** `putAll` of one more entry. */
  lemma PutEntriesStep<K, V>(m: map<Ref<K>, Ref<V>>, entries: seq<AbstractMaps.Entry<K, V>>, i: nat)
    requires i < |entries|
    ensures PutEntries(m, entries[..i + 1]) == PutEntries(m, entries[..i])[entries[i].key := entries[i].value]
    ensures |PutEntries(m, entries[..i])| <= |m| + i
  {
    assert entries[..i + 1][..i] == entries[..i];
  }

  /** A key is mapped after `putAll` exactly when it was before or some entry carries it. */
  lemma {:induction false} PutEntriesKeys<K, V>(m: map<Ref<K>, Ref<V>>, entries: seq<AbstractMaps.Entry<K, V>>, key: Ref<K>)
    ensures key in PutEntries(m, entries) <==> key in m || exists i :: 0 <= i < |entries| && entries[i].key == key
  {
    if |entries| > 0 {
      var init := entries[..|entries| - 1];
      PutEntriesKeys(m, init, key);
      if exists i :: 0 <= i < |init| && init[i].key == key {
        var i :| 0 <= i < |init| && init[i].key == key;
        assert entries[i].key == key;
      }
      if exists i :: 0 <= i < |entries| && entries[i].key == key {
        var i :| 0 <= i < |entries| && entries[i].key == key;
        if i < |init| {
          assert init[i].key == key;
        }
      }
    }
  }

  /** The last entry carrying a key gives its value. */
  lemma {:induction false} PutEntriesLast<K, V>(m: map<Ref<K>, Ref<V>>, entries: seq<AbstractMaps.Entry<K, V>>, key: Ref<K>, i: nat)
    requires i < |entries| && entries[i].key == key
    requires forall i' :: i < i' < |entries| ==> entries[i'].key != key
    ensures key in PutEntries(m, entries) && PutEntries(m, entries)[key] == entries[i].value
  {
    if i < |entries| - 1 {
      var init := entries[..|entries| - 1];
      PutEntriesLast(m, init, key, i);
    }
  }

  /** A key no entry carries keeps its mapping. */
  lemma {:induction false} PutEntriesOthers<K, V>(m: map<Ref<K>, Ref<V>>, entries: seq<AbstractMaps.Entry<K, V>>, key: Ref<K>)
    requires forall i :: 0 <= i < |entries| ==> entries[i].key != key
    ensures key in PutEntries(m, entries) <==> key in m
    ensures key in m ==> PutEntries(m, entries)[key] == m[key]
  {
    if |entries| > 0 {
      PutEntriesOthers(m, entries[..|entries| - 1], key);
    }
  }

  /**
   * The loop of `getNode`, `putVal` and `removeNode` down one chain: the
   * position of the first node with the key (its hash compared first), or -1.
   */
  method SeekInBin<K(==), V>(bin: seq<Node<K, V>>, hash: nat, key: Ref<K>) returns (k: int)
    requires forall i :: 0 <= i < |bin| && bin[i].key == key ==> bin[i].hash == hash
    ensures k == FirstIndex(Keys(bin), key)
  {
    k := 0;
    while k < |bin|
      invariant 0 <= k <= |bin|
      invariant key !in Keys(bin)[..k]
    {
      if bin[k].hash == hash && bin[k].key == key {
        FirstIndexAt(Keys(bin), key, k);
        return;
      }
      assert Keys(bin)[..k + 1] == Keys(bin)[..k] + [bin[k].key];
      k := k + 1;
    }
    assert Keys(bin)[..k] == Keys(bin);
    k := -1;
  }

  /** The `do`-loop of `resize` over one chain: the `lo` and `hi` chains, each in the old order. */
  method SplitBin<K, V>(bin: seq<Node<K, V>>, bit: nat) returns (lo: seq<Node<K, V>>, hi: seq<Node<K, V>>)
    ensures lo == Half(bin, bit, false) && hi == Half(bin, bit, true)
  {
    lo, hi := [], [];
    var i := 0;
    while i < |bin|
      invariant 0 <= i <= |bin|
      invariant lo == Half(bin[..i], bit, false) && hi == Half(bin[..i], bit, true)
    {
      var e := bin[i];
      assert bin[..i + 1] == bin[..i] + [e];
      HalfSnoc(bin[..i], e, bit, false);
      HalfSnoc(bin[..i], e, bit, true);
      if And(e.hash, bit) == 0 {
        lo := lo + [e];
      } else {
        hi := hi + [e];
      }
      i := i + 1;
    }
    assert bin[..|bin|] == bin;
  }

  /**
   * One turn of the `resize` loop: empty old bin `j` and hand its nodes to bins
   * `j` and `j + oldCap` of the new table, a lone node directly by its hash.
   */
  method TransferBin<K, V>(oldTab: array<seq<Node<K, V>>>, newTab: array<seq<Node<K, V>>>, j: nat)
    requires oldTab != newTab && IsPow2(oldTab.Length) && newTab.Length == 2 * oldTab.Length && j < oldTab.Length
    requires forall i :: 0 <= i < |oldTab[j]| ==> Index(oldTab[j][i].hash, oldTab.Length) == j
    requires newTab[j] == [] && newTab[j + oldTab.Length] == []
    modifies oldTab, newTab
    ensures oldTab[..] == old(oldTab[..])[j := []]
    ensures newTab[..] == old(newTab[..])[j := Half(old(oldTab[j]), oldTab.Length, false)]
                                         [j + oldTab.Length := Half(old(oldTab[j]), oldTab.Length, true)]
  {
    var oldCap := oldTab.Length;
    var e := oldTab[j];
    if |e| > 0 {
      Store(oldTab, j, []);
      if |e| == 1 {
        var x := e[0];
        assert e == [x];
        LoneHalves(x, oldCap);
        LoneNode(newTab[..], e, Half(e, oldCap, false), Half(e, oldCap, true), j, Index(x.hash, newTab.Length), oldCap);
        Store(newTab, Index(x.hash, newTab.Length), e);
      } else {
        var lo, hi := SplitBin(e, oldCap);
        PlaceHalves(newTab, j, oldCap, lo, hi);
      }
    } else {
      assert Half(e, oldCap, false) == [] && Half(e, oldCap, true) == [];
      assert oldTab[..] == oldTab[..][j := []];
      assert newTab[..] == newTab[..][j := []][j + oldCap := []];
    }
  }

  /** The tail of one `resize` turn: link the non-empty `lo` and `hi` chains into bins `j` and `j + n`. */
  method PlaceHalves<K, V>(newTab: array<seq<Node<K, V>>>, j: nat, n: nat, lo: seq<Node<K, V>>, hi: seq<Node<K, V>>)
    requires j < n && newTab.Length == 2 * n && newTab[j] == [] && newTab[j + n] == []
    modifies newTab
    ensures newTab[..] == old(newTab[..])[j := lo][j + n := hi]
  {
    if |lo| > 0 {
      Store(newTab, j, lo);
    }
    if |hi| > 0 {
      Store(newTab, j + n, hi);
    }
  }

  /** A lone node goes to the bin of the doubled table that its half is due in. */
  lemma LoneHalves<K, V>(x: Node<K, V>, n: nat)
    requires IsPow2(n)
    ensures var j := Index(x.hash, n);
      var j2 := Index(x.hash, 2 * n);
      && (j2 == j || j2 == j + n)
      && Half([x], n, false) == (if j2 == j then [x] else [])
      && Half([x], n, true) == (if j2 == j then [] else [x])
  {
    IndexSplit(x.hash, n);
    HalfSingle(x, n, false);
    HalfSingle(x, n, true);
  }

  /** Storing a lone chain `e` at `j2` fills bins `j` and `j + n` with its two halves. */
  lemma LoneNode<K, V>(t: seq<seq<Node<K, V>>>, e: seq<Node<K, V>>, lo: seq<Node<K, V>>, hi: seq<Node<K, V>>,
                       j: nat, j2: nat, n: nat)
    requires |t| == 2 * n && j < n && t[j] == [] && t[j + n] == []
    requires j2 == j || j2 == j + n
    requires lo == (if j2 == j then e else []) && hi == (if j2 == j then [] else e)
    ensures t[j2 := e] == t[j := lo][j + n := hi]
  {
  }

  /** The old table after `j` turns of the `resize` loop: the first `j` bins emptied. */
  ghost function Drained<K, V>(bins: seq<seq<Node<K, V>>>, j: nat): (r: seq<seq<Node<K, V>>>)
    ensures |r| == |bins|
    ensures forall k :: 0 <= k < |bins| ==> r[k] == if k < j then [] else bins[k]
  {
    seq(|bins|, k requires 0 <= k < |bins| => if k < j then [] else bins[k])
  }

  /**
   * The new table after `j` turns of the `resize` loop, for the `lo` halves
   * `lo` and the `hi` halves `hi` of the old bins: the first `j` of each in place.
   */
  ghost function Moved<K, V>(lo: seq<seq<Node<K, V>>>, hi: seq<seq<Node<K, V>>>, j: nat): (r: seq<seq<Node<K, V>>>)
    requires |lo| == |hi|
    ensures |r| == 2 * |lo|
    ensures forall k :: 0 <= k < |lo| ==> r[k] == if k < j then lo[k] else []
    ensures forall k :: |lo| <= k < 2 * |lo| ==> r[k] == if k - |lo| < j then hi[k - |lo|] else []
  {
    var n := |lo|;
    seq(2 * n, k requires 0 <= k < 2 * n =>
      if k < n then (if k < j then lo[k] else [])
      else if k - n < j then hi[k - n] else [])
  }

  /** What one more turn of the loop does to `Drained` and `Moved`. */
  lemma TransferStep<K, V>(bins: seq<seq<Node<K, V>>>, lo: seq<seq<Node<K, V>>>, hi: seq<seq<Node<K, V>>>, j: nat)
    requires j < |bins| == |lo| == |hi|
    ensures Drained(bins, j + 1) == Drained(bins, j)[j := []]
    ensures Moved(lo, hi, j + 1) == Moved(lo, hi, j)[j := lo[j]][j + |lo| := hi[j]]
  {
  }

  /** Before the loop the new table is empty; after it, it holds the halves. */
  lemma TransferEnds<K, V>(bins: seq<seq<Node<K, V>>>, lo: seq<seq<Node<K, V>>>, hi: seq<seq<Node<K, V>>>)
    requires |bins| == |lo| == |hi|
    ensures Drained(bins, 0) == bins
    ensures Moved(lo, hi, 0) == EmptyBins(2 * |bins|)
    ensures Moved(lo, hi, |bins|) == lo + hi
    ensures Drained(bins, |bins|) == EmptyBins(|bins|)
  {
  }

  /**
   * The loop of `resize` over the old table: every old bin is emptied and its
   * nodes split between the two new bins above it.
   */
  method TransferAll<K, V>(oldTab: array<seq<Node<K, V>>>, newTab: array<seq<Node<K, V>>>)
    requires oldTab != newTab && IsPow2(oldTab.Length) && newTab.Length == 2 * oldTab.Length
    requires forall j, i :: 0 <= j < oldTab.Length && 0 <= i < |oldTab[j]| ==> Index(oldTab[j][i].hash, oldTab.Length) == j
    requires newTab[..] == EmptyBins(newTab.Length)
    modifies oldTab, newTab
    ensures newTab[..] == Rehash(old(oldTab[..]))
    ensures oldTab[..] == EmptyBins(oldTab.Length)
  {
    ghost var bins := oldTab[..];
    ghost var lo := Halves(bins, oldTab.Length, false);
    ghost var hi := Halves(bins, oldTab.Length, true);
    TransferEnds(bins, lo, hi);
    var j := 0;
    while j < oldTab.Length
      invariant 0 <= j <= oldTab.Length
      invariant oldTab[..] == Drained(bins, j)
      invariant newTab[..] == Moved(lo, hi, j)
    {
      TransferStep(bins, lo, hi, j);
      TransferBin(oldTab, newTab, j);
      j := j + 1;
    }
  }

  /** The loop of `clear`: every bin emptied. */
  method EmptyAll<K, V>(tab: array<seq<Node<K, V>>>)
    modifies tab
    ensures tab[..] == EmptyBins(tab.Length)
  {
    var i := 0;
    while i < tab.Length
      invariant 0 <= i <= tab.Length
      invariant forall k :: 0 <= k < i ==> tab[k] == []
    {
      tab[i] := [];
      i := i + 1;
    }
  }

  /** The bins after linking `x` at the tail of bin `j`. */
  function WithTail<K, V>(bins: seq<seq<Node<K, V>>>, j: nat, x: Node<K, V>): seq<seq<Node<K, V>>>
    requires j < |bins|
  {
    bins[j := bins[j] + [x]]
  }

  /**
   * The capacity `putMapEntries` asks of a table not yet allocated for `s`
   * mappings: `(int) (s / loadFactor + 1)`, or the maximum.
   */
  function PendingCapacity(s: nat, loadFactor: real): (t: int32)
    requires loadFactor > 0.0
    ensures 1 <= t <= MAXIMUM_CAPACITY
    ensures (s as real) / loadFactor + 1.0 >= MAXIMUM_CAPACITY as real ==> t == MAXIMUM_CAPACITY
    ensures (s as real) / loadFactor + 1.0 < MAXIMUM_CAPACITY as real ==>
      t as real <= (s as real) / loadFactor + 1.0 < (t + 1) as real
  {
    var ft := (s as real) / loadFactor + 1.0;
    if ft < MAXIMUM_CAPACITY as real then ft.Floor else MAXIMUM_CAPACITY
  }

  class HashMap<K(==), V(==)> {
    var table: array?<seq<Node<K, V>>>
    var size: nat
    var modCount: int
    var threshold: int32
    const loadFactor: real
    /** `K.hashCode()`; equality of keys is the equality of `Ref<K>`. */
    const hashCode: K -> int32
    /** The mapping the table stands for. */
    ghost var contents: map<Ref<K>, Ref<V>>

    /**
     * The table invariant: no table yet (and then an empty mapping and a
     * pending capacity in `threshold`), or a power-of-two table holding
     * `contents`, with the largest table never due for a resize.
     */
    ghost predicate TableValid()
      reads this`table, this`threshold, this`contents, table
    {
      && loadFactor > 0.0
      && (table == null ==>
            contents == map[] && (threshold == 0 || (IsPow2(threshold) && threshold <= MAXIMUM_CAPACITY)))
      && (table != null ==>
            && IsPow2(table.Length) && table.Length <= MAXIMUM_CAPACITY
            && (table.Length == MAXIMUM_CAPACITY ==> threshold == INT_MAX)
            && Sealed(table[..], contents, HashOf(hashCode), SlotOf(table.Length)))
    }

    /** The table invariant, with `size` counting the mappings. */
    ghost predicate Valid()
      reads this`table, this`threshold, this`contents, this`size, table
    {
      TableValid() && size == |contents| && size <= INT_MAX
    }

    constructor Init(loadFactor: real, threshold: int32, hashCode: K -> int32)
      requires loadFactor > 0.0 && (threshold == 0 || (IsPow2(threshold) && threshold <= MAXIMUM_CAPACITY))
      ensures Valid() && contents == map[] && table == null && modCount == 0
      ensures this.loadFactor == loadFactor && this.threshold == threshold && this.hashCode == hashCode
    {
      this.loadFactor := loadFactor;
      this.threshold := threshold;
      this.hashCode := hashCode;
      table := null;
      size := 0;
      modCount := 0;
      contents := map[];
    }

    /**
     * `new HashMap(initialCapacity, loadFactor)`: refuses a negative capacity
     * or a load factor that is not positive, clamps the capacity to the
     * maximum, and records the first table's capacity, `tableSizeFor` of the
     * clamped one (see `TableSizeForSpec`), in `threshold`.
     */
    static method Create(initialCapacity: int32, loadFactor: real, hashCode: K -> int32) returns (r: Result<HashMap<K, V>>)
      ensures r.Err? <==> initialCapacity < 0 || loadFactor <= 0.0
      ensures r.Err? ==> r.error == IllegalArgument
      ensures r.Ok? ==> fresh(r.value) && r.value.Valid() && r.value.contents == map[] && r.value.table == null
      ensures r.Ok? ==> r.value.loadFactor == loadFactor && r.value.hashCode == hashCode
      ensures r.Ok? ==>
        r.value.threshold == TableSizeFor(if initialCapacity > MAXIMUM_CAPACITY then MAXIMUM_CAPACITY else initialCapacity)
    {
      if initialCapacity < 0 {
        return Err(IllegalArgument);
      }
      var capacity := initialCapacity;
      if capacity > MAXIMUM_CAPACITY {
        capacity := MAXIMUM_CAPACITY;
      }
      if loadFactor <= 0.0 {
        return Err(IllegalArgument);
      }
      TableSizeForSpec(capacity);
      var m := new HashMap.Init(loadFactor, TableSizeFor(capacity), hashCode);
      return Ok(m);
    }

    /** `new HashMap(initialCapacity)`: the default load factor. */
    static method WithCapacity(initialCapacity: int32, hashCode: K -> int32) returns (r: Result<HashMap<K, V>>)
      ensures r.Err? <==> initialCapacity < 0
      ensures r.Ok? ==> fresh(r.value) && r.value.Valid() && r.value.contents == map[]
      ensures r.Ok? ==> r.value.loadFactor == DEFAULT_LOAD_FACTOR
    {
      r := Create(initialCapacity, DEFAULT_LOAD_FACTOR, hashCode);
    }

    /** `new HashMap(m)`, where `entries` is what iterating `m.entrySet()` yields. */
    static method FromMap(entries: seq<AbstractMaps.Entry<K, V>>, hashCode: K -> int32) returns (m: HashMap<K, V>)
      requires |entries| <= INT_MAX
      ensures fresh(m) && m.Valid() && m.loadFactor == DEFAULT_LOAD_FACTOR
      ensures m.contents == PutEntries(map[], entries)
    {
      m := new HashMap.Init(DEFAULT_LOAD_FACTOR, 0, hashCode);
      m.PutMapEntries(entries);
    }

    /**
     * `putMapEntries(m, evict)`: size the pending table for the incoming
     * entries (or resize a table whose threshold they pass), then put them
     * one by one.
     */
    method PutMapEntries(entries: seq<AbstractMaps.Entry<K, V>>)
      requires Valid() && size + |entries| <= INT_MAX
      modifies this, table
      ensures Valid() && contents == PutEntries(old(contents), entries)
      ensures table == old(table) || (table != null && fresh(table))
    {
      var s := |entries|;
      if s > 0 {
        Reserve(s);
        PutEach(entries);
      }
    }

    /**
     * The sizing step of `putMapEntries` for `s` incoming mappings: raise the
     * pending capacity of a map with no table yet, or resize a table whose
     * threshold `s` alone passes.
     */
    method Reserve(s: nat)
      requires Valid() && s <= INT_MAX
      modifies this, table
      ensures Valid() && contents == old(contents)
      ensures table == old(table) || (table != null && fresh(table))
      ensures old(table) == null ==>
        && table == null
        && threshold == (if PendingCapacity(s, loadFactor) > old(threshold)
                         then TableSizeFor(PendingCapacity(s, loadFactor)) else old(threshold))
      ensures old(table) != null && s <= old(threshold) ==>
        table == old(table) && table[..] == old(table[..]) && threshold == old(threshold)
      ensures old(table) != null && s > old(threshold) ==>
        fresh(table) && table.Length == 2 * old(table.Length) && table[..] == Rehash(old(table[..]))
    {
      if table == null {
        var t := PendingCapacity(s, loadFactor);
        if t > threshold {
          TableSizeForSpec(t);
          threshold := TableSizeFor(t);
        }
      } else if s > threshold {
        Resize();
      }
    }

    /** The loop of `putMapEntries`: `putVal` of each entry in turn. */
    method PutEach(entries: seq<AbstractMaps.Entry<K, V>>)
      requires Valid() && size + |entries| <= INT_MAX
      modifies this, table
      ensures Valid() && contents == PutEntries(old(contents), entries)
      ensures table == old(table) || (table != null && fresh(table))
    {
      var i := 0;
      while i < |entries|
        invariant 0 <= i <= |entries|
        invariant Valid() && contents == PutEntries(old(contents), entries[..i])
        invariant size <= old(size) + i
        invariant table == old(table) || (table != null && fresh(table))
      {
        var e := entries[i];
        PutEntriesStep(old(contents), entries, i);
        var _ := PutVal(Hash(e.key, hashCode), e.key, e.value, false);
        i := i + 1;
      }
      assert entries[..|entries|] == entries;
    }

    /** `putAll(m)` */
    method PutAll(entries: seq<AbstractMaps.Entry<K, V>>)
      requires Valid() && size + |entries| <= INT_MAX
      modifies this, table
      ensures Valid() && contents == PutEntries(old(contents), entries)
      ensures table == old(table) || (table != null && fresh(table))
    {
      PutMapEntries(entries);
    }

    method Size() returns (r: int32)
      requires Valid()
      ensures r == |contents|
    {
      return size;
    }

    method IsEmpty() returns (r: bool)
      requires Valid()
      ensures r <==> contents == map[]
    {
      return size == 0;
    }

    /**
     * `getNode(hash, key)` with the lookup guarded as intended: the node of
     * `key`, or null when the table, the bin or the chain has none.
     */
    method GetNode(hash: nat, key: Ref<K>) returns (e: Ref<Node<K, V>>)
      requires Valid() && hash == Hash(key, hashCode)
      ensures e.Obj? <==> key in contents
      ensures e.Obj? ==> e.target == Node(hash, key, contents[key])
    {
      var tab := table;
      if tab != null {
        FindKey(tab[..], contents, HashOf(hashCode), SlotOf(tab.Length), key);
        var bin := tab[Index(hash, tab.Length)];
        if |bin| > 0 {
          var k := SeekInBin(bin, hash, key);
          if k >= 0 {
            return Obj(bin[k]);
          }
        }
      }
      return Null;
    }

    /**
     * `getNode(hash, key)` as written: the chain walk sits outside the guard,
     * so with no table or an empty bin `first.next` dereferences null.
     */
    method GetNodeAsWritten(hash: nat, key: Ref<K>) returns (r: Result<Ref<Node<K, V>>>)
      requires Valid() && hash == Hash(key, hashCode)
      ensures r.Err? <==> table == null || |table[Index(hash, table.Length)]| == 0
      ensures r.Err? ==> r.error == NullPointer && key !in contents
      ensures key in contents ==> r == Ok(Obj(Node(hash, key, contents[key])))
      ensures r.Ok? && key !in contents ==> r == Ok(Null)
    {
      var tab := table;
      if tab == null {
        return Err(NullPointer);
      }
      FindKey(tab[..], contents, HashOf(hashCode), SlotOf(tab.Length), key);
      var bin := tab[Index(hash, tab.Length)];
      if |bin| == 0 {
        return Err(NullPointer);
      }
      var k := SeekInBin(bin, hash, key);
      if k >= 0 {
        return Ok(Obj(bin[k]));
      }
      return Ok(Null);
    }

    /** `get(key)`: the value of `key`, or null when it is not mapped. */
    method Get(key: Ref<K>) returns (r: Ref<V>)
      requires Valid()
      ensures r == if key in contents then contents[key] else Null
    {
      var e := GetNode(Hash(key, hashCode), key);
      return if e.Null? then Null else e.target.value;
    }

    method ContainsKey(key: Ref<K>) returns (r: bool)
      requires Valid()
      ensures r <==> key in contents
    {
      var e := GetNode(Hash(key, hashCode), key);
      return e.Obj?;
    }

    /**
     * `putVal(hash, key, value, onlyIfAbsent, evict)`: allocate the first
     * table; put a new node in an empty bin, or replace the value of the
     * key's node (unless `onlyIfAbsent` and it is not null), or append a node
     * to the chain, treeifying a chain that already had 8 nodes; then count
     * the new mapping and resize when `size` passes the threshold. Returns the
     * old value, or null for a new key.
     */
    method PutVal(hash: nat, key: Ref<K>, value: Ref<V>, onlyIfAbsent: bool) returns (r: Ref<V>)
      requires Valid() && hash == Hash(key, hashCode)
      requires key in contents || size < INT_MAX
      modifies this, table
      ensures Valid()
      ensures table != null && (table == old(table) || fresh(table))
      ensures r == if key in old(contents) then old(contents)[key] else Null
      ensures contents ==
        if key in old(contents) && onlyIfAbsent && old(contents)[key] != Null then old(contents)
        else old(contents)[key := value]
      ensures modCount == old(modCount) + (if key in old(contents) then 0 else 1)
      ensures old(table) != null && key in old(contents) ==> table == old(table) && threshold == old(threshold)
      ensures old(table) != null && key !in old(contents) && |old(table[Index(hash, table.Length)])| < TREEIFY_THRESHOLD ==>
        var appended := WithTail(old(table[..]), Index(hash, old(table.Length)), Node(hash, key, value));
        && (old(size) + 1 <= old(threshold) ==> table == old(table) && table[..] == appended)
        && (old(size) + 1 > old(threshold) ==> fresh(table) && table[..] == Rehash(appended))
    {
      if table == null {
        Resize();
      }
      var i, k := Locate(hash, key);
      if k >= 0 {
        var oldValue := table[i][k].value;
        if !onlyIfAbsent || oldValue == Null {
          Replace(i, k, key, value);
        }
        return oldValue;
      }
      AddNode(i, key, value, |table[i]|);
      return Null;
    }

    /** The bin of `hash` and the position in it of the node of `key`, or -1: the search `putVal` and `removeNode` share. */
    method Locate(hash: nat, key: Ref<K>) returns (index: nat, k: int)
      requires Valid() && table != null && hash == Hash(key, hashCode)
      ensures index == Index(hash, table.Length) && -1 <= k < |table[index]|
      ensures k == FirstIndex(Keys(table[index]), key)
      ensures k >= 0 <==> key in contents
      ensures k >= 0 ==> table[index][k] == Node(hash, key, contents[key])
    {
      var tab := table;
      index := Index(hash, tab.Length);
      var bin := tab[index];
      assert FindsKey(bin, hash, key, contents) by {
        FindKey(tab[..], contents, HashOf(hashCode), SlotOf(tab.Length), key);
      }
      k := SeekInBin(bin, hash, key);
    }

    /**
     * The new-key path of `putVal`: link the node into bin `index`, which
     * held `binCount` nodes, treeify a chain that already had 8 nodes, count
     * the modification and the mapping, and resize once `size` passes the
     * threshold.
     */
    method AddNode(index: nat, key: Ref<K>, value: Ref<V>, binCount: nat)
      requires Valid() && table != null && key !in contents && size < INT_MAX
      requires index == Index(Hash(key, hashCode), table.Length) && binCount == |table[index]|
      modifies this, table
      ensures Valid() && (table == old(table) || fresh(table))
      ensures contents == old(contents)[key := value] && modCount == old(modCount) + 1
      ensures binCount < TREEIFY_THRESHOLD || old(table.Length) >= MIN_TREEIFY_CAPACITY ==>
        var appended := WithTail(old(table[..]), index, Node(Hash(key, hashCode), key, value));
        && (old(size) + 1 <= old(threshold) ==> table == old(table) && table[..] == appended && threshold == old(threshold))
        && (old(size) + 1 > old(threshold) ==>
              fresh(table) && table.Length == 2 * old(table.Length) && table[..] == Rehash(appended))
      ensures binCount >= TREEIFY_THRESHOLD && old(table.Length) < MIN_TREEIFY_CAPACITY ==>
        var appended := WithTail(old(table[..]), index, Node(Hash(key, hashCode), key, value));
        fresh(table) && table[..] ==
          if old(size) + 1 > ResizeSizing(old(table.Length), old(threshold), loadFactor).newThr
          then Rehash(Rehash(appended)) else Rehash(appended)
    {
      ghost var appended := WithTail(table[..], index, Node(Hash(key, hashCode), key, value));
      ghost var treeified := binCount >= TREEIFY_THRESHOLD && table.Length < MIN_TREEIFY_CAPACITY;
      Link(index, key, value, binCount);
      assert table[..] == if treeified then Rehash(appended) else appended;
      modCount := modCount + 1;
      size := size + 1;
      ResizeIfFull();
    }

    /** Append the node, then treeify a chain that already had `TREEIFY_THRESHOLD` nodes. */
    method Link(index: nat, key: Ref<K>, value: Ref<V>, binCount: nat)
      requires Valid() && table != null && key !in contents && size < INT_MAX
      requires index == Index(Hash(key, hashCode), table.Length) && binCount == |table[index]|
      modifies this, table
      ensures TableValid() && table != null && (table == old(table) || fresh(table))
      ensures contents == old(contents)[key := value] && |contents| == size + 1
      ensures size == old(size) && modCount == old(modCount)
      ensures binCount < TREEIFY_THRESHOLD || old(table.Length) >= MIN_TREEIFY_CAPACITY ==>
        && table == old(table) && threshold == old(threshold)
        && table[..] == WithTail(old(table[..]), index, Node(Hash(key, hashCode), key, value))
      ensures binCount >= TREEIFY_THRESHOLD && old(table.Length) < MIN_TREEIFY_CAPACITY ==>
        && fresh(table) && table.Length == 2 * old(table.Length)
        && table[..] == Rehash(WithTail(old(table[..]), index, Node(Hash(key, hashCode), key, value)))
        && threshold == ResizeSizing(old(table.Length), old(threshold), loadFactor).newThr
    {
      Append(index, key, value);
      if binCount >= TREEIFY_THRESHOLD {
        TreeifyBin(Hash(key, hashCode));
      }
    }

    /** `if (++size > threshold) resize();`, once `size` has been counted. */
    method ResizeIfFull()
      requires Valid() && table != null
      modifies this, table
      ensures Valid() && (table == old(table) || fresh(table))
      ensures contents == old(contents) && modCount == old(modCount)
      ensures old(size) <= old(threshold) ==>
        table == old(table) && table[..] == old(table[..]) && threshold == old(threshold)
      ensures old(size) > old(threshold) ==>
        && fresh(table) && table.Length == 2 * old(table.Length) && table[..] == Rehash(old(table[..]))
        && threshold == ResizeSizing(old(table.Length), old(threshold), loadFactor).newThr
    {
      if size > threshold {
        Resize();
      }
    }

    /** Replace the node of `key`, at position `k` of bin `index`, by one holding `value`. */
    method Replace(index: nat, k: nat, key: Ref<K>, value: Ref<V>)
      requires Valid() && table != null && key in contents
      requires index == Index(Hash(key, hashCode), table.Length)
      requires k < |table[index]| && k == FirstIndex(Keys(table[index]), key)
      modifies this, table
      ensures Valid() && table == old(table) && threshold == old(threshold)
      ensures contents == old(contents)[key := value] && modCount == old(modCount)
      ensures table[..] == old(table[..])[index := old(table[index])[k := Node(Hash(key, hashCode), key, value)]]
    {
      ghost var c0 := contents;
      ghost var b0 := table[..];
      Store(table, index, table[index][k := Node(Hash(key, hashCode), key, value)]);
      ReplaceAt(b0, c0, HashOf(hashCode), SlotOf(table.Length), key, value, index, k, table[..]);
      contents := contents[key := value];
    }

    /**
     * Link a node for the unmapped `key` at the tail of bin `index` (the
     * head, when the bin is empty); `size` is counted by the caller.
     */
    method Append(index: nat, key: Ref<K>, value: Ref<V>)
      requires Valid() && table != null && key !in contents && size < INT_MAX
      requires index == Index(Hash(key, hashCode), table.Length)
      modifies this, table
      ensures TableValid() && table == old(table) && threshold == old(threshold)
      ensures contents == old(contents)[key := value] && |contents| == size + 1
      ensures size == old(size) && modCount == old(modCount)
      ensures table[..] == WithTail(old(table[..]), index, Node(Hash(key, hashCode), key, value))
    {
      ghost var c0 := contents;
      ghost var b0 := table[..];
      Store(table, index, table[index] + [Node(Hash(key, hashCode), key, value)]);
      AppendAt(b0, c0, HashOf(hashCode), SlotOf(table.Length), key, value, index, table[..]);
      contents := contents[key := value];
    }

    /** `put(key, value)`: map `key` to `value`, returning the value it replaced or null. */
    method Put(key: Ref<K>, value: Ref<V>) returns (r: Ref<V>)
      requires Valid() && (key in contents || size < INT_MAX)
      modifies this, table
      ensures Valid()
      ensures table != null && (table == old(table) || fresh(table))
      ensures r == if key in old(contents) then old(contents)[key] else Null
      ensures contents == old(contents)[key := value]
    {
      r := PutVal(Hash(key, hashCode), key, value, false);
    }

    /**
     * `treeifyBin(tab, hash)` for a chain that grew past 8 nodes: a table
     * below 64 bins is resized instead. Tree bins are not part of this model,
     * so a larger table is left as it is (a tree bin holds the same mapping).
     */
    method TreeifyBin(hash: nat)
      requires TableValid() && table != null
      modifies this, table
      ensures TableValid() && table != null && contents == old(contents)
      ensures size == old(size) && modCount == old(modCount)
      ensures old(table.Length) < MIN_TREEIFY_CAPACITY ==>
        fresh(table) && table.Length == 2 * old(table.Length) && table[..] == Rehash(old(table[..]))
      ensures old(table.Length) >= MIN_TREEIFY_CAPACITY ==> table == old(table) && table[..] == old(table[..])
      ensures threshold ==
        if old(table.Length) < MIN_TREEIFY_CAPACITY then ResizeSizing(old(table.Length), old(threshold), loadFactor).newThr
        else old(threshold)
    {
      if table.Length < MIN_TREEIFY_CAPACITY {
        Pow2Values();
        Resize();
      }
    }

    /**
     * `resize()`: allocate the next table (see `ResizeSizing`) and move every
     * chain of the old one into it, splitting chain `j` into `j` and
     * `j + oldCap` by the bit `oldCap` of the hash; the old bins are emptied.
     */
    method Resize()
      requires TableValid() && (table == null || table.Length < MAXIMUM_CAPACITY)
      modifies this, table
      ensures TableValid() && contents == old(contents) && size == old(size) && modCount == old(modCount)
      ensures table != null && fresh(table)
      ensures var s := ResizeSizing(if old(table) == null then 0 else old(table).Length, old(threshold), loadFactor);
        table.Length == s.newCap && threshold == s.newThr
      ensures old(table) == null ==> table[..] == EmptyBins(table.Length)
      ensures old(table) != null ==> table[..] == Rehash(old(table[..]))
      ensures old(table) != null ==> old(table)[..] == EmptyBins(old(table).Length)
    {
      var oldTab := table;
      var oldCap := if oldTab == null then 0 else oldTab.Length;
      ResizeSizingValid(oldCap, threshold, loadFactor);
      var s := ResizeSizing(oldCap, threshold, loadFactor);
      threshold := s.newThr;
      var newTab := new seq<Node<K, V>>[s.newCap](_ => []);
      assert newTab[..] == EmptyBins(s.newCap);
      table := newTab;
      if oldTab == null {
        SealedEmpty<K, V>(s.newCap, HashOf(hashCode), SlotOf(s.newCap));
      } else {
        SealedRehash(oldTab[..], contents, HashOf(hashCode), oldCap);
        TransferAll(oldTab, newTab);
      }
    }

    /**
     * `removeNode(hash, key, value, matchValue, movable)`: unlink the node of
     * `key` (when `matchValue`, only if it holds `value`) and return it, or
     * return null and change nothing.
     */
    method RemoveNode(hash: nat, key: Ref<K>, value: Ref<V>, matchValue: bool) returns (r: Ref<Node<K, V>>)
      requires Valid() && hash == Hash(key, hashCode)
      modifies this, table
      ensures Valid() && table == old(table) && threshold == old(threshold)
      ensures var removed := key in old(contents) && (!matchValue || old(contents)[key] == value);
        && (removed ==> r == Obj(Node(hash, key, old(contents)[key])) && contents == old(contents) - {key}
                        && modCount == old(modCount) + 1)
        && (!removed ==> r == Null && contents == old(contents) && modCount == old(modCount))
    {
      if table != null {
        var index, k := Locate(hash, key);
        if k >= 0 && (!matchValue || table[index][k].value == value) {
          var node := table[index][k];
          Unlink(index, k, key);
          return Obj(node);
        }
      }
      return Null;
    }

    /** Unlink the node of `key`, at position `k` of bin `index`, counting the modification. */
    method Unlink(index: nat, k: nat, key: Ref<K>)
      requires Valid() && table != null && key in contents
      requires index == Index(Hash(key, hashCode), table.Length)
      requires k < |table[index]| && k == FirstIndex(Keys(table[index]), key)
      modifies this, table
      ensures Valid() && table == old(table) && threshold == old(threshold)
      ensures contents == old(contents) - {key} && modCount == old(modCount) + 1
    {
      Detach(index, k, key);
      modCount := modCount + 1;
      size := size - 1;
    }

    /** Take the node of `key` out of its chain; `size` is counted by the caller. */
    method Detach(index: nat, k: nat, key: Ref<K>)
      requires Valid() && table != null && key in contents
      requires index == Index(Hash(key, hashCode), table.Length)
      requires k < |table[index]| && k == FirstIndex(Keys(table[index]), key)
      modifies this, table
      ensures TableValid() && table == old(table) && threshold == old(threshold)
      ensures contents == old(contents) - {key} && |contents| == size - 1
      ensures size == old(size) && modCount == old(modCount)
    {
      ghost var c0 := contents;
      ghost var b0 := table[..];
      Store(table, index, DeleteAt(table[index], k));
      RemoveAt(b0, c0, HashOf(hashCode), SlotOf(table.Length), key, index, k, table[..]);
      contents := contents - {key};
    }

    /** `remove(key)`: unmap `key`, returning its old value or null. */
    method Remove(key: Ref<K>) returns (r: Ref<V>)
      requires Valid()
      modifies this, table
      ensures Valid() && table == old(table)
      ensures r == if key in old(contents) then old(contents)[key] else Null
      ensures contents == old(contents) - {key}
    {
      var e := RemoveNode(Hash(key, hashCode), key, Null, false);
      return if e.Null? then Null else e.target.value;
    }

    /** `clear()`: count a modification and empty every bin of a non-empty map. */
    method Clear()
      requires Valid()
      modifies this, table
      ensures Valid() && contents == map[] && modCount == old(modCount) + 1
      ensures table == old(table) && threshold == old(threshold)
      ensures table != null ==> forall j :: 0 <= j < table.Length ==> table[j] == []
    {
      modCount := modCount + 1;
      var tab := table;
      if tab != null && size > 0 {
        size := 0;
        EmptyAll(tab);
        SealedEmpty<K, V>(tab.Length, HashOf(hashCode), SlotOf(tab.Length));
      } else if tab != null {
        SealedEmptyBins(tab[..], contents, HashOf(hashCode), SlotOf(tab.Length));
      }
      contents := map[];
    }

    /** `containsValue(value)`: walk every chain of a non-empty map for a node holding `value`. */
    method ContainsValue(value: Ref<V>) returns (r: bool)
      requires Valid()
      ensures r <==> value in contents.Values
    {
      var tab := table;
      if tab != null && size > 0 {
        FindValue(tab[..], contents, HashOf(hashCode), SlotOf(tab.Length), value);
        var i := 0;
        while i < tab.Length
          invariant 0 <= i <= tab.Length
          invariant forall j, k :: 0 <= j < i && 0 <= k < |tab[j]| ==> tab[j][k].value != value
        {
          var bin := tab[i];
          var k := 0;
          while k < |bin|
            invariant 0 <= k <= |bin|
            invariant forall m :: 0 <= m < k ==> bin[m].value != value
          {
            if bin[k].value == value {
              assert tab[..][i][k].value == value;
              return true;
            }
            k := k + 1;
          }
          i := i + 1;
        }
        return false;
      }
      return false;
    }
  }

  /**
   * `put(k, v)`, `clear()`, then `get(k)`: the table is allocated but the bin
   * of `k` is empty, so the lookup as written throws where the intended one
   * answers null.
   */
  method GetAfterClear() returns (asWritten: Result<Ref<Node<int32, int>>>, intended: Ref<Node<int32, int>>)
    ensures asWritten == Err(NullPointer)
    ensures intended == Null
  {
    var hashCode: int32 -> int32 := k => k;
    var m := new HashMap<int32, int>.Init(DEFAULT_LOAD_FACTOR, 0, hashCode);
    var key: Ref<int32> := Obj(1);
    var _ := m.Put(key, Obj(7));
    m.Clear();
    asWritten := m.GetNodeAsWritten(Hash(key, m.hashCode), key);
    intended := m.GetNode(Hash(key, m.hashCode), key);
  }
}

=== FILE: hash_table.dfy ===
/**
 * The chained hash table of `HashMap`: a power-of-two array of bins, each bin a
 * chain of nodes in insertion order, a node carrying the spread hash of its
 * key. A bin is a sequence of `Node` values here; the table is an array of
 * bins, and a ghost map `contents` is the mapping the table stands for.
 */
module HashTables {
  import opened JavaLang
  import opened Bits
  import opened ListSpec

  const DEFAULT_INITIAL_CAPACITY: nat := 16
  const DEFAULT_LOAD_FACTOR: real := 0.75
  /** `(int) (DEFAULT_LOAD_FACTOR * DEFAULT_INITIAL_CAPACITY)` */
  const DEFAULT_THRESHOLD: nat := 12
  const TREEIFY_THRESHOLD: nat := 8
  const MIN_TREEIFY_CAPACITY: nat := 64

  /** `HashMap.Node` without its `next` link: the chain order is the order in the bin. */
  datatype Node<K, V> = Node(hash: nat, key: Ref<K>, value: Ref<V>)

  /** The keys of a bin, in chain order. */
  function Keys<K, V>(bin: seq<Node<K, V>>): (ks: seq<Ref<K>>)
    ensures |ks| == |bin|
    ensures forall i :: 0 <= i < |bin| ==> ks[i] == bin[i].key
  {
    seq(|bin|, i requires 0 <= i < |bin| => bin[i].key)
  }

  /** `n` empty bins: a freshly allocated table. */
  function EmptyBins<K, V>(n: nat): (bins: seq<seq<Node<K, V>>>)
    ensures |bins| == n && forall j :: 0 <= j < n ==> bins[j] == []
  {
    seq(n, _ => [])
  }

  /** No key occurs twice in a bin. */
  ghost predicate DistinctBin<K, V>(bin: seq<Node<K, V>>)
  {
    forall i1, i2 :: 0 <= i1 < i2 < |bin| ==> bin[i1].key != bin[i2].key
  }

  // ---------------------------------------------------------------------------
  // The table invariant
  //
  // The invariant is stated for any way `hashOf` of hashing keys and `slot` of
  // choosing a bin for a hash; the map instantiates them with `hash(key)` and
  // `(n - 1) & hash` (`HashOf`, `SlotOf`).

  /** `hash(key)` as a function value. */
  function HashOf<K>(hashCode: K -> int32): Ref<K> -> nat
  {
    key => Hash(key, hashCode)
  }

  /** `(n - 1) & hash` as a function value, for a table of `n` bins. */
  function SlotOf(n: nat): (f: nat -> nat)
    requires n >= 1
    ensures forall h :: f(h) == Index(h, n)
  {
    h => Index(h, n)
  }

  /** Every node carries the hash of its key and sits in the bin that hash selects. */
  ghost predicate WellPlaced<K, V>(bins: seq<seq<Node<K, V>>>, hashOf: Ref<K> -> nat, slot: nat -> nat)
  {
    forall j, i :: 0 <= j < |bins| && 0 <= i < |bins[j]| ==>
      bins[j][i].hash == hashOf(bins[j][i].key) && slot(bins[j][i].hash) == j
  }

  ghost predicate DistinctBins<K, V>(bins: seq<seq<Node<K, V>>>)
  {
    forall j :: 0 <= j < |bins| ==> DistinctBin(bins[j])
  }

  /**
   * The nodes are exactly the entries of `contents`: each node is an entry,
   * and each key of `contents` is found in the bin its hash selects.
   */
  ghost predicate Represents<K, V>(bins: seq<seq<Node<K, V>>>, contents: map<Ref<K>, Ref<V>>,
                                   hashOf: Ref<K> -> nat, slot: nat -> nat)
  {
    && (forall j, i :: 0 <= j < |bins| && 0 <= i < |bins[j]| ==>
          bins[j][i].key in contents && contents[bins[j][i].key] == bins[j][i].value)
    && (forall key :: key in contents ==> slot(hashOf(key)) < |bins| && key in Keys(bins[slot(hashOf(key))]))
  }

  /** `bins` is a table holding the mapping `contents`. */
  ghost predicate TableOf<K, V>(bins: seq<seq<Node<K, V>>>, contents: map<Ref<K>, Ref<V>>,
                                hashOf: Ref<K> -> nat, slot: nat -> nat)
  {
    && (forall h :: slot(h) < |bins|)
    && WellPlaced(bins, hashOf, slot)
    && DistinctBins(bins)
    && Represents(bins, contents, hashOf, slot)
  }

  /** A fresh table of empty bins holds the empty mapping. */
  lemma EmptyTable<K, V>(n: nat, hashOf: Ref<K> -> nat, slot: nat -> nat)
    requires forall h :: slot(h) < n
    ensures TableOf(EmptyBins<K, V>(n), map[], hashOf, slot)
  {
  }

  /** A table holding the empty mapping has only empty bins. */
  lemma EmptyContents<K, V>(bins: seq<seq<Node<K, V>>>, contents: map<Ref<K>, Ref<V>>,
                            hashOf: Ref<K> -> nat, slot: nat -> nat)
    requires TableOf(bins, contents, hashOf, slot) && contents == map[]
    ensures forall j :: 0 <= j < |bins| ==> bins[j] == []
  {
    forall j | 0 <= j < |bins|
      ensures bins[j] == []
    {
      NodeMeansEntry(bins[j], contents);
    }
  }

  /** A bin whose every key is mapped is empty or the mapping is not. */
  lemma NodeMeansEntry<K, V>(bin: seq<Node<K, V>>, contents: map<Ref<K>, Ref<V>>)
    requires forall i :: 0 <= i < |bin| ==> bin[i].key in contents
    ensures |bin| > 0 ==> |contents| > 0
  {
    if |bin| > 0 {
      assert bin[0].key in contents;
    }
  }

  /**
   * Looking a key up in its bin: it is there exactly when the mapping has it,
   * and the node found holds its hash and its value.
   */
  lemma Lookup<K, V>(bins: seq<seq<Node<K, V>>>, contents: map<Ref<K>, Ref<V>>,
                     hashOf: Ref<K> -> nat, slot: nat -> nat, key: Ref<K>)
    requires TableOf(bins, contents, hashOf, slot)
    ensures slot(hashOf(key)) < |bins|
    ensures var bin := bins[slot(hashOf(key))];
      var k := FirstIndex(Keys(bin), key);
      && (key in contents <==> k >= 0)
      && (k >= 0 ==> bin[k] == Node(hashOf(key), key, contents[key]))
  {
  }

  /** A value is mapped exactly when some node of the table holds it. */
  lemma ValueInTable<K, V>(bins: seq<seq<Node<K, V>>>, contents: map<Ref<K>, Ref<V>>,
                           hashOf: Ref<K> -> nat, slot: nat -> nat, value: Ref<V>)
    requires TableOf(bins, contents, hashOf, slot)
    ensures value in contents.Values <==>
      exists j, i :: 0 <= j < |bins| && 0 <= i < |bins[j]| && bins[j][i].value == value
  {
    if value in contents.Values {
      var key :| key in contents && contents[key] == value;
      var j := slot(hashOf(key));
      assert key in Keys(bins[j]);
      var i :| 0 <= i < |bins[j]| && bins[j][i].key == key;
      assert bins[j][i].value == value;
    }
    if exists j, i :: 0 <= j < |bins| && 0 <= i < |bins[j]| && bins[j][i].value == value {
      var j, i :| 0 <= j < |bins| && 0 <= i < |bins[j]| && bins[j][i].value == value;
      assert contents[bins[j][i].key] == value;
    }
  }

  /**
   * Replacing the bin `j` of `key` by `bin`, where the mapping changes at
   * `key` only, keeps the table invariant, provided the new bin is placed and
   * keyed that way itself and keeps the other keys of the old bin.
   */
  lemma UpdateBin<K, V>(bins: seq<seq<Node<K, V>>>, contents: map<Ref<K>, Ref<V>>,
                        hashOf: Ref<K> -> nat, slot: nat -> nat,
                        key: Ref<K>, bin: seq<Node<K, V>>, contents': map<Ref<K>, Ref<V>>)
    requires TableOf(bins, contents, hashOf, slot)
    requires forall k :: k != key ==> (k in contents' <==> k in contents)
    requires forall k :: k != key && k in contents ==> contents'[k] == contents[k]
    requires forall i :: 0 <= i < |bin| ==> bin[i].hash == hashOf(bin[i].key) && slot(bin[i].hash) == slot(hashOf(key))
    requires DistinctBin(bin)
    requires forall i :: 0 <= i < |bin| ==> bin[i].key in contents' && contents'[bin[i].key] == bin[i].value
    requires key in contents' ==> key in Keys(bin)
    requires forall k :: k != key && k in Keys(bins[slot(hashOf(key))]) ==> k in Keys(bin)
    ensures TableOf(bins[slot(hashOf(key)) := bin], contents', hashOf, slot)
  {
    var j := slot(hashOf(key));
    var bins': seq<seq<Node<K, V>>> := bins[j := bin];
    forall j1: int, i: int | 0 <= j1 < |bins'| && 0 <= i < |bins'[j1]|
      ensures bins'[j1][i].hash == hashOf(bins'[j1][i].key) && slot(bins'[j1][i].hash) == j1
      ensures bins'[j1][i].key in contents' && contents'[bins'[j1][i].key] == bins'[j1][i].value
    {
      if j1 != j {
        assert bins'[j1][i] == bins[j1][i];
        assert bins[j1][i].key != key;
      }
    }
    forall k | k in contents'
      ensures slot(hashOf(k)) < |bins'| && k in Keys(bins'[slot(hashOf(k))])
    {
      if k != key {
        assert k in Keys(bins[slot(hashOf(k))]);
      }
    }
  }

  /** Replacing the value of a present key in its node. */
  lemma PutPresent<K, V>(bins: seq<seq<Node<K, V>>>, contents: map<Ref<K>, Ref<V>>,
                         hashOf: Ref<K> -> nat, slot: nat -> nat, key: Ref<K>, value: Ref<V>)
    requires TableOf(bins, contents, hashOf, slot) && key in contents
    ensures slot(hashOf(key)) < |bins|
    ensures var j := slot(hashOf(key));
      var k := FirstIndex(Keys(bins[j]), key);
      && 0 <= k < |bins[j]|
      && TableOf(bins[j := bins[j][k := Node(hashOf(key), key, value)]], contents[key := value], hashOf, slot)
  {
    Lookup(bins, contents, hashOf, slot, key);
    var j := slot(hashOf(key));
    var bin := bins[j];
    var k := FirstIndex(Keys(bin), key);
    assert DistinctBin(bin);
    ReplaceInBin(bin, k, value, contents, hashOf, slot, j);
    UpdateBin(bins, contents, hashOf, slot, key, bin[k := Node(hashOf(key), key, value)], contents[key := value]);
  }

  /** The bin-level facts behind `PutPresent`. */
  lemma ReplaceInBin<K, V>(bin: seq<Node<K, V>>, k: nat, value: Ref<V>, contents: map<Ref<K>, Ref<V>>,
                           hashOf: Ref<K> -> nat, slot: nat -> nat, j: nat)
    requires k < |bin| && DistinctBin(bin)
    requires forall i :: 0 <= i < |bin| ==> bin[i].hash == hashOf(bin[i].key) && slot(bin[i].hash) == j
    requires forall i :: 0 <= i < |bin| ==> bin[i].key in contents && contents[bin[i].key] == bin[i].value
    ensures var key := bin[k].key;
      var bin' := bin[k := Node(hashOf(key), key, value)];
      && Keys(bin') == Keys(bin)
      && DistinctBin(bin')
      && (forall i :: 0 <= i < |bin'| ==> bin'[i].hash == hashOf(bin'[i].key) && slot(bin'[i].hash) == j)
      && (forall i :: 0 <= i < |bin'| ==>
            bin'[i].key in contents[key := value] && contents[key := value][bin'[i].key] == bin'[i].value)
  {
    var key := bin[k].key;
    var bin' := bin[k := Node(hashOf(key), key, value)];
    assert Keys(bin') == Keys(bin);
    assert forall i :: 0 <= i < |bin| && i != k ==> bin[i].key != key;
  }

  /** Appending a node for an absent key to the tail of its bin. */
  lemma PutAbsent<K, V>(bins: seq<seq<Node<K, V>>>, contents: map<Ref<K>, Ref<V>>,
                        hashOf: Ref<K> -> nat, slot: nat -> nat, key: Ref<K>, value: Ref<V>)
    requires TableOf(bins, contents, hashOf, slot) && key !in contents
    ensures slot(hashOf(key)) < |bins|
    ensures var j := slot(hashOf(key));
      TableOf(bins[j := bins[j] + [Node(hashOf(key), key, value)]], contents[key := value], hashOf, slot)
  {
    var j := slot(hashOf(key));
    var bin := bins[j];
    var bin' := bin + [Node(hashOf(key), key, value)];
    var contents' := contents[key := value];
    assert Keys(bin') == Keys(bin) + [key];
    assert forall i :: 0 <= i < |bin| ==> bin[i].key in contents;
    UpdateBin(bins, contents, hashOf, slot, key, bin', contents');
  }

  /** Unlinking the node of a present key. */
  lemma RemovePresent<K, V>(bins: seq<seq<Node<K, V>>>, contents: map<Ref<K>, Ref<V>>,
                            hashOf: Ref<K> -> nat, slot: nat -> nat, key: Ref<K>)
    requires TableOf(bins, contents, hashOf, slot) && key in contents
    ensures slot(hashOf(key)) < |bins|
    ensures var j := slot(hashOf(key));
      var k := FirstIndex(Keys(bins[j]), key);
      && 0 <= k < |bins[j]|
      && TableOf(bins[j := DeleteAt(bins[j], k)], contents - {key}, hashOf, slot)
  {
    Lookup(bins, contents, hashOf, slot, key);
    var j := slot(hashOf(key));
    var bin := bins[j];
    var k := FirstIndex(Keys(bin), key);
    assert DistinctBin(bin);
    DeleteFromBin(bin, k, contents, hashOf, slot, j);
    UpdateBin(bins, contents, hashOf, slot, key, DeleteAt(bin, k), contents - {key});
  }

  /** The bin-level facts behind `RemovePresent`. */
  lemma DeleteFromBin<K, V>(bin: seq<Node<K, V>>, k: nat, contents: map<Ref<K>, Ref<V>>,
                            hashOf: Ref<K> -> nat, slot: nat -> nat, j: nat)
    requires k < |bin| && DistinctBin(bin)
    requires forall i :: 0 <= i < |bin| ==> bin[i].hash == hashOf(bin[i].key) && slot(bin[i].hash) == j
    requires forall i :: 0 <= i < |bin| ==> bin[i].key in contents && contents[bin[i].key] == bin[i].value
    ensures var bin' := DeleteAt(bin, k);
      var key := bin[k].key;
      && DistinctBin(bin')
      && (forall i :: 0 <= i < |bin'| ==> bin'[i].hash == hashOf(bin'[i].key) && slot(bin'[i].hash) == j)
      && (forall i :: 0 <= i < |bin'| ==> bin'[i].key in contents - {key} && (contents - {key})[bin'[i].key] == bin'[i].value)
      && key !in Keys(bin')
      && (forall k1 :: k1 != key && k1 in Keys(bin) ==> k1 in Keys(bin'))
  {
    var bin' := DeleteAt(bin, k);
    var key := bin[k].key;
    DeleteAtKeys(bin, k);
    forall k1 | k1 != key && k1 in Keys(bin)
      ensures k1 in Keys(bin')
    {
      var i :| 0 <= i < |bin| && bin[i].key == k1;
      if i < k {
        assert Keys(bin')[i] == k1;
      } else {
        assert Keys(bin')[i - 1] == k1;
      }
    }
  }

  /** Deleting position `k` of a bin, read off node by node. */
  lemma DeleteAtKeys<K, V>(bin: seq<Node<K, V>>, k: nat)
    requires k < |bin|
    ensures |DeleteAt(bin, k)| == |bin| - 1
    ensures forall i :: 0 <= i < k ==> DeleteAt(bin, k)[i] == bin[i]
    ensures forall i :: k <= i < |bin| - 1 ==> DeleteAt(bin, k)[i] == bin[i + 1]
    ensures Keys(DeleteAt(bin, k)) == DeleteAt(Keys(bin), k)
  {
  }

  // ---------------------------------------------------------------------------
  // The resize split

  /**
   * The nodes of `bin`, in chain order, whose `bit` of the hash is set
   * (`high`) or clear (not `high`): the `hi` and `lo` chains of `resize`.
   */
  function Half<K, V>(bin: seq<Node<K, V>>, bit: nat, high: bool): (r: seq<Node<K, V>>)
    ensures |r| <= |bin|
  {
    if |bin| == 0 then []
    else
      var last := bin[|bin| - 1];
      Half(bin[..|bin| - 1], bit, high) + (if (And(last.hash, bit) != 0) == high then [last] else [])
  }

  lemma HalfSnoc<K, V>(bin: seq<Node<K, V>>, x: Node<K, V>, bit: nat, high: bool)
    ensures Half(bin + [x], bit, high) == Half(bin, bit, high) + (if (And(x.hash, bit) != 0) == high then [x] else [])
  {
    assert (bin + [x])[..|bin|] == bin;
  }

  /** The halves of a one-node bin. */
  lemma HalfSingle<K, V>(x: Node<K, V>, bit: nat, high: bool)
    ensures Half([x], bit, high) == if (And(x.hash, bit) != 0) == high then [x] else []
  {
    assert [x][..0] == [];
  }

  /** A half holds exactly the nodes of the bin with the right bit. */
  lemma {:induction false} HalfMembers<K, V>(bin: seq<Node<K, V>>, bit: nat, high: bool, x: Node<K, V>)
    ensures x in Half(bin, bit, high) <==> x in bin && (And(x.hash, bit) != 0) == high
  {
    if |bin| > 0 {
      var init := bin[..|bin| - 1];
      HalfMembers(init, bit, high, x);
      assert bin == init + [bin[|bin| - 1]];
    }
  }

  /** The two halves share the nodes of the bin out between them: none is lost or duplicated. */
  lemma {:induction false} HalvesPartition<K, V>(bin: seq<Node<K, V>>, bit: nat)
    ensures multiset(Half(bin, bit, false)) + multiset(Half(bin, bit, true)) == multiset(bin)
  {
    if |bin| > 0 {
      var init := bin[..|bin| - 1];
      HalvesPartition(init, bit);
      assert bin == init + [bin[|bin| - 1]];
    }
  }

  /** A half of a bin without repeated keys has none either. */
  lemma {:induction false} HalfDistinct<K, V>(bin: seq<Node<K, V>>, bit: nat, high: bool)
    requires DistinctBin(bin)
    ensures DistinctBin(Half(bin, bit, high))
  {
    if |bin| > 0 {
      var init := bin[..|bin| - 1];
      var last := bin[|bin| - 1];
      assert DistinctBin(init);
      HalfDistinct(init, bit, high);
      var h := Half(init, bit, high);
      forall y | y in h
        ensures y.key != last.key
      {
        HalfMembers(init, bit, high, y);
      }
    }
  }

  /**
   * The table `resize` builds from `bins`: bin `j` keeps its `lo` half and bin
   * `j + |bins|` receives its `hi` half, split on the bit `|bins|` of the hash.
   */
  function Rehash<K, V>(bins: seq<seq<Node<K, V>>>): (r: seq<seq<Node<K, V>>>)
    ensures |r| == 2 * |bins|
  {
    Halves(bins, |bins|, false) + Halves(bins, |bins|, true)
  }

  /** The `lo` (or `hi`) half of every bin, split on `bit`. */
  function Halves<K, V>(bins: seq<seq<Node<K, V>>>, bit: nat, high: bool): (r: seq<seq<Node<K, V>>>)
    ensures |r| == |bins|
    ensures forall j :: 0 <= j < |bins| ==> r[j] == Half(bins[j], bit, high)
  {
    seq(|bins|, j requires 0 <= j < |bins| => Half(bins[j], bit, high))
  }

  /** All the nodes of a table, counted with multiplicity. */
  ghost function AllNodes<K, V>(bins: seq<seq<Node<K, V>>>): multiset<Node<K, V>>
  {
    if |bins| == 0 then multiset{} else AllNodes(bins[..|bins| - 1]) + multiset(bins[|bins| - 1])
  }

  lemma {:induction false} AllNodesAppend<K, V>(a: seq<seq<Node<K, V>>>, b: seq<seq<Node<K, V>>>)
    ensures AllNodes(a + b) == AllNodes(a) + AllNodes(b)
  {
    if |b| > 0 {
      var init := b[..|b| - 1];
      AllNodesAppend(a, init);
      assert (a + b)[..|a + b| - 1] == a + init;
    } else {
      assert a + b == a;
    }
  }

  lemma {:induction false} HalvesNodes<K, V>(bins: seq<seq<Node<K, V>>>, bit: nat)
    ensures AllNodes(Halves(bins, bit, false)) + AllNodes(Halves(bins, bit, true)) == AllNodes(bins)
  {
    if |bins| > 0 {
      var init := bins[..|bins| - 1];
      HalvesNodes(init, bit);
      assert Halves(bins, bit, false)[..|bins| - 1] == Halves(init, bit, false);
      assert Halves(bins, bit, true)[..|bins| - 1] == Halves(init, bit, true);
      HalvesPartition(bins[|bins| - 1], bit);
    }
  }

  /** Resizing loses and duplicates no node. */
  lemma RehashNodes<K, V>(bins: seq<seq<Node<K, V>>>)
    ensures AllNodes(Rehash(bins)) == AllNodes(bins)
  {
    AllNodesAppend(Halves(bins, |bins|, false), Halves(bins, |bins|, true));
    HalvesNodes(bins, |bins|);
  }

  /** A node of the rehashed table comes from the old bin below it, with the matching bit. */
  lemma RehashMember<K, V>(bins: seq<seq<Node<K, V>>>, j: nat, i: nat)
    requires j < 2 * |bins| && i < |Rehash(bins)[j]|
    ensures var n := |bins|;
      var x := Rehash(bins)[j][i];
      if j < n then x in bins[j] && And(x.hash, n) == 0 else x in bins[j - n] && And(x.hash, n) != 0
  {
    var n := |bins|;
    var x := Rehash(bins)[j][i];
    if j < n {
      HalfMembers(bins[j], n, false, x);
    } else {
      HalfMembers(bins[j - n], n, true, x);
    }
  }

  /**
   * After resizing every node sits in the bin its hash selects in the doubled
   * table (`slot2`, which adds `|bins|` exactly when that bit of the hash is
   * set), and the table still holds the same mapping.
   */
  lemma RehashTable<K, V>(bins: seq<seq<Node<K, V>>>, contents: map<Ref<K>, Ref<V>>,
                          hashOf: Ref<K> -> nat, slot: nat -> nat, slot2: nat -> nat)
    requires TableOf(bins, contents, hashOf, slot)
    requires forall h :: slot2(h) == slot(h) + (if And(h, |bins|) == 0 then 0 else |bins|)
    ensures TableOf(Rehash(bins), contents, hashOf, slot2)
  {
    RehashPlaced(bins, contents, hashOf, slot, slot2);
    RehashDistinct(bins);
    RehashFinds(bins, contents, hashOf, slot, slot2);
  }

  /**
   * Resizing a table of `n` bins placed by `(n - 1) & hash` yields the table
   * of `2 * n` bins placed by `(2 * n - 1) & hash`, holding the same mapping.
   */
  lemma RehashIndexed<K, V>(bins: seq<seq<Node<K, V>>>, contents: map<Ref<K>, Ref<V>>,
                            hashOf: Ref<K> -> nat, n: nat)
    requires IsPow2(n) && |bins| == n && TableOf(bins, contents, hashOf, SlotOf(n))
    ensures TableOf(Rehash(bins), contents, hashOf, SlotOf(2 * n))
  {
    forall h: nat
      ensures SlotOf(2 * n)(h) == SlotOf(n)(h) + (if And(h, n) == 0 then 0 else n)
    {
      IndexSplit(h, n);
    }
    RehashTable(bins, contents, hashOf, SlotOf(n), SlotOf(2 * n));
  }

  /** After resizing every node is still an entry, placed by `slot2`. */
  lemma RehashPlaced<K, V>(bins: seq<seq<Node<K, V>>>, contents: map<Ref<K>, Ref<V>>,
                           hashOf: Ref<K> -> nat, slot: nat -> nat, slot2: nat -> nat)
    requires TableOf(bins, contents, hashOf, slot)
    requires forall h :: slot2(h) == slot(h) + (if And(h, |bins|) == 0 then 0 else |bins|)
    ensures WellPlaced(Rehash(bins), hashOf, slot2)
    ensures forall j, i :: 0 <= j < |Rehash(bins)| && 0 <= i < |Rehash(bins)[j]| ==>
      Rehash(bins)[j][i].key in contents && contents[Rehash(bins)[j][i].key] == Rehash(bins)[j][i].value
  {
    var n := |bins|;
    var r: seq<seq<Node<K, V>>> := Rehash(bins);
    forall j: int, i: int | 0 <= j < |r| && 0 <= i < |r[j]|
      ensures r[j][i].hash == hashOf(r[j][i].key) && slot2(r[j][i].hash) == j
      ensures r[j][i].key in contents && contents[r[j][i].key] == r[j][i].value
    {
      RehashMember(bins, j, i);
      var x := r[j][i];
      var j0 := if j < n then j else j - n;
      var i0 :| 0 <= i0 < |bins[j0]| && bins[j0][i0] == x;
    }
  }

  /** Resizing keeps every bin free of repeated keys. */
  lemma RehashDistinct<K, V>(bins: seq<seq<Node<K, V>>>)
    requires DistinctBins(bins)
    ensures DistinctBins(Rehash(bins))
  {
    var n := |bins|;
    var r: seq<seq<Node<K, V>>> := Rehash(bins);
    forall j | 0 <= j < |r|
      ensures DistinctBin(r[j])
    {
      if j < n {
        HalfDistinct(bins[j], n, false);
      } else {
        HalfDistinct(bins[j - n], n, true);
      }
    }
  }

  /** After resizing every key of the mapping is found in the bin `slot2` selects. */
  lemma RehashFinds<K, V>(bins: seq<seq<Node<K, V>>>, contents: map<Ref<K>, Ref<V>>,
                          hashOf: Ref<K> -> nat, slot: nat -> nat, slot2: nat -> nat)
    requires WellPlaced(bins, hashOf, slot)
    requires forall key :: key in contents ==> slot(hashOf(key)) < |bins| && key in Keys(bins[slot(hashOf(key))])
    requires forall h :: slot2(h) == slot(h) + (if And(h, |bins|) == 0 then 0 else |bins|)
    ensures forall key :: key in contents ==>
      slot2(hashOf(key)) < |Rehash(bins)| && key in Keys(Rehash(bins)[slot2(hashOf(key))])
  {
    forall key | key in contents
      ensures slot2(hashOf(key)) < |Rehash(bins)| && key in Keys(Rehash(bins)[slot2(hashOf(key))])
    {
      RehashFindsKey(bins, bins[slot(hashOf(key))], slot(hashOf(key)), hashOf(key), key);
    }
  }

  /** A key of bin `j`, hashed to `hash`, lands in bin `j` or `j + |bins|` of the resized table. */
  lemma RehashFindsKey<K, V>(bins: seq<seq<Node<K, V>>>, bin: seq<Node<K, V>>, j: nat, hash: nat, key: Ref<K>)
    requires j < |bins| && bin == bins[j] && key in Keys(bin)
    requires forall i :: 0 <= i < |bin| && bin[i].key == key ==> bin[i].hash == hash
    ensures var j2 := j + (if And(hash, |bins|) == 0 then 0 else |bins|);
      j2 < |Rehash(bins)| && key in Keys(Rehash(bins)[j2])
  {
    var i :| 0 <= i < |bin| && bin[i].key == key;
    RehashFindsNode(bins, j, i);
  }

  /** The node at position `i` of bin `j` lands in bin `j` or `j + |bins|` of the resized table. */
  lemma RehashFindsNode<K, V>(bins: seq<seq<Node<K, V>>>, j: nat, i: nat)
    requires j < |bins| && i < |bins[j]|
    ensures var x := bins[j][i];
      var j2 := j + (if And(x.hash, |bins|) == 0 then 0 else |bins|);
      j2 < |Rehash(bins)| && x.key in Keys(Rehash(bins)[j2])
  {
    var n := |bins|;
    var x := bins[j][i];
    var high := And(x.hash, n) != 0;
    HalfMembers(bins[j], n, high, x);
    var h := Half(bins[j], n, high);
    var i1 :| 0 <= i1 < |h| && h[i1] == x;
    assert Keys(h)[i1] == x.key;
  }

  // ---------------------------------------------------------------------------
  // The invariant as the methods of `HashMap` see it
  //
  // `Sealed` is `TableOf` behind a quantifier that only the term `Peek(i)`
  // triggers. A method whose class invariant holds `Sealed` therefore carries
  // the table facts without unfolding them at every step; the lemmas below
  // open the seal (`assert Peek(0)`), apply the lemma about `TableOf`, and
  // seal the result again.

  ghost predicate Peek(i: int)
  {
    true
  }

  /** `TableOf`, visible only through the lemmas of this section. */
  ghost predicate Sealed<K, V>(bins: seq<seq<Node<K, V>>>, contents: map<Ref<K>, Ref<V>>,
                               hashOf: Ref<K> -> nat, slot: nat -> nat)
  {
    forall i {:trigger Peek(i)} :: Peek(i) ==> TableOf(bins, contents, hashOf, slot)
  }

  /**
   * What the table says about the bin of `key`: a node with the key carries
   * `hash`, and the first such node is there exactly when `key` is mapped,
   * holding its value.
   */
  ghost predicate FindsKey<K, V>(bin: seq<Node<K, V>>, hash: nat, key: Ref<K>, contents: map<Ref<K>, Ref<V>>)
  {
    && (forall i :: 0 <= i < |bin| && bin[i].key == key ==> bin[i].hash == hash)
    && (key in contents <==> FirstIndex(Keys(bin), key) >= 0)
    && (FirstIndex(Keys(bin), key) >= 0 ==> bin[FirstIndex(Keys(bin), key)] == Node(hash, key, contents[key]))
  }

  /** A new table of empty bins, holding the empty mapping. */
  lemma SealedEmpty<K, V>(n: nat, hashOf: Ref<K> -> nat, slot: nat -> nat)
    requires forall h :: slot(h) < n
    ensures Sealed(EmptyBins<K, V>(n), map[], hashOf, slot)
  {
    EmptyTable<K, V>(n, hashOf, slot);
  }

  /** The empty mapping has only empty bins. */
  lemma SealedEmptyBins<K, V>(bins: seq<seq<Node<K, V>>>, contents: map<Ref<K>, Ref<V>>,
                              hashOf: Ref<K> -> nat, slot: nat -> nat)
    requires Sealed(bins, contents, hashOf, slot) && contents == map[]
    ensures forall j :: 0 <= j < |bins| ==> bins[j] == []
  {
    assert Peek(0);
    EmptyContents(bins, contents, hashOf, slot);
  }

  /** `Lookup`, with the hash every node of the key carries. */
  lemma FindKey<K, V>(bins: seq<seq<Node<K, V>>>, contents: map<Ref<K>, Ref<V>>,
                      hashOf: Ref<K> -> nat, slot: nat -> nat, key: Ref<K>)
    requires Sealed(bins, contents, hashOf, slot)
    ensures slot(hashOf(key)) < |bins| && FindsKey(bins[slot(hashOf(key))], hashOf(key), key, contents)
  {
    assert Peek(0);
    Lookup(bins, contents, hashOf, slot, key);
  }

  /** `ValueInTable` */
  lemma FindValue<K, V>(bins: seq<seq<Node<K, V>>>, contents: map<Ref<K>, Ref<V>>,
                        hashOf: Ref<K> -> nat, slot: nat -> nat, value: Ref<V>)
    requires Sealed(bins, contents, hashOf, slot)
    ensures value in contents.Values <==>
      exists j, i :: 0 <= j < |bins| && 0 <= i < |bins[j]| && bins[j][i].value == value
  {
    assert Peek(0);
    ValueInTable(bins, contents, hashOf, slot, value);
  }

  /** `PutPresent`, with the new table `bins'` spelled out, and the size of the mapping unchanged. */
  lemma ReplaceAt<K, V>(bins: seq<seq<Node<K, V>>>, contents: map<Ref<K>, Ref<V>>,
                        hashOf: Ref<K> -> nat, slot: nat -> nat, key: Ref<K>, value: Ref<V>,
                        j: nat, k: nat, bins': seq<seq<Node<K, V>>>)
    requires Sealed(bins, contents, hashOf, slot) && key in contents
    requires j == slot(hashOf(key)) && j < |bins| && k < |bins[j]| && k == FirstIndex(Keys(bins[j]), key)
    requires bins' == bins[j := bins[j][k := Node(hashOf(key), key, value)]]
    ensures Sealed(bins', contents[key := value], hashOf, slot)
    ensures |contents[key := value]| == |contents|
  {
    assert Peek(0);
    PutPresent(bins, contents, hashOf, slot, key, value);
  }

  /** `PutAbsent`, with the new table `bins'` spelled out, and one more mapping. */
  lemma AppendAt<K, V>(bins: seq<seq<Node<K, V>>>, contents: map<Ref<K>, Ref<V>>,
                       hashOf: Ref<K> -> nat, slot: nat -> nat, key: Ref<K>, value: Ref<V>,
                       j: nat, bins': seq<seq<Node<K, V>>>)
    requires Sealed(bins, contents, hashOf, slot) && key !in contents
    requires j == slot(hashOf(key)) && j < |bins|
    requires bins' == bins[j := bins[j] + [Node(hashOf(key), key, value)]]
    ensures Sealed(bins', contents[key := value], hashOf, slot)
    ensures |contents[key := value]| == |contents| + 1
  {
    assert Peek(0);
    PutAbsent(bins, contents, hashOf, slot, key, value);
  }

  /** `RemovePresent`, with the new table `bins'` spelled out, and one mapping less. */
  lemma RemoveAt<K, V>(bins: seq<seq<Node<K, V>>>, contents: map<Ref<K>, Ref<V>>,
                       hashOf: Ref<K> -> nat, slot: nat -> nat, key: Ref<K>,
                       j: nat, k: nat, bins': seq<seq<Node<K, V>>>)
    requires Sealed(bins, contents, hashOf, slot) && key in contents
    requires j == slot(hashOf(key)) && j < |bins| && k < |bins[j]| && k == FirstIndex(Keys(bins[j]), key)
    requires bins' == bins[j := DeleteAt(bins[j], k)]
    ensures Sealed(bins', contents - {key}, hashOf, slot)
    ensures |contents - {key}| == |contents| - 1
  {
    assert Peek(0);
    RemovePresent(bins, contents, hashOf, slot, key);
  }

  /** `RehashIndexed`, together with the placement of every node in the old table. */
  lemma SealedRehash<K, V>(bins: seq<seq<Node<K, V>>>, contents: map<Ref<K>, Ref<V>>,
                           hashOf: Ref<K> -> nat, n: nat)
    requires IsPow2(n) && |bins| == n && Sealed(bins, contents, hashOf, SlotOf(n))
    ensures forall j, i :: 0 <= j < n && 0 <= i < |bins[j]| ==> Index(bins[j][i].hash, n) == j
    ensures Sealed(Rehash(bins), contents, hashOf, SlotOf(2 * n))
  {
    assert Peek(0);
    RehashIndexed(bins, contents, hashOf, n);
  }
}

=== FILE: java_lang.dfy ===
/**
 * The few pieces of the Java platform the containers rely on: 32-bit `int`
 * arithmetic, the exceptions they throw, nullable references, and the two
 * array primitives `System.arraycopy` and `Arrays.copyOf`.
 */
module JavaLang {

  const INT_MIN: int := -0x8000_0000
  const INT_MAX: int := 0x7FFF_FFFF
  const TWO_32: int := 0x1_0000_0000

  /** The values of a Java `int`. */
  type int32 = x: int | INT_MIN <= x <= INT_MAX

  /** The value 32-bit two's-complement arithmetic yields for the exact result `x`. */
  function Wrap32(x: int): (r: int32)
    ensures (r - x) % TWO_32 == 0
    ensures INT_MIN <= x <= INT_MAX ==> r == x
    ensures INT_MAX < x < INT_MAX + TWO_32 ==> r == x - TWO_32
    ensures INT_MIN - TWO_32 <= x < INT_MIN ==> r == x + TWO_32
  {
    (x - INT_MIN) % TWO_32 + INT_MIN
  }

  /** The 32-bit pattern of an `int`, read as an unsigned number. */
  function Unsigned(x: int32): (u: nat)
    ensures u < TWO_32
    ensures x >= 0 ==> u == x
    ensures x < 0 ==> u == x + TWO_32
  {
    if x >= 0 then x else x + TWO_32
  }

  /** The `int` whose 32-bit pattern is `u`: the inverse of `Unsigned`. */
  function Signed(u: nat): (x: int32)
    requires u < TWO_32
    ensures Unsigned(x) == u
  {
    if u <= INT_MAX then u else u - TWO_32
  }

  /** The throwables the modelled code raises. */
  datatype Exception =
    | IndexOutOfBounds
    | ArrayIndexOutOfBounds
    | NegativeArraySize
    | ConcurrentModification
    | NoSuchElement
    | IllegalState
    | IllegalArgument
    | UnsupportedOperation
    | NullPointer
    | OutOfMemory
    | StackOverflow

  /** A value, or the exception thrown instead of returning one. */
  datatype Result<+R> = Ok(value: R) | Err(error: Exception)

  /** Normal completion of a `void` method, or the exception it threw. */
  datatype Outcome = Pass | Fail(error: Exception)

  /** A Java reference: `null` or an object. */
  datatype Ref<+T> = Null | Obj(target: T)

  /**
   * `System.arraycopy`: copies `length` slots of `src` from `srcPos` into `dest`
   * from `destPos`, as if through a temporary array, so `src` and `dest` may be
   * the same array and the ranges may overlap.
   */
  method ArrayCopy<T>(src: array<T>, srcPos: nat, dest: array<T>, destPos: nat, length: nat)
    requires srcPos + length <= src.Length && destPos + length <= dest.Length
    modifies dest
    ensures dest[..] == Copied(old(dest[..]), old(src[..]), srcPos, destPos, length)
  {
    ghost var d, s := dest[..], src[..];
    if src != dest {
      CopyBetween(src, srcPos, dest, destPos, length);
    } else if srcPos < destPos {
      CopyDownward(dest, srcPos, destPos, length);
    } else {
      CopyUpward(dest, srcPos, destPos, length);
    }
    CopiedSlots(d, s, dest[..], srcPos, destPos, length);
  }

  /** What `ArrayCopy` leaves in `d`: the window `[destPos, destPos + length)` replaced by `s` from `srcPos`. */
  function Copied<T>(d: seq<T>, s: seq<T>, srcPos: nat, destPos: nat, length: nat): (r: seq<T>)
    requires srcPos + length <= |s| && destPos + length <= |d|
    ensures |r| == |d|
  {
    d[..destPos] + s[srcPos..srcPos + length] + d[destPos + length..]
  }

  /** `Copied`, read off slot by slot. */
  lemma CopiedSlots<T>(d: seq<T>, s: seq<T>, r: seq<T>, srcPos: nat, destPos: nat, length: nat)
    requires srcPos + length <= |s| && destPos + length <= |d| == |r|
    requires forall k :: 0 <= k < destPos ==> r[k] == d[k]
    requires forall k :: destPos <= k < destPos + length ==> r[k] == s[srcPos + k - destPos]
    requires forall k :: destPos + length <= k < |d| ==> r[k] == d[k]
    ensures r == Copied(d, s, srcPos, destPos, length)
  {
  }

  /** The overlapping case of `ArrayCopy` with the source below the target: copy from the top down. */
  method CopyDownward<T>(a: array<T>, srcPos: nat, destPos: nat, length: nat)
    requires srcPos < destPos && destPos + length <= a.Length
    modifies a
    ensures forall k :: 0 <= k < destPos ==> a[k] == old(a[k])
    ensures forall k :: destPos <= k < destPos + length ==> a[k] == old(a[srcPos + k - destPos])
    ensures forall k :: destPos + length <= k < a.Length ==> a[k] == old(a[k])
  {
    var i := length;
    while i > 0
      invariant 0 <= i <= length
      invariant forall k :: 0 <= k < destPos + i ==> a[k] == old(a[k])
      invariant forall k :: destPos + i <= k < destPos + length ==> a[k] == old(a[srcPos + k - destPos])
      invariant forall k :: destPos + length <= k < a.Length ==> a[k] == old(a[k])
    {
      i := i - 1;
      a[destPos + i] := a[srcPos + i];
    }
  }

  /** `ArrayCopy` within one array towards lower indices: copy from the bottom up. */
  method CopyUpward<T>(a: array<T>, srcPos: nat, destPos: nat, length: nat)
    requires destPos <= srcPos && srcPos + length <= a.Length
    modifies a
    ensures forall k :: 0 <= k < destPos ==> a[k] == old(a[k])
    ensures forall k :: destPos <= k < destPos + length ==> a[k] == old(a[srcPos + k - destPos])
    ensures forall k :: destPos + length <= k < a.Length ==> a[k] == old(a[k])
  {
    var i := 0;
    while i < length
      invariant 0 <= i <= length
      invariant forall k :: 0 <= k < destPos ==> a[k] == old(a[k])
      invariant forall k :: destPos <= k < destPos + i ==> a[k] == old(a[srcPos + k - destPos])
      invariant forall k :: destPos + i <= k < a.Length ==> a[k] == old(a[k])
    {
      a[destPos + i] := a[srcPos + i];
      i := i + 1;
    }
  }

  /** `ArrayCopy` between two distinct arrays. */
  method CopyBetween<T>(src: array<T>, srcPos: nat, dest: array<T>, destPos: nat, length: nat)
    requires src != dest && srcPos + length <= src.Length && destPos + length <= dest.Length
    modifies dest
    ensures forall k :: 0 <= k < destPos ==> dest[k] == old(dest[k])
    ensures forall k :: destPos <= k < destPos + length ==> dest[k] == src[srcPos + k - destPos]
    ensures forall k :: destPos + length <= k < dest.Length ==> dest[k] == old(dest[k])
  {
    var i := 0;
    while i < length
      invariant 0 <= i <= length
      invariant forall k :: 0 <= k < destPos ==> dest[k] == old(dest[k])
      invariant forall k :: destPos <= k < destPos + i ==> dest[k] == src[srcPos + k - destPos]
      invariant forall k :: destPos + i <= k < dest.Length ==> dest[k] == old(dest[k])
    {
      dest[destPos + i] := src[srcPos + i];
      i := i + 1;
    }
  }

  /** `a[i] = v`, with the whole new contents of the array stated. */
  method Store<T>(a: array<T>, i: nat, v: T)
    requires i < a.Length
    modifies a
    ensures a[..] == old(a[..])[i := v]
  {
    a[i] := v;
  }

  /**
   * `Arrays.copyOf`: a new array of `newLength` slots holding the first
   * `newLength` elements of `a`, padded with `null`.
   */
  method CopyOf<T>(a: array<Ref<T>>, newLength: nat) returns (b: array<Ref<T>>)
    ensures fresh(b) && b.Length == newLength
    ensures forall k :: 0 <= k < newLength && k < a.Length ==> b[k] == a[k]
    ensures forall k :: a.Length <= k < newLength ==> b[k] == Null
  {
    b := new Ref<T>[newLength](_ => Null);
    var i := 0;
    while i < newLength && i < a.Length
      invariant 0 <= i <= newLength && i <= a.Length
      invariant forall k :: 0 <= k < i ==> b[k] == a[k]
      invariant forall k :: i <= k < newLength ==> b[k] == Null
    {
      b[i] := a[i];
      i := i + 1;
    }
  }
}

=== FILE: list_spec.dfy ===
/**
 * The abstract list operations every container in this project is specified
 * against: positional insert and delete, first and last occurrence, and the
 * order-preserving filter used by the bulk removals.
 */
module ListSpec {

  /** `s` with `x` inserted before position `i`. */
  function InsertAt<T>(s: seq<T>, i: nat, x: T): seq<T>
    requires i <= |s|
  {
    s[..i] + [x] + s[i..]
  }

  /** `s` with the elements of `xs` inserted, in order, before position `i`. */
  function InsertAllAt<T>(s: seq<T>, i: nat, xs: seq<T>): seq<T>
    requires i <= |s|
  {
    s[..i] + xs + s[i..]
  }

  /** `s` without its element at position `i`. */
  function DeleteAt<T>(s: seq<T>, i: nat): seq<T>
    requires i < |s|
  {
    s[..i] + s[i + 1..]
  }

  /** `s` without the elements at positions `from <= k < to`. */
  function DeleteRange<T>(s: seq<T>, from: nat, to: nat): seq<T>
    requires from <= to <= |s|
  {
    s[..from] + s[to..]
  }

  /** `after` holds `before[..n]` with `xs` inserted at `index`, read off slot by slot. */
  lemma InsertAllAtSlots<T>(before: seq<T>, after: seq<T>, n: nat, index: nat, xs: seq<T>)
    requires index <= n <= |before| && n + |xs| <= |after|
    requires forall k :: 0 <= k < index ==> after[k] == before[k]
    requires forall k :: index <= k < index + |xs| ==> after[k] == xs[k - index]
    requires forall k :: index + |xs| <= k < n + |xs| ==> after[k] == before[k - |xs|]
    ensures after[..n + |xs|] == InsertAllAt(before[..n], index, xs)
  {
  }

  /** `after` holds `before[..n]` without `[from, to)`, read off slot by slot. */
  lemma DeleteRangeSlots<T>(before: seq<T>, after: seq<T>, n: nat, from: nat, to: nat)
    requires from <= to <= n <= |before| && n - (to - from) <= |after|
    requires forall k :: 0 <= k < from ==> after[k] == before[k]
    requires forall k :: from <= k < n - (to - from) ==> after[k] == before[k + (to - from)]
    ensures after[..n - (to - from)] == DeleteRange(before[..n], from, to)
  {
  }

  /** Inserting into a window of `s` is inserting into `s` at the offset position. */
  lemma InsertAllAtWindow<T>(s: seq<T>, off: nat, len: nat, i: nat, xs: seq<T>)
    requires i <= len && off + len <= |s|
    ensures InsertAllAt(s, off + i, xs)[off..off + len + |xs|] == InsertAllAt(s[off..off + len], i, xs)
  {
    var t := InsertAllAt(s, off + i, xs);
    var w := InsertAllAt(s[off..off + len], i, xs);
    assert |t[off..off + len + |xs|]| == |w|;
    forall k | 0 <= k < |w|
      ensures t[off + k] == w[k]
    {
      if k < i {
      } else if k < i + |xs| {
      } else {
      }
    }
  }

  /** Deleting from a window of `s` is deleting from `s` at the offset positions. */
  lemma DeleteRangeWindow<T>(s: seq<T>, off: nat, len: nat, from: nat, to: nat)
    requires from <= to <= len && off + len <= |s|
    ensures DeleteRange(s, off + from, off + to)[off..off + len - (to - from)] == DeleteRange(s[off..off + len], from, to)
  {
    var t := DeleteRange(s, off + from, off + to);
    var w := DeleteRange(s[off..off + len], from, to);
    assert |t[off..off + len - (to - from)]| == |w|;
    forall k | 0 <= k < |w|
      ensures t[off + k] == w[k]
    {
      if k < from {
      } else {
      }
    }
  }

  lemma InsertAtIsInsertAll<T>(s: seq<T>, i: nat, x: T)
    requires i <= |s|
    ensures InsertAt(s, i, x) == InsertAllAt(s, i, [x])
  {
  }

  /** Inserting and then deleting at the same position gives back the list. */
  lemma DeleteInsert<T>(s: seq<T>, i: nat, x: T)
    requires i <= |s|
    ensures DeleteAt(InsertAt(s, i, x), i) == s
  {
    assert InsertAt(s, i, x)[..i] == s[..i];
    assert InsertAt(s, i, x)[i + 1..] == s[i..];
  }

  /** Deleting one element is deleting the range of length one there. */
  lemma DeleteAtIsRange<T>(s: seq<T>, i: nat)
    requires i < |s|
    ensures DeleteAt(s, i) == DeleteRange(s, i, i + 1)
  {
  }

  /** The index of the first `x` in `s`, or -1. */
  function FirstIndex<T(==)>(s: seq<T>, x: T): (r: int)
    ensures -1 <= r < |s|
    ensures r == -1 <==> x !in s
    ensures r >= 0 ==> s[r] == x && x !in s[..r]
  {
    if |s| == 0 then -1
    else if s[0] == x then 0
    else
      var k := FirstIndex(s[1..], x);
      if k == -1 then -1
      else
        assert s[..k + 1] == [s[0]] + s[1..][..k];
        k + 1
  }

  /** The index of the last `x` in `s`, or -1. */
  function LastIndex<T(==)>(s: seq<T>, x: T): (r: int)
    ensures -1 <= r < |s|
    ensures r == -1 <==> x !in s
    ensures r >= 0 ==> s[r] == x && x !in s[r + 1..]
  {
    if |s| == 0 then -1
    else if s[|s| - 1] == x then |s| - 1
    else
      var k := LastIndex(s[..|s| - 1], x);
      assert s[..|s| - 1][k + 1..] + [s[|s| - 1]] == s[k + 1..];
      k
  }

  /** A position holding `x` with no `x` before it is the first index. */
  lemma FirstIndexAt<T>(s: seq<T>, x: T, i: nat)
    requires i < |s| && s[i] == x && x !in s[..i]
    ensures FirstIndex(s, x) == i
  {
  }

  /** A position holding `x` with no `x` after it is the last index. */
  lemma LastIndexAt<T>(s: seq<T>, x: T, i: nat)
    requires i < |s| && s[i] == x && x !in s[i + 1..]
    ensures LastIndex(s, x) == i
  {
  }

  /** `s` without the first `x`, if there is one. */
  function RemoveFirst<T(==)>(s: seq<T>, x: T): seq<T>
  {
    if x in s then DeleteAt(s, FirstIndex(s, x)) else s
  }

  /**
   * The elements `e` of `s`, in order, for which `(e in c) == complement`: with
   * `complement` false the survivors of `removeAll(c)`, with it true those of
   * `retainAll(c)`.
   */
  function Keep<T(==)>(s: seq<T>, c: seq<T>, complement: bool): (r: seq<T>)
    ensures |r| <= |s|
  {
    if |s| == 0 then []
    else
      var last := s[|s| - 1];
      Keep(s[..|s| - 1], c, complement) + (if (last in c) == complement then [last] else [])
  }

  /** The survivors are exactly the elements that pass the test. */
  lemma {:induction false} KeepMembers<T>(s: seq<T>, c: seq<T>, complement: bool, x: T)
    ensures x in Keep(s, c, complement) <==> x in s && (x in c) == complement
  {
    if |s| > 0 {
      var init := s[..|s| - 1];
      KeepMembers(init, c, complement, x);
      assert s == init + [s[|s| - 1]];
    }
  }

  /** Nothing is dropped exactly when every element passes the test. */
  lemma {:induction false} KeepAll<T>(s: seq<T>, c: seq<T>, complement: bool)
    ensures |Keep(s, c, complement)| == |s| <==> forall x :: x in s ==> (x in c) == complement
  {
    if |s| > 0 {
      var init := s[..|s| - 1];
      KeepAll(init, c, complement);
      assert s == init + [s[|s| - 1]];
      if |Keep(s, c, complement)| == |s| {
        assert |Keep(init, c, complement)| == |init|;
      }
    }
  }

  /** When every element passes, the filter leaves the list as it is. */
  lemma {:induction false} KeepUnchanged<T>(s: seq<T>, c: seq<T>, complement: bool)
    requires forall x :: x in s ==> (x in c) == complement
    ensures Keep(s, c, complement) == s
  {
    if |s| > 0 {
      var init := s[..|s| - 1];
      assert s == init + [s[|s| - 1]];
      KeepUnchanged(init, c, complement);
    }
  }

  /** Filtering twice is filtering once. */
  lemma KeepIdempotent<T>(s: seq<T>, c: seq<T>, complement: bool)
    ensures Keep(Keep(s, c, complement), c, complement) == Keep(s, c, complement)
  {
    forall x | x in Keep(s, c, complement)
      ensures (x in c) == complement
    {
      KeepMembers(s, c, complement, x);
    }
    KeepUnchanged(Keep(s, c, complement), c, complement);
  }

  /** The filter of a prefix extended by one element. */
  lemma KeepSnoc<T>(s: seq<T>, x: T, c: seq<T>, complement: bool)
    ensures Keep(s + [x], c, complement) == Keep(s, c, complement) + (if (x in c) == complement then [x] else [])
  {
    assert (s + [x])[..|s|] == s;
  }
}
